=== FILE: README.md ===
# TowerDefense simulation core in Dafny

A model of the tick-driven simulation of a browser tower-defence game
(TypeScript, React Three Fiber). Enemies follow a path and cost lives when
they leak. Towers acquire targets and fire projectiles. Projectiles home in
and deal single-target or splash damage. Killed enemies pay currency and
score. A hero walks to clicked points, auto-attacks the nearest enemy and
casts three abilities on cooldown. A wave director spawns waves from a
queue, and the game loop runs every system in a fixed order and declares the
game won once the last wave is cleared.

The model also covers the shared game store, the tower factory with its
upgrade tree, the click that places a tower, two UI formatting helpers (the
wave status line and effect-name formatting), and the WAV encoder of the
synthesised sound effects.

## Modelling decisions

- **Immutable store.** The global store is an immutable `Store` datatype. Each
  store action is a pure function from store to store. Each system's
  `update(delta)` is a fold over a snapshot of the entities it reads, exactly
  as the source iterates a snapshot while writing through the store.
- **Geometry oracle.** Numbers are `real`. Square roots and `atan2` come from
  a `Geo` oracle parameter. Properties that need them state only what the
  source relies on: square roots are never negative and the square root of
  0 is 0, so distances are non-negative and a point is at distance 0 from
  itself.
- **Ids and randomness.** Ids are natural numbers handed out by an explicit
  counter that every module threads through (`nextId`). The source draws
  random strings instead.
- **Private system state.** A system's private fields live in
  `GameManager.World` next to the store:
  - the wave manager's timers and queue;
  - the attack system's game time;
  - the combat system's clock;
  - the ability key queued by a key press.
- **Player input.** Player input arrives between ticks as a
  `GameManager.Command`: a hero move, an ability key, the next-wave button, or
  a click on a tower spot.
- **WAV bytes.** The WAV encoder works on `seq<Byte>` with
  `newtype Byte = b: int | 0 <= b < 256`, little-endian as `DataView`
  writes it.
- **No-ops for missing entities.** Where the source looks an entity up by id
  and does nothing when it is missing, the model does the same. Such cases
  are error paths of the model, not preconditions.
- **Unique ids in lemmas.** Lemmas that need the ids in a list to be distinct
  (the source draws them at random) say so in a `requires`. The operations
  themselves never require it.

## Model

| member | source | states |
|---|---|---|
| Geometry.Lerp | src/utils/helpers.ts:20-22 | interpolation starts at `a` for t = 0 and ends at `b` for t = 1 |
| Geometry.LerpBetween | src/utils/helpers.ts:20-22 | for t in [0, 1] and a <= b the interpolated value stays between the two ends |
| Geometry.LerpVec | src/utils/helpers.ts:24-30 | vector interpolation starts at `a` and ends at `b` |
| Geometry.LerpWithin | src/utils/helpers.ts:20-22 | for t in [0, 1] the interpolated value lies between the two ends, whichever is larger |
| Geometry.LerpVecOnSegment | src/utils/helpers.ts:24-30 | the interpolated point is `a + t * (b - a)`, and for t in [0, 1] it lies in the box the two end points span |
| Geometry.Clamp | src/utils/helpers.ts:70-72 | the result lies in [lo, hi] when lo <= hi, equals the value inside the range, and the nearer bound outside it; with hi < lo the lower bound wins, as `max(min, min(max, v))` does |
| Geometry.Sub | src/utils/helpers.ts:42-48 | subtraction is undone by adding `b` back; subtracting the origin changes nothing |
| Geometry.Length | src/utils/helpers.ts:32-40 | a vector's length is non-negative |
| Geometry.Normalize | src/utils/helpers.ts:32-40 | the zero vector stays zero; otherwise the result is the input scaled by a non-negative factor |
| Geometry.Distance2D | src/utils/helpers.ts:14-18 | the planar distance is non-negative |
| Geometry.Distance2DProperties | src/utils/helpers.ts:14-18 | the planar distance is symmetric, ignores the heights of both points, and a point's distance to itself is 0 |
| Geometry.Distance3D | src/utils/helpers.ts:7-12 | the spatial distance is non-negative |
| Geometry.Distance3DSymmetric | src/utils/helpers.ts:7-12 | the spatial distance is symmetric |
| Geometry.Distance3DSelf | src/utils/helpers.ts:7-12 | a point's spatial distance to itself is 0 |
| Store.Initial | src/stores/gameStore.ts:4-27 | a new game: playing, 200 currency, 20 of 20 lives, score 0, empty field, 5 waves, nothing selected |
| Store.ResetGame | src/stores/gameStore.ts:116-119 | a reset gives the initial state whatever came before, and that state satisfies the store invariant |
| Store.AddCurrency | src/stores/gameStore.ts:35 | the purse grows by the amount and nothing else changes |
| Store.SpendCurrency | src/stores/gameStore.ts:36-43 | spending succeeds exactly when the purse covers the amount; on success the purse drops by it and stays non-negative, and on failure the store is untouched |
| Store.SpendUndoesAdd | src/stores/gameStore.ts:35-43 | spending what was just added succeeds and restores the original store |
| Store.SpendKeepsPurseNonNegative | src/stores/gameStore.ts:36-43 | through any sequence of attempted purchases a non-negative purse stays non-negative, nothing but the purse changes, and with no negative prices the purse never grows |
| Store.AddScore | src/stores/gameStore.ts:53 | the score grows by the points and nothing else changes |
| Store.LoseLives | src/stores/gameStore.ts:45-52 | lives drop by the amount, floored at 0; a playing game becomes lost exactly when lives hit 0, and only lives and the game state change |
| Store.LoseLivesBounds | src/stores/gameStore.ts:45-52 | lives never rise and never go negative; a playing game is lost exactly when the amount reaches the remaining lives |
| Store.AddEnemy | src/stores/gameStore.ts:56 | the enemy is appended after all existing enemies |
| Store.UpdateEnemy | src/stores/gameStore.ts:57-59 | every enemy with the id is replaced by its update and every other enemy is kept, in place |
| Store.RemoveEnemy | src/stores/gameStore.ts:60-62 | the result is the order-preserving subsequence of enemies whose id differs |
| Store.RemoveUndoesAddEnemy | src/stores/gameStore.ts:56-62 | removing a freshly added enemy whose id is new restores the store |
| Store.AddTower | src/stores/gameStore.ts:65 | the tower is appended and nothing else changes |
| Store.UpdateTower | src/stores/gameStore.ts:66-68 | every tower with the id is replaced by its update and every other tower is kept |
| Store.RemoveTower | src/stores/gameStore.ts:69-71 | the result is the order-preserving subsequence of towers whose id differs |
| Store.AddProjectile | src/stores/gameStore.ts:74-76 | the projectile is appended and nothing else changes |
| Store.RemoveProjectile | src/stores/gameStore.ts:77-79 | the result is the order-preserving subsequence of projectiles whose id differs |
| Store.UpdateHero | src/stores/gameStore.ts:83-85 | an existing hero is updated; with no hero nothing happens |
| Store.SetSpotOccupied | src/stores/gameStore.ts:89-98 | spots with the id get the flag, every other spot is kept |
| Store.OccupyTowerSpot | src/stores/gameStore.ts:89-93 | the named spot is occupied afterwards |
| Store.FreeTowerSpot | src/stores/gameStore.ts:94-98 | the named spot is free afterwards |
| Store.FreeUndoesOccupy | src/stores/gameStore.ts:89-98 | freeing a spot just occupied restores a store whose spot was free |
| Store.DecrementEnemiesRemaining | src/stores/gameStore.ts:106-108 | the remaining count drops by one, floored at 0 |
| Store.DecrementTimesCount | src/stores/gameStore.ts:106-108 | k decrements drop the remaining count by k, floored at 0, and change nothing else |
| Entities.CreateEnemy | src/entities/Enemy.ts:4-29 | a new enemy has full health, the stats given, path index 0 and progress 0, and is neither dead nor at the end |
| Entities.CreateHero | src/entities/Hero.ts:4-41 | a new hero has full health, the stats given, every ability ready (cooldown 0), no target and is not moving |
| Entities.CreateProjectile | src/entities/Projectile.ts:4-26 | a new projectile starts at its start position with progress 0, carrying the damage, speed and splash given |
| Entities.CreateTower | src/entities/Tower.ts:7-36 | a new tower is tier 1 with no branch, no special effect, the config's stats, never fired and no target, and its cost already invested |
| Entities.TierNumber | src/entities/Tower.ts:39-44 | tiers number 1 to 4, and 4 exactly for the two final branches |
| Entities.NextTiers | src/entities/Tower.ts:46-60 | each next tier is exactly one level up, at most two are offered, and none from tier 4 |
| Entities.CanUpgradeTo | src/entities/Tower.ts:62-65 | an upgrade is allowed exactly to one of the next tiers, hence always one level up |
| TowerFactory.Create | src/entities/TowerFactory.ts:13-21 | a created tower is tier 1 and has invested exactly the type's cost |
| TowerFactory.GetUpgrade | src/entities/TowerFactory.ts:36-52 | every tier above 1 has an upgrade entry, and tier 1 has none |
| TowerFactory.GetUpgradeCost | src/entities/TowerFactory.ts:54-57 | the price of a tier is its upgrade's cost, and 0 for tier 1 |
| TowerFactory.GetTowerDisplayName | src/entities/TowerFactory.ts:129-137 | a tier-1 tower shows its type's name, a higher tier shows its upgrade's name |
| TowerFactory.GetAvailableUpgrades | src/entities/TowerFactory.ts:59-81 | the offered upgrades are exactly those of the next tiers, in order; none at tier 4 |
| TowerFactory.ApplyUpgrade | src/entities/TowerFactory.ts:83-127 | an upgrade fails exactly when the tier is not next; otherwise it sets the tier, adds the price to the investment, scales damage, range, fire rate and splash by the modifiers present, takes a non-empty special effect, records the branch at tier 4 and keeps identity, position and firing state |
| TowerFactory.UpgradesCompound | src/entities/TowerFactory.ts:83-127 | upgrading 1 to 2 to 3 succeeds, multiplies each stat by both modifiers in turn and invests both prices |
| TowerFactory.TierThreeBranches | src/entities/TowerFactory.ts:59-81 | at tier 3 both branches 4A and 4B can be applied and are the two upgrades offered |
| TowerFactory.TierFourIsFinal | src/entities/TowerFactory.ts:83-127 | nothing can be applied to or offered for a tier-4 tower |
| TowerFactory.GetSellValue | src/entities/TowerFactory.ts:149-152 | a tower sells for 60% of everything invested, rounded down, which is never more than was invested |
| TowerFactory.SixtyPercentFloor | src/entities/TowerFactory.ts:149-152 | rounding down 0.6 times n equals integer division of 3n by 5 |
| Paths.SetPath | src/core/PathManager.ts:9-27 | setting a path caches one planar length per segment and their sum as the total |
| Paths.TotalLengthZero | src/core/PathManager.ts:18-27 | the total length is non-negative, and zero exactly when every segment has zero length |
| Paths.PositionAtProgress | src/core/PathManager.ts:29-50 | an empty path gives the origin, a single point gives that point, and progress at or beyond either end clamps to the end point; strictly inside, the point lies on the one segment whose span first reaches progress times the total length |
| Paths.ReachesUnique | src/core/PathManager.ts:38-47 | at most one segment is the first to reach a given distance, so the walk's choice of segment is determined |
| Paths.ProgressForIndex | src/core/PathManager.ts:52-65 | overall progress times the total length is the distance covered up to that point of that segment, and it lies strictly inside (0, 1) when that point is inside the path; a path of no length gives 0 |
| Paths.ProgressEnds | src/core/PathManager.ts:52-65 | the path's start is progress 0, the end of the last segment is progress 1, and so is any index past the last segment |
| Paths.ProgressMonotone | src/core/PathManager.ts:52-65 | a later point on the path (a later segment, or further into the same one) never has smaller progress |
| Paths.ProgressRoundTrip | src/core/PathManager.ts:29-65 | looking up the position of the progress computed for a fraction of a non-degenerate segment gives back that fraction's point on that segment |
| EnemyMovement.Carry | src/systems/EnemyMovementSystem.ts:42-49 | carrying whole segments over keeps index plus progress constant, never passes the last segment, and leaves progress below 1 unless the last segment was reached |
| EnemyMovement.ReachEnd | src/systems/EnemyMovementSystem.ts:28-35 | a leaking enemy costs its damage in lives (floored at 0) and loses a played game when none are left; it leaves the field, the other enemies stay in order, and one remaining enemy is counted off; nothing else changes |
| EnemyMovement.NextPlace | src/systems/EnemyMovementSystem.ts:37-58 | the new place is on a segment with an end point, and its overall progress is the old one plus speed times delta over the segment's length |
| EnemyMovement.MoveStaysOnPath | src/systems/EnemyMovementSystem.ts:19-74 | from a state where every enemy is on the path, a move keeps every enemy on it and changes only position, index, progress and rotation |
| EnemyMovement.MoveAdvancesBySegmentShare | src/systems/EnemyMovementSystem.ts:37-73 | the moved enemy advances by exactly its share of the segment, lands on the interpolated point of its segment and faces along it |
| EnemyMovement.OffPathEnemyReachesEnd | src/systems/EnemyMovementSystem.ts:25-35 | an enemy on the last point pays its damage in lives, disappears, and counts off one remaining enemy |
| EnemyMovement.Update | src/systems/EnemyMovementSystem.ts:6-17 | with fewer than two path points the update does nothing |
| EnemyMovement.MoveAllNeverLosesLives | src/systems/EnemyMovementSystem.ts:6-17 | from a state with every enemy on the path, moving all keeps them on it, keeps their ids and order, and changes nothing but the enemies |
| EnemyMovement.UpdateNeverLosesLives | src/systems/EnemyMovementSystem.ts:6-74 | from a state with every enemy on the path, an update costs no lives, keeps the game state, the remaining count and the enemy count |
| EnemyMovement.MoveAllFrame | src/systems/EnemyMovementSystem.ts:6-74 | moving enemies touches only the enemies, lives, game state and remaining count |
| EnemyHealth.DamageEnemy | src/systems/EnemyHealthSystem.ts:28-36 | damage sets the health of the enemy with the id to its old health minus the damage, floored at 0, changes nothing else, and does nothing for a missing or dead enemy |
| EnemyHealth.DamageAccumulates | src/systems/EnemyHealthSystem.ts:28-36 | with unique ids, two hits of non-negative damage on one enemy equal one hit of their sum |
| EnemyHealth.HurtTwiceAt | src/systems/EnemyHealthSystem.ts:28-36 | the same accumulation, stated for the enemy at a given index |
| EnemyHealth.HitsCompose | src/systems/EnemyHealthSystem.ts:28-36 | health after two hits equals health after one hit of the sum, position by position |
| EnemyHealth.KillEnemy | src/systems/EnemyHealthSystem.ts:15-26 | killing pays the reward in currency and ten times it in score, removes the enemy and counts one off; a missing id changes nothing |
| EnemyHealth.UpdateSpec | src/systems/EnemyHealthSystem.ts:5-13 | with unique ids, exactly the enemies at zero health and not yet dead leave, in order, and each pays its reward and counts off once |
| EnemyHealth.KillAllFrame | src/systems/EnemyHealthSystem.ts:5-26 | resolving kills touches only enemies, currency, score and the remaining count |
| TowerTargeting.BestTarget | src/systems/TowerTargetingSystem.ts:31-47 | the chosen enemy is alive, not at the end, in range and the furthest along the path; among equals the first one wins; there is none exactly when no enemy is eligible |
| TowerTargeting.BestIsUnique | src/systems/TowerTargetingSystem.ts:31-47 | the best-target description admits only one answer |
| TowerTargeting.BestFoundIffEligible | src/systems/TowerTargetingSystem.ts:31-51 | a target is found exactly when some enemy is alive, not at the end and in range |
| TowerTargeting.NewTarget | src/systems/TowerTargetingSystem.ts:15-52 | a target still alive, not at the end and in range is kept; otherwise the tower takes the id of the enemy the selection rule picks (first of the furthest along among the eligible), or none exactly when no eligible enemy clears the bar |
| TowerTargeting.Retargeted | src/systems/TowerTargetingSystem.ts:6-13 | every tower, in place, gets its new target and nothing else |
| TowerTargeting.UpdateRetargetsEveryTower | src/systems/TowerTargetingSystem.ts:6-52 | with unique tower ids, the update retargets every tower against the same enemies and changes nothing else |
| TowerTargeting.RetargetAllFrame | src/systems/TowerTargetingSystem.ts:6-13 | retargeting touches only the towers |
| TowerAttack.LiveTarget | src/systems/TowerAttackSystem.ts:16-20 | a tower's target counts only while it is on the field and alive |
| TowerAttack.Shot | src/systems/TowerAttackSystem.ts:26-58 | a shot starts one unit above the tower, aims at the target's position, and carries the tower's damage, projectile speed and splash |
| TowerAttack.AfterVolley | src/systems/TowerAttackSystem.ts:26-58 | a tower that fires records the fire time and turns; one that does not is unchanged |
| TowerAttack.Volley | src/systems/TowerAttackSystem.ts:11-24 | a volley's projectiles carry consecutive fresh ids |
| TowerAttack.Launcher | src/systems/TowerAttackSystem.ts:11-58 | every projectile of a volley comes from a tower that fires, and is that tower's shot at its target |
| TowerAttack.Update | src/systems/TowerAttackSystem.ts:11-24 | the attack clock advances by delta, ids only grow, and only towers and projectiles change |
| TowerAttack.UpdateFiresReadyTowers | src/systems/TowerAttackSystem.ts:11-58 | with unique tower ids, one update stamps exactly the firing towers and appends their shots in tower order with consecutive ids |
| TowerAttack.NoSecondShotWithinCooldown | src/systems/TowerAttackSystem.ts:28-31 | a tower that fired does not fire in the next update if it comes less than `1 / fireRate` seconds later |
| TowerAttack.UpdateKeepsTowerIds | src/systems/TowerAttackSystem.ts:11-58 | an update keeps every tower's id, so unique ids stay unique |
| TowerAttack.UpdateRun | src/systems/TowerAttackSystem.ts:11-12 | after a run of updates the system clock has advanced by the sum of the time steps |
| TowerAttack.QuietWithinCooldown | src/systems/TowerAttackSystem.ts:26-31 | a tower stays exactly as it is through a run of non-negative time steps that ends before `1 / fireRate` seconds since its last shot |
| TowerAttack.NoShotWithinCooldownOverRun | src/systems/TowerAttackSystem.ts:26-31 | a tower that fired fires in none of the following updates while their time steps add up to less than `1 / fireRate` seconds |
| Projectiles.Homed | src/systems/ProjectileSystem.ts:20-41 | homing retargets at the aim point, caps progress at 1, places the projectile on the line from start to aim, and completes at once, at the aim, when start and aim coincide |
| Projectiles.HomedMovesForward | src/systems/ProjectileSystem.ts:31-41 | with non-negative speed and time step, progress never goes back and never exceeds 1 |
| Projectiles.FalloffBounds | src/systems/ProjectileSystem.ts:101-106 | splash damage inside the radius is between 0 and the full damage |
| Projectiles.FalloffAtEdge | src/systems/ProjectileSystem.ts:101-106 | splash damage at the radius is zero |
| Projectiles.Splash | src/systems/ProjectileSystem.ts:95-109 | a splash changes only enemy health and keeps the enemy count |
| Projectiles.Impact | src/systems/ProjectileSystem.ts:83-93 | an impact changes only enemy health and keeps the enemy count; it is a splash when the projectile has a splash radius and a hit on its target otherwise |
| Projectiles.Step | src/systems/ProjectileSystem.ts:17-81 | a landing projectile is removed; a flying one is moved to the back with progress below 1 and hurts no one; a plain hit damages the live target; a target gone without splash hurts no one; a splash projectile whose target is gone bursts where it started the tick |
| Projectiles.SplashHitBurstsWhereItLands | src/systems/ProjectileSystem.ts:43-47 | a splash projectile landing on its live target bursts around the point it reached this tick |
| Projectiles.SplashHitsEachOnce | src/systems/ProjectileSystem.ts:95-109 | with unique ids, a splash over the store's enemies hits each live enemy within the radius exactly once, by the falloff damage for its distance |
| Projectiles.Update | src/systems/ProjectileSystem.ts:8-15 | an update touches only enemies and projectiles and keeps the enemy count |
| Projectiles.StepAllSettles | src/systems/ProjectileSystem.ts:8-81 | after stepping every projectile, each projectile left is in flight and has an id that existed before |
| Projectiles.UpdateLeavesOnlyFlights | src/systems/ProjectileSystem.ts:8-81 | after an update with a non-negative step, every remaining projectile is part-way through its flight and none has a new id |
| AreaDamage.Burst | src/systems/ProjectileSystem.ts:95-109 | an area hit changes only enemy health; a dead or out-of-range enemy is untouched |
| AreaDamage.Blasted | src/systems/HeroAbilitySystem.ts:76-92 | each enemy is hit independently, according to its own distance |
| AreaDamage.BurstHitsEachOnce | src/systems/HeroAbilitySystem.ts:106-125 | with unique ids, the sequential area hit equals every enemy being hit exactly once |
| HeroMovement.Stride | src/systems/HeroMovementSystem.ts:20-33 | a step never overshoots the target, is non-negative, and covers the rest when speed times delta reaches it |
| HeroMovement.Update | src/systems/HeroMovementSystem.ts:5-37 | a hero not walking is untouched; within 0.1 of the target it snaps there and stops; otherwise it steps towards the target; only the hero's position, target, walking flag and facing change, never its abilities or health |
| HeroMovement.SetMoveTarget | src/systems/HeroMovementSystem.ts:39-49 | a click sets the ground target and starts walking; with no hero nothing happens |
| HeroMovement.StepsTowardTarget | src/systems/HeroMovementSystem.ts:23-29 | a step that does not arrive moves the hero by a non-negative multiple of the way to its point, then down to the ground |
| HeroMovement.CloseTargetArrives | src/systems/HeroMovementSystem.ts:5-49 | a click within 0.1 of the hero arrives in one tick, and later ticks leave the hero there |
| HeroAbilities.Tick | src/systems/HeroAbilitySystem.ts:22-39 | every cooldown runs down by delta, floored at 0 |
| HeroAbilities.CooldownRunsDown | src/systems/HeroAbilitySystem.ts:22-39 | over any number of ticks a positive cooldown falls by their total time, floored at 0, and nothing else changes |
| HeroAbilities.ReadyAfterCooldown | src/systems/HeroAbilitySystem.ts:22-39 | once the ticks add up to the cooldown, the ability is ready |
| HeroAbilities.StrikeBounds | src/systems/HeroAbilitySystem.ts:116-121 | an orbital strike inside its radius deals at least a third of its damage (rounded down) and at most all of it |
| HeroAbilities.StrikeAtCentre | src/systems/HeroAbilitySystem.ts:116-121 | at the centre the strike deals its full damage, rounded down |
| HeroAbilities.Execute | src/systems/HeroAbilitySystem.ts:47-74 | casting needs a hero and a ready ability; it restarts only that cooldown at full length; the shield heals 50 capped at maximum health and leaves the enemies alone, and the other abilities leave the hero's health alone |
| HeroAbilities.Update | src/systems/HeroAbilitySystem.ts:16-45 | without a hero a key stays queued; with one, every slot's cooldown ticks, then a queued key is cast (the store is exactly `Execute` of the cooled store: Q and R burst, W heals, the cooldown restarts) if ready and cleared either way, and the other two slots are left cooled |
| HeroAbilities.PlasmaBurstHitsEachOnce | src/systems/HeroAbilitySystem.ts:76-92 | with unique ids, the plasma burst hits each live enemy in radius exactly once for the ability's damage |
| HeroAbilities.OrbitalStrikeHitsEachOnce | src/systems/HeroAbilitySystem.ts:106-125 | with unique ids, the orbital strike hits each live enemy in radius exactly once, by distance |
| HeroAbilities.NoDoubleCast | src/systems/HeroAbilitySystem.ts:47-74 | a second cast right after the first does nothing when the cooldown is positive |
| HeroCombat.Nearest | src/systems/HeroCombatSystem.ts:15-27 | the chosen enemy is live, in reach and strictly nearest, the first among equals; there is none exactly when no enemy is in reach |
| HeroCombat.Update | src/systems/HeroCombatSystem.ts:8-49 | the clock always advances; a moving hero or no hero does nothing; a cooled-down hero damages the nearest enemy and records time, target and facing; with no enemy in reach the target is dropped; the hero's abilities and health are never touched |
| HeroCombat.AttackHitsNearestOnly | src/systems/HeroCombatSystem.ts:29-42 | with unique ids an attack removes the hero's damage from the nearest enemy only (floored at 0) |
| HeroCombat.ZeroSpeedNeverAttacks | src/systems/HeroCombatSystem.ts:31-34 | a hero with attack speed 0 never damages anyone |
| WaveDirector.Initialize | src/core/WaveManager.ts:16-21 | loading waves resets the director and reports the wave count, with no wave started |
| WaveDirector.BuildSpawnQueue | src/core/WaveManager.ts:41-54 | the queue has one entry per enemy of the wave |
| WaveDirector.QueueOfGroup | src/core/WaveManager.ts:41-54 | the groups appear in order, each as a run of its enemy type and spawn delay |
| WaveDirector.StartNextWave | src/core/WaveManager.ts:23-39 | with a wave left and none in progress, it queues the wave, starts spawning and reports the wave in the store; otherwise nothing happens |
| WaveDirector.StartQueuesWholeWave | src/core/WaveManager.ts:23-54 | a started wave queues as many enemies as the store reports remaining, and that is its group count total |
| WaveDirector.OnWaveComplete | src/core/WaveManager.ts:99-117 | a completed wave ends in the store and moves to the next index; between waves resets the delay unless it was the last |
| WaveDirector.Update | src/core/WaveManager.ts:56-91 | a tick changes only the enemies and the wave fields of the store, keeps the waves, and spawns at most one enemy, using one id |
| WaveDirector.SpawnsAtMostOne | src/core/WaveManager.ts:73-90 | the queue head spawns once the timer reaches its delay, resetting the timer; otherwise the timer runs; an empty queue stops spawning |
| WaveDirector.CompletesOnlyWhenClear | src/core/WaveManager.ts:67-72 | a wave completes exactly when spawning is over and the field is clear, moving the index by one |
| WaveDirector.FirstWaveAutoStarts | src/core/WaveManager.ts:57-65 | the first wave starts on the tick the delay timer reaches 2 seconds |
| WaveDirector.LaterWavesWaitForCommand | src/core/WaveManager.ts:57-65 | between later waves a tick changes nothing |
| WaveDirector.UpdateKeepsPhases | src/core/WaveManager.ts:23-91 | the director is never spawning while between waves |
| GameManager.Initialize | src/core/GameManager.ts:43-60 | the store holds the map, the hero and the wave count with no wave started; clocks are zero and nothing is queued |
| GameManager.CheckWinCondition | src/core/GameManager.ts:90-102 | the game is won when the last wave is over and nothing is left on the field or to come; otherwise nothing changes |
| GameManager.NoWinBeforeLastWave | src/core/GameManager.ts:90-102 | before the last wave has started the win check changes nothing |
| GameManager.FieldSparesHero | src/core/GameManager.ts:67-79 | the enemy, tower and projectile systems leave the hero, path and spots alone, advance the attack clock and never reuse ids |
| GameManager.Systems | src/core/GameManager.ts:67-84 | a tick's systems advance both clocks by delta, never reuse ids and keep the map |
| GameManager.Update | src/core/GameManager.ts:62-88 | a game not being played is frozen; otherwise only the win check follows the systems, and it changes only the game state |
| GameManager.TickAdvances | src/core/GameManager.ts:62-88 | a tick keeps the map, never reuses ids, and when played advances both clocks by delta |
| GameManager.StoppedStaysStopped | src/core/GameManager.ts:62-66 | a paused, won or lost game stays unchanged over any number of ticks |
| GameManager.RunKeepsClocksTogether | src/core/GameManager.ts:62-88 | over any run the two system clocks advance together and ids never go back |
| GameManager.Apply | src/systems/HeroAbilitySystem.ts:9-13 | input never changes the game state or the clocks; a key press only queues the key, a click to move only retargets the hero |
| GameManager.CastIsConsumed | src/systems/HeroAbilitySystem.ts:9-45 | a key pressed in a played game with a hero is used up by the next tick, which restarts that ability's cooldown if it was ready after the tick's cooling and otherwise only cools it; the other two slots only cool; a ready W heals the hero by 50 up to its maximum, and otherwise the hero's health is unchanged |
| GameManager.SystemsCast | src/systems/HeroAbilitySystem.ts:9-45 | the nine systems act on a queued key against the hero's abilities as the tick found them: the queue empties, the cooldown restarts or only cools, the other slots cool, and the W heal applies as above |
| Placement.PlaceTower | src/graphics/MapRenderer.tsx:117-126 | a click on a free spot with a tower type chosen and enough currency pays the cost, adds a new tier-1 tower and occupies the spot; in every other case nothing happens |
| Placement.NoSecondTowerOnSpot | src/graphics/MapRenderer.tsx:117-126 | a paid click builds one tower without a negative purse, and a second click on the now occupied spot does nothing |
| WaveStatus.Classify | src/ui/components/WaveIndicator.tsx:10-21 | the four cases of the status line, in order: preparing before wave 1, fighting during a wave, all complete after the last, wave complete in between |
| WaveStatus.Digits | src/ui/components/WaveIndicator.tsx:15 | a number prints as decimal digits without leading zeros |
| WaveStatus.DecimalRoundTrip | src/ui/components/WaveIndicator.tsx:15 | reading a printed number gives the number back, negatives included |
| WaveStatus.DecimalInjective | src/ui/components/WaveIndicator.tsx:15 | different numbers print differently |
| WaveStatus.FightingTextIsFaithful | src/ui/components/WaveIndicator.tsx:15 | the fighting line determines both the live count and the remaining count |
| WaveStatus.TextIsFaithful | src/ui/components/WaveIndicator.tsx:10-21 | different statuses never produce the same line |
| EffectNames.Spaced | src/ui/components/TowerUpgradeMenu.tsx:151 | spacing adds one character per capital and never starts with a capital |
| EffectNames.UnspaceRoundTrip | src/ui/components/TowerUpgradeMenu.tsx:151 | dropping the inserted spaces recovers the original name |
| EffectNames.CapitalsFollowSpaces | src/ui/components/TowerUpgradeMenu.tsx:151 | in the spaced name every capital directly follows a space |
| EffectNames.SpacedAppend | src/ui/components/TowerUpgradeMenu.tsx:151 | spacing distributes over concatenation |
| EffectNames.SpacedNoCapitals | src/ui/components/TowerUpgradeMenu.tsx:151 | a name without capitals is not changed by spacing |
| EffectNames.Capitalize | src/ui/components/TowerUpgradeMenu.tsx:152 | only the first character changes, to its upper case |
| EffectNames.TrimStart | src/ui/components/TowerUpgradeMenu.tsx:153 | what remains is a suffix not starting with white space, and everything cut is white space |
| EffectNames.TrimEnd | src/ui/components/TowerUpgradeMenu.tsx:153 | what remains is a prefix not ending with white space, and everything cut is white space |
| EffectNames.Trim | src/ui/components/TowerUpgradeMenu.tsx:153 | the result is a slice with neither end white space, and everything cut on either side is white space |
| EffectNames.TrimIdempotent | src/ui/components/TowerUpgradeMenu.tsx:153 | trimming twice is trimming once |
| EffectNames.FormatEffectName | src/ui/components/TowerUpgradeMenu.tsx:148-154 | the formatted name neither starts nor ends with white space |
| EffectNames.LowerCamelKeepsFront | src/ui/components/TowerUpgradeMenu.tsx:148-154 | a lower-camel name loses nothing at the front: it begins with its first letter upper-cased and is a prefix of the spaced, capitalised name |
| Wav.U16RoundTrip | src/core/SynthAudio.ts:588-600 | a 16-bit little-endian write reads back as the value modulo 2^16 |
| Wav.U32RoundTrip | src/core/SynthAudio.ts:588-600 | a 32-bit little-endian write reads back as the value modulo 2^32 |
| Wav.I16RoundTrip | src/core/SynthAudio.ts:603-608 | a signed 16-bit sample reads back as itself |
| Wav.Put | src/core/SynthAudio.ts:588-600 | a write places its bytes at the offset and leaves every other byte alone |
| Wav.WriteString | src/core/SynthAudio.ts:628-632 | each character lands at its offset as its code's low byte, and nothing else changes |
| Wav.HeaderLayout | src/core/SynthAudio.ts:588-600 | writing the header in the source's order fills exactly the first 44 bytes with the canonical RIFF/WAVE header and leaves the samples area alone |
| Wav.HeaderFields | src/core/SynthAudio.ts:581-600 | the header carries the RIFF, WAVE, fmt and data tags; the file size minus 8; format 16 and PCM 1; the channel count and the rate; rate × channels × 2 as the byte rate; channels × 2 as the block align; 16 bits; and the data size, each at its offset |
| Wav.Quantize | src/core/SynthAudio.ts:603-608 | a sample clamps to [-1, 1] and scales to the signed 16-bit range, saturating at both ends |
| Wav.QuantizeMonotone | src/core/SynthAudio.ts:603-608 | quantisation preserves order |
| Wav.SampleAt | src/core/SynthAudio.ts:603-608 | the i-th sample occupies bytes 2i and 2i+1 and reads back as its quantised value |
| Wav.InterleaveChannels | src/core/SynthAudio.ts:613-626 | frame i, channel c of the interleaved data is channel c's i-th sample |
| Wav.ChannelRoundTrip | src/core/SynthAudio.ts:613-626 | de-interleaving a channel from the interleaved data gives that channel back |
| Wav.WriteSamples | src/core/SynthAudio.ts:603-608 | the sample loop appends every quantised sample after the header |
| Wav.BufferToWav | src/core/SynthAudio.ts:571-611 | the file is 44 header bytes plus two bytes per sample; the header describes the channels, rate and data size; every frame's channel sample reads back at its interleaved place |

## Left out

- Floating point: numbers are mathematical reals, so IEEE rounding, `NaN` and `Infinity` are not modelled. `Math.sqrt` and `Math.atan2` are oracle parameters. The Float32 storage of audio samples is not modelled either.
- Paths.PositionAtProgress: requires a path of positive length when the progress is strictly between 0 and 1. On a zero-length path the source divides 0 by 0 there and returns a `NaN` point.
- EnemyMovement: the systems require every segment of the path to have positive planar length (`PathWf`). The source divides by the segment length and would produce `NaN` progress otherwise.
- Unique ids: lemmas about damage, kills, targeting and attacks require distinct ids. The source draws ids at random and never checks for clashes. The model's counter makes ids distinct, but that fact is not threaded through the tick.
- `generateId`: replaced by the `nextId` counter, because random strings are not modelled.
- The `setTimeout` that starts later waves after a delay is not modelled: the player's next-wave command stands for both it and the button. Timers are I/O outside the tick.
- The `window` `heroAbility` event listener: replaced by the `Cast` command.
- The director's index after the last wave is kept as the source leaves it. Only the store's counters are exposed.
- A lost game that clears the last wave in the same tick: the win check still runs on the systems' result, as written. The model does not claim this is unreachable.
- CastIsConsumed: the damage of a cast Q or R to the enemies is not stated for the whole tick. The same tick also moves, kills and hits enemies through the other systems, so the cast's own share is stated one level down, by HeroAbilities.Update (equal to `Execute`), PlasmaBurstHitsEachOnce and OrbitalStrikeHitsEachOnce.
- SystemsCast: the same as CastIsConsumed. The Q and R damage to the enemies is stated by HeroAbilities.Update, not after all nine systems.
- TowerAttack.NoShotWithinCooldownOverRun: the run consists of attack-system updates only. In a full tick the targeting system runs in between and may change a tower's target, so the rate limit over whole ticks is not stated.
- EnemyHealth.Update: the `delta` argument of the source is unused and is dropped.
- Rendering, visual effects (impact, explosion, screen shake), audio synthesis (oscillators, envelopes, filters), `AudioContext` handling, Blob and data-URL conversion: I/O outside the simulation.
- Configuration tables (tower, enemy, hero and wave data): parameters (`Configs`, enemy statistics, waves, hero), not constants.
- HeroFactory, InputManager and the React components other than the two formatting helpers: the hero is a parameter of `Initialize`, and input arrives as `Command`s.
- EffectNames.ToUpper: maps ASCII letters only. `toUpperCase` covers all of Unicode, but effect names are ASCII identifiers.
- The tower-spot hover and selection setters, `setGameState`, `setCurrency`, `setLives` and the other plain field setters: single record updates with nothing to prove.

=== FILE: area_damage.dfy ===
/**
 * Area damage, the loop shared by projectile splash
 * (src/systems/ProjectileSystem.ts) and the hero's Q and R abilities
 * (src/systems/HeroAbilitySystem.ts): walk a snapshot of the enemies and,
 * for each one that is not dead and stands within `radius` of `center` in
 * the ground plane, apply `damageEnemy` with an amount that depends on the
 * distance.
 */
module AreaDamage {
  import opened Wrappers
  import opened Geometry
  import opened Model
  import opened Store
  import opened EnemyHealth

  /** A live enemy within the radius of the centre. */
  predicate InBlast(geo: Geo, center: Vec3, radius: real, e: Enemy)
  {
    !e.isDead && Distance2D(geo, center, e.position) <= radius
  }

  /**
   * The burst, one snapshot enemy at a time, each hit going through
   * `damageEnemy` on the live store. Only enemies change, and only their
   * health; an enemy whose id is not that of a snapshot enemy in the blast
   * keeps its entry.
   */
  function Burst(geo: Geo, s: Store, center: Vec3, radius: real, amount: real -> real, es: seq<Enemy>): (r: Store)
    ensures r == s.(enemies := r.enemies) && |r.enemies| == |s.enemies|
    ensures forall i :: 0 <= i < |s.enemies| ==> r.enemies[i] == s.enemies[i].(health := r.enemies[i].health)
    ensures forall i :: 0 <= i < |s.enemies| &&
              (forall j :: 0 <= j < |es| && InBlast(geo, center, radius, es[j]) ==> es[j].id != s.enemies[i].id)
              ==> r.enemies[i] == s.enemies[i]
    decreases |es|
  {
    if es == [] then s
    else
      var e := es[0];
      var next := if InBlast(geo, center, radius, e) then DamageEnemy(s, e.id, amount(Distance2D(geo, center, e.position))) else s;
      Burst(geo, next, center, radius, amount, es[1..])
  }

  /** Enemy `e` after the burst hits it once. */
  function Hit(geo: Geo, center: Vec3, radius: real, amount: real -> real, e: Enemy): Enemy
  {
    if InBlast(geo, center, radius, e) then e.(health := Max(0.0, e.health - amount(Distance2D(geo, center, e.position))))
    else e
  }

  /** The enemies after a burst: each one in the blast hit exactly once, the others as they were. */
  function Blasted(geo: Geo, es: seq<Enemy>, center: Vec3, radius: real, amount: real -> real): (r: seq<Enemy>)
    ensures |r| == |es|
    ensures forall i :: 0 <= i < |es| ==> r[i] == Hit(geo, center, radius, amount, es[i])
  {
    seq(|es|, i requires 0 <= i < |es| => Hit(geo, center, radius, amount, es[i]))
  }

  /**
   * Bursting over the snapshot from index `n`, with the entries before `n`
   * already hit and the rest untouched, finishes the blast.
   */
  lemma {:induction false} BurstFrom(geo: Geo, s: Store, orig: seq<Enemy>, center: Vec3, radius: real, amount: real -> real, n: nat)
    requires UniqueEnemyIds(orig) && n <= |orig| == |s.enemies|
    requires forall i :: 0 <= i < n ==> s.enemies[i] == Hit(geo, center, radius, amount, orig[i])
    requires forall i :: n <= i < |orig| ==> s.enemies[i] == orig[i]
    ensures Burst(geo, s, center, radius, amount, orig[n..]) == s.(enemies := Blasted(geo, orig, center, radius, amount))
    decreases |orig| - n
  {
    if n == |orig| {
      assert s.enemies == Blasted(geo, orig, center, radius, amount);
    } else {
      assert orig[n..][1..] == orig[n + 1..];
      var e := orig[n];
      var next := if InBlast(geo, center, radius, e) then DamageEnemy(s, e.id, amount(Distance2D(geo, center, e.position))) else s;
      BurstStep(geo, s, orig, center, radius, amount, n);
      BurstFrom(geo, next, orig, center, radius, amount, n + 1);
    }
  }

  /** One step of the burst hits entry `n` and leaves the others as they were. */
  lemma BurstStep(geo: Geo, s: Store, orig: seq<Enemy>, center: Vec3, radius: real, amount: real -> real, n: nat)
    requires UniqueEnemyIds(orig) && n < |orig| == |s.enemies|
    requires forall i :: 0 <= i < n ==> s.enemies[i] == Hit(geo, center, radius, amount, orig[i])
    requires forall i :: n <= i < |orig| ==> s.enemies[i] == orig[i]
    ensures var e := orig[n];
      var next := if InBlast(geo, center, radius, e) then DamageEnemy(s, e.id, amount(Distance2D(geo, center, e.position))) else s;
      && |next.enemies| == |orig|
      && (forall i :: 0 <= i < n + 1 ==> next.enemies[i] == Hit(geo, center, radius, amount, orig[i]))
      && (forall i :: n + 1 <= i < |orig| ==> next.enemies[i] == orig[i])
  {
    var e := orig[n];
    if InBlast(geo, center, radius, e) {
      SameIdsStayUnique(orig, s.enemies);
      HurtAt(s.enemies, n, amount(Distance2D(geo, center, e.position)));
    }
  }

  /**
   * With unique ids, a burst over the store's own enemies hits every live
   * enemy in the blast exactly once, by the amount for its distance (health
   * floored at 0), and leaves every other enemy and the rest of the store
   * as they were.
   */
  lemma BurstHitsEachOnce(geo: Geo, s: Store, center: Vec3, radius: real, amount: real -> real)
    requires UniqueEnemyIds(s.enemies)
    ensures Burst(geo, s, center, radius, amount, s.enemies) == s.(enemies := Blasted(geo, s.enemies, center, radius, amount))
  {
    assert s.enemies[0..] == s.enemies;
    BurstFrom(geo, s, s.enemies, center, radius, amount, 0);
  }
}

=== FILE: effect_names.dfy ===
/**
 * `formatEffectName` (src/ui/components/TowerUpgradeMenu.tsx): a camelCase
 * effect name made readable by putting a space before every capital letter,
 * upper-casing the first character and trimming surrounding white space
 * ("chainLightning" reads "Chain Lightning").
 */
module EffectNames {

  /** A capital ASCII letter, the class `[A-Z]`. */
  predicate IsUpper(c: char) { 'A' <= c <= 'Z' }

  predicate IsLower(c: char) { 'a' <= c <= 'z' }

  /** Upper case of a character; only ASCII letters are mapped. */
  function ToUpper(c: char): (u: char)
    ensures IsLower(c) ==> IsUpper(u) && u as int == c as int - 32
    ensures !IsLower(c) ==> u == c
  {
    if IsLower(c) then (c as int - 32) as char else c
  }

  /** White space as `String.prototype.trim` strips it: white-space and line-terminator code points. */
  predicate IsSpace(c: char)
  {
    var n := c as int;
    || n == 0x09 || n == 0x0A || n == 0x0B || n == 0x0C || n == 0x0D || n == 0x20 || n == 0xA0
    || n == 0x1680 || 0x2000 <= n <= 0x200A || n == 0x2028 || n == 0x2029 || n == 0x202F
    || n == 0x205F || n == 0x3000 || n == 0xFEFF
  }

  function CountUpper(s: string): nat
  {
    if s == [] then 0 else (if IsUpper(s[0]) then 1 else 0) + CountUpper(s[1..])
  }

  /** What the first replacement makes of one character: a capital gets a space in front. */
  function Piece(c: char): string
  {
    if IsUpper(c) then [' ', c] else [c]
  }

  /**
   * `replace(/([A-Z])/g, ' $1')`: one space inserted before every capital.
   * The result never starts with a capital, and grows by one character per
   * capital.
   */
  function Spaced(s: string): (t: string)
    ensures |t| == |s| + CountUpper(s)
    ensures |t| > 0 ==> !IsUpper(t[0])
  {
    if s == [] then [] else Piece(s[0]) + Spaced(s[1..])
  }

  /** Drop every space that stands directly before a capital. */
  function Unspace(t: string): string
  {
    if |t| >= 2 && t[0] == ' ' && IsUpper(t[1]) then [t[1]] + Unspace(t[2..])
    else if t == [] then []
    else [t[0]] + Unspace(t[1..])
  }

  /** Dropping the inserted spaces gives the name back: every other character keeps its value and order. */
  lemma {:induction false} UnspaceRoundTrip(s: string)
    ensures Unspace(Spaced(s)) == s
  {
    if s != [] {
      var rest := Spaced(s[1..]);
      UnspaceRoundTrip(s[1..]);
      if IsUpper(s[0]) {
        assert Spaced(s) == [' ', s[0]] + rest;
        assert Spaced(s)[2..] == rest;
      } else {
        assert Spaced(s) == [s[0]] + rest;
        assert Spaced(s)[1..] == rest;
      }
    }
  }

  /** In the spaced name every capital has a space directly before it. */
  lemma {:induction false} CapitalsFollowSpaces(s: string)
    ensures forall i :: 0 <= i < |Spaced(s)| && IsUpper(Spaced(s)[i]) ==> i > 0 && Spaced(s)[i - 1] == ' '
  {
    if s != [] {
      CapitalsFollowSpaces(s[1..]);
      var p, rest := Piece(s[0]), Spaced(s[1..]);
      assert Spaced(s) == p + rest;
      forall i | 0 <= i < |p + rest| && IsUpper((p + rest)[i])
        ensures i > 0 && (p + rest)[i - 1] == ' '
      {
        if i > |p| {
          assert (p + rest)[i] == rest[i - |p|];
          assert (p + rest)[i - 1] == rest[i - 1 - |p|];
        } else if i == |p| || !IsUpper(s[0]) {
          assert false;
        }
      }
    }
  }

  /** `replace(/^./, str => str.toUpperCase())`: the first character upper-cased. */
  function Capitalize(t: string): (r: string)
    ensures |r| == |t|
    ensures |t| > 0 ==> r[0] == ToUpper(t[0]) && r[1..] == t[1..]
  {
    if t == [] then t else [ToUpper(t[0])] + t[1..]
  }

  /** White space stripped from the front: what remains is a suffix that does not start with white space. */
  function TrimStart(t: string): (r: string)
    ensures |r| <= |t| && r == t[|t| - |r|..]
    ensures forall i :: 0 <= i < |t| - |r| ==> IsSpace(t[i])
    ensures |r| > 0 ==> !IsSpace(r[0])
  {
    if t != [] && IsSpace(t[0]) then TrimStart(t[1..]) else t
  }

  /** White space stripped from the back: what remains is a prefix that does not end with white space. */
  function TrimEnd(t: string): (r: string)
    ensures |r| <= |t| && r == t[..|r|]
    ensures forall i :: |r| <= i < |t| ==> IsSpace(t[i])
    ensures |r| > 0 ==> !IsSpace(r[|r| - 1])
  {
    if t != [] && IsSpace(t[|t| - 1]) then TrimEnd(t[..|t| - 1]) else t
  }

  /**
   * `trim`: the text with its leading and trailing white space removed; the
   * result is a slice of the input, neither end of it is white space, and
   * everything cut off is white space.
   */
  function Trim(t: string): (r: string)
    ensures |r| <= |t| - Cut(t)
    ensures r == t[Cut(t)..Cut(t) + |r|]
    ensures |r| > 0 ==> !IsSpace(r[0]) && !IsSpace(r[|r| - 1])
    ensures forall i :: 0 <= i < Cut(t) ==> IsSpace(t[i])
    ensures forall i :: Cut(t) + |r| <= i < |t| ==> IsSpace(t[i])
  {
    TrimEnd(TrimStart(t))
  }

  /** How many characters `trim` cuts from the front. */
  function Cut(t: string): nat
    ensures Cut(t) <= |t|
  {
    |t| - |TrimStart(t)|
  }

  /** Trimming twice is trimming once. */
  lemma TrimIdempotent(t: string)
    ensures Trim(Trim(t)) == Trim(t)
  {
    var r := Trim(t);
    TrimStartKeeps(r);
    TrimEndKeeps(r);
  }

  lemma TrimStartKeeps(r: string)
    requires |r| > 0 ==> !IsSpace(r[0])
    ensures TrimStart(r) == r
  {
  }

  lemma TrimEndKeeps(r: string)
    requires |r| > 0 ==> !IsSpace(r[|r| - 1])
    ensures TrimEnd(r) == r
  {
  }

  /** `formatEffectName`. */
  function FormatEffectName(effect: string): (r: string)
    ensures |r| > 0 ==> !IsSpace(r[0]) && !IsSpace(r[|r| - 1])
  {
    Trim(Capitalize(Spaced(effect)))
  }

  /**
   * A name that starts with a lower-case letter keeps every character:
   * there is nothing to trim at the front, and the formatted name is the
   * spaced name with its first letter capitalised, cut back only by any
   * white space the name itself ends with.
   */
  lemma LowerCamelKeepsFront(effect: string)
    requires |effect| > 0 && IsLower(effect[0])
    ensures var t := Capitalize(Spaced(effect));
      var r := FormatEffectName(effect);
      |r| > 0 && r[0] == ToUpper(effect[0]) && r == t[..|r|]
  {
    var t := Capitalize(Spaced(effect));
    assert Spaced(effect)[0] == effect[0];
    assert !IsSpace(t[0]);
    assert TrimStart(t) == t;
  }

  /** Spacing works character by character: spacing a concatenation spaces each part. */
  lemma {:induction false} SpacedAppend(a: string, b: string)
    ensures Spaced(a + b) == Spaced(a) + Spaced(b)
  {
    if a != [] {
      assert (a + b)[0] == a[0] && (a + b)[1..] == a[1..] + b;
      SpacedAppend(a[1..], b);
      calc {
        Spaced(a + b);
        Piece(a[0]) + Spaced(a[1..] + b);
        Piece(a[0]) + (Spaced(a[1..]) + Spaced(b));
        (Piece(a[0]) + Spaced(a[1..])) + Spaced(b);
      }
    } else {
      assert a + b == b;
    }
  }

  /** A name without capitals is left as it is by the spacing step. */
  lemma {:induction false} SpacedNoCapitals(s: string)
    requires forall i :: 0 <= i < |s| ==> !IsUpper(s[i])
    ensures Spaced(s) == s
  {
    if s != [] {
      SpacedNoCapitals(s[1..]);
    }
  }
}

=== FILE: enemy_health.dfy ===
/**
 * Kill resolution and damage (src/systems/EnemyHealthSystem.ts). Damage
 * lowers health, floored at 0, and does nothing to a missing or dead enemy.
 * Each update walks the snapshot and kills every enemy whose health is gone:
 * the reward is paid in currency and ten times over in score, the enemy is
 * removed and the wave's remaining count goes down by one.
 */
module EnemyHealth {
  import opened Wrappers
  import opened Geometry
  import opened Model
  import opened Lists
  import opened Store

  /** `damageEnemy`: lower the health of the enemy with this id, never below zero. */
  function DamageEnemy(s: Store, id: Id, damage: real): (r: Store)
    ensures r == s.(enemies := r.enemies) && |r.enemies| == |s.enemies|
    ensures FindEnemy(s.enemies, id).None? || FindEnemy(s.enemies, id).value.isDead ==> r == s
    ensures forall i :: 0 <= i < |s.enemies| && s.enemies[i].id != id ==> r.enemies[i] == s.enemies[i]
    ensures forall i :: 0 <= i < |s.enemies| && s.enemies[i].id == id && r != s ==> r.enemies[i].health >= 0.0
    ensures forall i :: 0 <= i < |s.enemies| ==> r.enemies[i] == s.enemies[i].(health := r.enemies[i].health)
    ensures var f := FindEnemy(s.enemies, id);
      f.Some? && !f.value.isDead ==>
        forall i :: 0 <= i < |s.enemies| && s.enemies[i].id == id ==>
          r.enemies[i].health == Max(0.0, f.value.health - damage)
  {
    s.(enemies := Hurt(s.enemies, id, damage))
  }

  /** The enemy list after `damageEnemy`: the store's `updateEnemy` with the new health. */
  function Hurt(es: seq<Enemy>, id: Id, damage: real): (r: seq<Enemy>)
    ensures |r| == |es|
    ensures FindEnemy(es, id).None? || FindEnemy(es, id).value.isDead ==> r == es
    ensures forall i :: 0 <= i < |es| && es[i].id != id ==> r[i] == es[i]
    ensures forall i :: 0 <= i < |es| && es[i].id == id && r != es ==> r[i].health >= 0.0
    ensures forall i :: 0 <= i < |es| ==> r[i] == es[i].(health := r[i].health)
    ensures var f := FindEnemy(es, id);
      f.Some? && !f.value.isDead ==>
        forall i :: 0 <= i < |es| && es[i].id == id ==> r[i].health == Max(0.0, f.value.health - damage)
  {
    match FindEnemy(es, id)
    case None => es
    case Some(e) =>
      if e.isDead then es
      else
        var newHealth := Max(0.0, e.health - damage);
        MapWhere(es, (x: Enemy) => x.id == id, (x: Enemy) => x.(health := newHealth))
  }

  /** With unique ids, two hits of non-negative damage add up to one hit of their sum. */
  lemma DamageAccumulates(s: Store, id: Id, a: real, b: real)
    requires UniqueEnemyIds(s.enemies) && a >= 0.0 && b >= 0.0
    ensures DamageEnemy(DamageEnemy(s, id, a), id, b) == DamageEnemy(s, id, a + b)
  {
    var found := FindEnemy(s.enemies, id);
    if found.Some? && !found.value.isDead {
      var k :| 0 <= k < |s.enemies| && s.enemies[k] == found.value;
      HurtTwiceAt(s.enemies, k, a, b);
    }
  }

  lemma HurtTwiceAt(es: seq<Enemy>, k: nat, a: real, b: real)
    requires UniqueEnemyIds(es) && k < |es| && !es[k].isDead && a >= 0.0 && b >= 0.0
    ensures Hurt(Hurt(es, es[k].id, a), es[k].id, b) == Hurt(es, es[k].id, a + b)
  {
    var e := es[k];
    var once := Hurt(es, e.id, a);
    HurtAt(es, k, a);
    SameIdsStayUnique(es, once);
    HurtAt(once, k, b);
    HurtAt(es, k, a + b);
    HitsCompose(es, once, Hurt(once, e.id, b), Hurt(es, e.id, a + b), k, a, b);
  }

  /** Pointwise: a hit of `a` followed by a hit of `b` at index `k` is one hit of `a + b`. */
  lemma HitsCompose(es: seq<Enemy>, once: seq<Enemy>, twice: seq<Enemy>, direct: seq<Enemy>, k: nat, a: real, b: real)
    requires k < |es| == |once| == |twice| == |direct| && a >= 0.0 && b >= 0.0
    requires forall i :: 0 <= i < |es| ==>
      once[i] == (if i == k then es[k].(health := Max(0.0, es[k].health - a)) else es[i])
    requires forall i :: 0 <= i < |es| ==>
      twice[i] == (if i == k then once[k].(health := Max(0.0, once[k].health - b)) else once[i])
    requires forall i :: 0 <= i < |es| ==>
      direct[i] == (if i == k then es[k].(health := Max(0.0, es[k].health - (a + b))) else es[i])
    ensures twice == direct
  {
    assert Max(0.0, Max(0.0, es[k].health - a) - b) == Max(0.0, es[k].health - (a + b));
    forall i | 0 <= i < |es|
      ensures twice[i] == direct[i]
    {
    }
  }

  /** Damage to the enemy at index `k`, when ids are unique, in pointwise form. */
  lemma HurtAt(es: seq<Enemy>, k: nat, damage: real)
    requires UniqueEnemyIds(es) && k < |es| && !es[k].isDead
    ensures var r := Hurt(es, es[k].id, damage);
      && |r| == |es|
      && (forall i :: 0 <= i < |es| ==>
            r[i] == (if i == k then es[k].(health := Max(0.0, es[k].health - damage)) else es[i]))
  {
    FindUniqueEnemy(es, k);
  }

  /** Changing anything but the ids keeps them unique. */
  lemma SameIdsStayUnique(xs: seq<Enemy>, ys: seq<Enemy>)
    requires UniqueEnemyIds(xs) && |ys| == |xs|
    requires forall i :: 0 <= i < |xs| ==> ys[i].id == xs[i].id
    ensures UniqueEnemyIds(ys)
  {
  }

  predicate Killable(e: Enemy)
  {
    e.health <= 0.0 && !e.isDead
  }

  /** `killEnemy`: mark dead, pay the reward (and ten times it in score), remove, count off. */
  function KillEnemy(s: Store, id: Id): (r: Store)
    ensures FindEnemy(s.enemies, id).None? ==> r == s
    ensures FindEnemy(s.enemies, id).Some? ==>
      var e := FindEnemy(s.enemies, id).value;
      && r.currency == s.currency + e.reward
      && r.score == s.score + e.reward * 10
      && r.enemiesRemainingInWave == IntMax(0, s.enemiesRemainingInWave - 1)
      && (forall i :: 0 <= i < |r.enemies| ==> r.enemies[i].id != id)
      && r.lives == s.lives && r.gameState == s.gameState
    ensures KillFrame(r, s)
  {
    match FindEnemy(s.enemies, id)
    case None => s
    case Some(e) =>
      var marked := UpdateEnemy(s, id, (x: Enemy) => x.(isDead := true));
      DecrementEnemiesRemaining(RemoveEnemy(AddScore(AddCurrency(marked, e.reward), e.reward * 10), id))
  }

  /** Only the enemies, currency, score and remaining count differ between `r` and `s`. */
  predicate KillFrame(r: Store, s: Store)
  {
    r == s.(enemies := r.enemies, currency := r.currency, score := r.score,
            enemiesRemainingInWave := r.enemiesRemainingInWave)
  }

  /** Fold over the snapshot, killing each enemy that was killable in the snapshot. */
  function KillAll(s: Store, snapshot: seq<Enemy>): Store
    decreases |snapshot|
  {
    if snapshot == [] then s
    else
      var e := snapshot[0];
      KillAll(if Killable(e) then KillEnemy(s, e.id) else s, snapshot[1..])
  }

  /** `update`: resolve every kill of this tick. */
  function Update(s: Store): Store
  {
    KillAll(s, s.enemies)
  }

  /** Total reward of the killable enemies. */
  function RewardSum(es: seq<Enemy>): int
  {
    if es == [] then 0 else (if Killable(es[0]) then es[0].reward else 0) + RewardSum(es[1..])
  }

  function Survives(e: Enemy): bool { !Killable(e) }

  /** No enemy of `es` carries this id. */
  predicate Absent(es: seq<Enemy>, id: Id)
  {
    forall i :: 0 <= i < |es| ==> es[i].id != id
  }

  lemma UniqueWithout(a: seq<Enemy>, e: Enemy, rest: seq<Enemy>)
    requires UniqueEnemyIds(a + [e] + rest)
    ensures UniqueEnemyIds(a + rest)
    ensures Absent(a, e.id) && Absent(rest, e.id)
  {
    var full := a + [e] + rest;
    assert full[|a|] == e;
    forall i | 0 <= i < |a|
      ensures a[i].id != e.id
    {
      assert full[i] == a[i];
    }
    forall i | 0 <= i < |rest|
      ensures rest[i].id != e.id
    {
      assert full[|a| + 1 + i] == rest[i];
    }
    forall i, j | 0 <= i < j < |a + rest|
      ensures (a + rest)[i].id != (a + rest)[j].id
    {
      var fi := if i < |a| then i else i + 1;
      var fj := if j < |a| then j else j + 1;
      assert (a + rest)[i] == full[fi];
      assert (a + rest)[j] == full[fj];
    }
  }

  /** Marking the one enemy with this id and then filtering that id out leaves the others. */
  lemma MarkThenDrop(a: seq<Enemy>, e: Enemy, rest: seq<Enemy>)
    requires Absent(a, e.id) && Absent(rest, e.id)
    ensures Filter(MapWhere(a + [e] + rest, (x: Enemy) => x.id == e.id, (x: Enemy) => x.(isDead := true)),
                   (x: Enemy) => x.id != e.id) == a + rest
  {
    MarkOnlyOne(a, e, rest);
    FilterDropsOne(a, e.(isDead := true), rest, (x: Enemy) => x.id != e.id);
  }

  lemma MarkOnlyOne(a: seq<Enemy>, e: Enemy, rest: seq<Enemy>)
    requires Absent(a, e.id) && Absent(rest, e.id)
    ensures MapWhere(a + [e] + rest, (x: Enemy) => x.id == e.id, (x: Enemy) => x.(isDead := true))
      == a + [e.(isDead := true)] + rest
  {
    var full := a + [e] + rest;
    var marked := MapWhere(full, (x: Enemy) => x.id == e.id, (x: Enemy) => x.(isDead := true));
    var want := a + [e.(isDead := true)] + rest;
    forall i | 0 <= i < |full|
      ensures marked[i] == want[i]
    {
      if i < |a| {
        assert full[i] == a[i] && want[i] == a[i];
      } else if i == |a| {
        assert full[i] == e;
      } else {
        assert full[i] == rest[i - |a| - 1] && want[i] == rest[i - |a| - 1];
      }
    }
  }

  lemma KillFirst(s: Store, a: seq<Enemy>, e: Enemy, rest: seq<Enemy>)
    requires s.enemies == a + [e] + rest && Absent(a, e.id) && Absent(rest, e.id)
    ensures FindEnemy(s.enemies, e.id) == Some(e)
    ensures KillEnemy(s, e.id).enemies == a + rest
  {
    assert s.enemies[|a|] == e;
    var found := FindEnemy(s.enemies, e.id);
    assert found.value !in a && found.value !in rest;
    MarkThenDrop(a, e, rest);
  }

  /**
   * `r` is what resolving the kills of `snapshot` makes of `s`, while the
   * store holds `a + snapshot`: exactly the killable enemies of the snapshot
   * go, in order, and each one pays its reward and counts off once.
   */
  ghost predicate Resolved(r: Store, s: Store, a: seq<Enemy>, snapshot: seq<Enemy>)
  {
    && r.enemies == a + Filter(snapshot, Survives)
    && r.currency == s.currency + RewardSum(snapshot)
    && r.score == s.score + 10 * RewardSum(snapshot)
    && r.enemiesRemainingInWave == IntMax(0, s.enemiesRemainingInWave - CountWhere(snapshot, Killable))
    && KillFrame(r, s)
  }

  lemma {:induction false} KillAllSpec(s: Store, a: seq<Enemy>, snapshot: seq<Enemy>)
    requires s.enemies == a + snapshot && UniqueEnemyIds(s.enemies) && s.enemiesRemainingInWave >= 0
    ensures Resolved(KillAll(s, snapshot), s, a, snapshot)
    decreases |snapshot|
  {
    if snapshot == [] {
      assert a + snapshot == a;
    } else {
      var e := snapshot[0];
      var rest := snapshot[1..];
      assert snapshot == [e] + rest;
      assert s.enemies == a + [e] + rest;
      if Killable(e) {
        var next := KillEnemy(s, e.id);
        UniqueWithout(a, e, rest);
        KillFirst(s, a, e, rest);
        KillAllSpec(next, a, rest);
        ChainKill(KillAll(next, rest), next, s, a, e, rest);
      } else {
        assert s.enemies == (a + [e]) + rest;
        KillAllSpec(s, a + [e], rest);
        ChainKeep(KillAll(s, rest), s, a, e, rest);
      }
    }
  }

  /** Killing the head, then resolving the rest, resolves the whole snapshot. */
  lemma ChainKill(r: Store, next: Store, s: Store, a: seq<Enemy>, e: Enemy, rest: seq<Enemy>)
    requires Killable(e) && s.enemiesRemainingInWave >= 0
    requires next.currency == s.currency + e.reward && next.score == s.score + e.reward * 10
    requires next.enemiesRemainingInWave == IntMax(0, s.enemiesRemainingInWave - 1)
    requires KillFrame(next, s)
    requires Resolved(r, next, a, rest)
    ensures Resolved(r, s, a, [e] + rest)
  {
    var snapshot := [e] + rest;
    assert snapshot[1..] == rest;
    assert Filter(snapshot, Survives) == Filter(rest, Survives);
    assert RewardSum(snapshot) == e.reward + RewardSum(rest);
    assert CountWhere(snapshot, Killable) == 1 + CountWhere(rest, Killable);
  }

  /** A surviving head is kept and adds neither reward nor a kill. */
  lemma SurvivorHead(e: Enemy, rest: seq<Enemy>)
    requires !Killable(e)
    ensures Filter([e] + rest, Survives) == [e] + Filter(rest, Survives)
    ensures RewardSum([e] + rest) == RewardSum(rest) && CountWhere([e] + rest, Killable) == CountWhere(rest, Killable)
  {
    assert ([e] + rest)[1..] == rest;
  }

  /** Keeping the head, then resolving the rest, resolves the whole snapshot. */
  lemma ChainKeep(r: Store, s: Store, a: seq<Enemy>, e: Enemy, rest: seq<Enemy>)
    requires !Killable(e)
    requires Resolved(r, s, a + [e], rest)
    ensures Resolved(r, s, a, [e] + rest)
  {
    SurvivorHead(e, rest);
    KeptAfter(r.enemies, a, e, rest);
  }

  lemma KeptAfter(es: seq<Enemy>, a: seq<Enemy>, e: Enemy, rest: seq<Enemy>)
    requires !Killable(e) && es == (a + [e]) + Filter(rest, Survives)
    ensures es == a + Filter([e] + rest, Survives)
  {
    SurvivorHead(e, rest);
    Regroup(a, e, Filter(rest, Survives));
  }

  lemma Regroup(a: seq<Enemy>, e: Enemy, k: seq<Enemy>)
    ensures (a + [e]) + k == a + ([e] + k)
  {
  }

  /**
   * One update kills exactly the enemies with no health left that were not
   * already dead: the survivors stay in order, currency grows by their
   * rewards, score by ten times that, and the remaining count drops by the
   * number killed, floored at zero. Lives and the game state are untouched.
   */
  lemma UpdateSpec(s: Store)
    requires UniqueEnemyIds(s.enemies) && s.enemiesRemainingInWave >= 0
    ensures Resolved(Update(s), s, [], s.enemies)
  {
    assert s.enemies == [] + s.enemies;
    KillAllSpec(s, [], s.enemies);
  }

  /** Resolving kills touches only the enemies, the currency, the score and the remaining count. */
  lemma {:induction false} KillAllFrame(s: Store, snapshot: seq<Enemy>)
    ensures KillFrame(KillAll(s, snapshot), s)
    decreases |snapshot|
  {
    if snapshot != [] {
      var e := snapshot[0];
      KillAllFrame(if Killable(e) then KillEnemy(s, e.id) else s, snapshot[1..]);
    }
  }
}

=== FILE: enemy_movement.dfy ===
/**
 * Enemy path advance (src/systems/EnemyMovementSystem.ts). Each live enemy of
 * the snapshot taken at the start of the update is looked up again by id and
 * moved along the path by `speed * delta`, measured as a share of its current
 * segment; whole segments are carried over while progress is at least 1, but
 * never past the last segment.
 */
module EnemyMovement {
  import opened Wrappers
  import opened Geometry
  import opened Model
  import opened Lists
  import opened Store

  /** Every segment of the path has positive planar length, so the share of a segment is defined. */
  predicate PathWf(geo: Geo, path: seq<Vec3>)
  {
    forall i :: 0 <= i < |path| - 1 ==> Distance2D(geo, path[i], path[i + 1]) > 0.0
  }

  /** Overall progress along the path: segment index plus share of that segment. */
  function Along(e: Enemy): real
  {
    e.pathIndex as real + e.pathProgress
  }

  /**
   * The carry loop: while progress is at least 1 and the index is short of
   * `last`, move one segment on. Overall progress (index + progress) is
   * conserved, the index never passes `last`, and the loop's exit condition
   * holds of the result.
   */
  function Carry(progress: real, index: nat, last: nat): (r: (real, nat))
    ensures r.1 >= index
    ensures index <= last ==> r.1 <= last
    ensures r.1 as real + r.0 == index as real + progress
    ensures !(r.0 >= 1.0 && r.1 < last)
    ensures progress >= 0.0 ==> r.0 >= 0.0
    ensures progress < 1.0 ==> r == (progress, index)
    decreases if index < last then last - index else 0
  {
    if progress >= 1.0 && index < last then Carry(progress - 1.0, index + 1, last)
    else (progress, index)
  }

  /**
   * The end-of-path branch: mark, charge the enemy's damage in lives, remove,
   * and count it off. Marking is not visible afterwards: the enemies left are
   * those of removing the id outright, the others in their order.
   */
  function ReachEnd(s: Store, e: Enemy): (r: Store)
    ensures r.lives == IntMax(0, s.lives - e.damage)
    ensures r.gameState == (if r.lives == 0 && s.gameState == Playing then Lost else s.gameState)
    ensures forall i :: 0 <= i < |r.enemies| ==> r.enemies[i].id != e.id
    ensures r.enemies == RemoveEnemy(s, e.id).enemies
    ensures Subsequence(r.enemies, s.enemies)
    ensures forall i :: 0 <= i < |s.enemies| && s.enemies[i].id != e.id ==> s.enemies[i] in r.enemies
    ensures r.enemiesRemainingInWave == IntMax(0, s.enemiesRemainingInWave - 1)
    ensures r.currency == s.currency && r.score == s.score && r.towers == s.towers
    ensures r == s.(enemies := r.enemies, lives := r.lives, gameState := r.gameState,
                    enemiesRemainingInWave := r.enemiesRemainingInWave)
  {
    var marked := UpdateEnemy(s, e.id, (x: Enemy) => x.(reachedEnd := true));
    FilterIgnoresDropped(s.enemies, marked.enemies, (x: Enemy) => x.id != e.id);
    DecrementEnemiesRemaining(RemoveEnemy(LoseLives(marked, e.damage), e.id))
  }

  /** The fields a step writes: position, segment index, progress and rotation. */
  function Advanced(geo: Geo, path: seq<Vec3>, e: Enemy, progress: real, index: nat): Enemy
    requires index + 1 < |path|
  {
    e.(position := LerpVec(path[index], path[index + 1], progress),
       pathIndex := index,
       pathProgress := progress,
       rotation := AngleToTarget(geo, path[index], path[index + 1]))
  }

  /** The share of its current segment the enemy covers in `delta` seconds. */
  function Share(geo: Geo, path: seq<Vec3>, e: Enemy, delta: real): real
    requires PathWf(geo, path) && e.pathIndex + 1 < |path|
  {
    e.speed * delta / Distance2D(geo, path[e.pathIndex], path[e.pathIndex + 1])
  }

  /** Segment and progress after adding the share and carrying whole segments. */
  function NextPlace(geo: Geo, path: seq<Vec3>, e: Enemy, delta: real): (r: (real, nat))
    requires PathWf(geo, path) && e.pathIndex + 1 < |path|
    ensures r.1 + 1 < |path|
    ensures r.1 as real + r.0 == Along(e) + Share(geo, path, e, delta)
  {
    Carry(e.pathProgress + Share(geo, path, e, delta), e.pathIndex, |path| - 2)
  }

  /** `moveEnemy`: advance the enemy with this id, as it is in the current store. */
  function MoveEnemy(geo: Geo, path: seq<Vec3>, s: Store, id: Id, delta: real): Store
    requires PathWf(geo, path)
  {
    match FindEnemy(s.enemies, id)
    case None => s
    case Some(e) =>
      if e.pathIndex + 1 >= |path| then ReachEnd(s, e)
      else
        var next := NextPlace(geo, path, e, delta);
        if next.1 >= |path| - 1 then ReachEnd(s, e)
        else UpdateEnemy(s, id, (x: Enemy) => Advanced(geo, path, x, next.0, next.1))
  }

  /** Fold `MoveEnemy` over the snapshot, skipping enemies dead or at the end in the snapshot. */
  function MoveAll(geo: Geo, path: seq<Vec3>, s: Store, snapshot: seq<Enemy>, delta: real): Store
    requires PathWf(geo, path)
    decreases |snapshot|
  {
    if snapshot == [] then s
    else
      var e := snapshot[0];
      var next := if e.isDead || e.reachedEnd then s else MoveEnemy(geo, path, s, e.id, delta);
      MoveAll(geo, path, next, snapshot[1..], delta)
  }

  /** `update`: nothing happens on a path of fewer than two points. */
  function Update(geo: Geo, s: Store, delta: real): (r: Store)
    requires PathWf(geo, s.path)
    ensures |s.path| < 2 ==> r == s
  {
    if |s.path| < 2 then s else MoveAll(geo, s.path, s, s.enemies, delta)
  }

  // ----- Properties -----

  /** Every enemy stands on a segment that has an end point. */
  predicate OnPath(es: seq<Enemy>, path: seq<Vec3>)
  {
    forall i :: 0 <= i < |es| ==> es[i].pathIndex + 1 < |path|
  }

  /**
   * A single move from a segment that has an end point only rewrites the
   * moved enemy's position, index, progress and rotation: it advances its
   * overall progress by exactly `speed * delta / len`, keeps it on the path,
   * and leaves lives, the remaining count and every other field alone. The
   * end-of-path branch is never taken.
   */
  lemma {:induction false} MoveStaysOnPath(geo: Geo, path: seq<Vec3>, s: Store, id: Id, delta: real)
    requires PathWf(geo, path) && OnPath(s.enemies, path)
    ensures var r := MoveEnemy(geo, path, s, id, delta);
      && OnPath(r.enemies, path)
      && r == s.(enemies := r.enemies)
      && |r.enemies| == |s.enemies|
      && forall i :: 0 <= i < |s.enemies| ==> SameButMotion(r.enemies[i], s.enemies[i])
  {
    var r := MoveEnemy(geo, path, s, id, delta);
    match FindEnemy(s.enemies, id)
    case None =>
    case Some(e) =>
      assert e in s.enemies;
      var next := NextPlace(geo, path, e, delta);
      assert r == UpdateEnemy(s, id, (x: Enemy) => Advanced(geo, path, x, next.0, next.1));
      forall i | 0 <= i < |s.enemies|
        ensures r.enemies[i].pathIndex + 1 < |path| && SameButMotion(r.enemies[i], s.enemies[i])
      {
        if s.enemies[i].id == id {
          assert r.enemies[i] == Advanced(geo, path, s.enemies[i], next.0, next.1);
        }
      }
  }

  /** Two versions of one enemy that differ at most in position, index, progress and rotation. */
  predicate SameButMotion(a: Enemy, b: Enemy)
  {
    a == b.(position := a.position, pathIndex := a.pathIndex, pathProgress := a.pathProgress, rotation := a.rotation)
  }

  /**
   * The moved enemy advances by exactly its share of the current segment,
   * landing at the interpolated point of the segment it ends on and facing
   * along it.
   */
  lemma MoveAdvancesBySegmentShare(geo: Geo, path: seq<Vec3>, s: Store, e: Enemy, i: nat, delta: real)
    requires PathWf(geo, path) && OnPath(s.enemies, path)
    requires i < |s.enemies| && s.enemies[i] == e
    requires forall j :: 0 <= j < |s.enemies| && j != i ==> s.enemies[j].id != e.id
    ensures var r := MoveEnemy(geo, path, s, e.id, delta);
      var moved := r.enemies[i];
      && |r.enemies| == |s.enemies|
      && Along(moved) == Along(e) + Share(geo, path, e, delta)
      && moved.pathIndex + 1 < |path|
      && moved.position == LerpVec(path[moved.pathIndex], path[moved.pathIndex + 1], moved.pathProgress)
      && moved.rotation == AngleToTarget(geo, path[moved.pathIndex], path[moved.pathIndex + 1])
  {
    MoveStaysOnPath(geo, path, s, e.id, delta);
    assert FindEnemy(s.enemies, e.id) == Some(e);
  }

  /**
   * A whole update from a state where every enemy is on the path keeps them
   * all on it and never costs a life: the end-of-path branch cannot fire.
   */
  lemma {:induction false} MoveAllNeverLosesLives(geo: Geo, path: seq<Vec3>, s: Store, snapshot: seq<Enemy>, delta: real)
    requires PathWf(geo, path) && OnPath(s.enemies, path)
    ensures var r := MoveAll(geo, path, s, snapshot, delta);
      && OnPath(r.enemies, path)
      && r == s.(enemies := r.enemies)
      && |r.enemies| == |s.enemies|
      && forall i :: 0 <= i < |s.enemies| ==> r.enemies[i].id == s.enemies[i].id
    decreases |snapshot|
  {
    if snapshot != [] {
      var e := snapshot[0];
      var next := if e.isDead || e.reachedEnd then s else MoveEnemy(geo, path, s, e.id, delta);
      if !(e.isDead || e.reachedEnd) {
        MoveStaysOnPath(geo, path, s, e.id, delta);
        assert forall i :: 0 <= i < |s.enemies| ==> next.enemies[i].id == s.enemies[i].id by {
          forall i | 0 <= i < |s.enemies| ensures next.enemies[i].id == s.enemies[i].id {
            assert SameButMotion(next.enemies[i], s.enemies[i]);
          }
        }
      }
      MoveAllNeverLosesLives(geo, path, next, snapshot[1..], delta);
    }
  }

  /** The update as a whole: lives, currency, score and the remaining count never change. */
  lemma UpdateNeverLosesLives(geo: Geo, s: Store, delta: real)
    requires PathWf(geo, s.path) && OnPath(s.enemies, s.path)
    ensures var r := Update(geo, s, delta);
      && r.lives == s.lives && r.gameState == s.gameState
      && r.enemiesRemainingInWave == s.enemiesRemainingInWave
      && |r.enemies| == |s.enemies| && OnPath(r.enemies, s.path)
  {
    if |s.path| >= 2 {
      MoveAllNeverLosesLives(geo, s.path, s, s.enemies, delta);
    }
  }

  /** An enemy whose index has no next point pays its damage in lives and leaves the field. */
  lemma OffPathEnemyReachesEnd(geo: Geo, path: seq<Vec3>, s: Store, e: Enemy, delta: real)
    requires PathWf(geo, path)
    requires FindEnemy(s.enemies, e.id) == Some(e) && e.pathIndex + 1 >= |path|
    ensures var r := MoveEnemy(geo, path, s, e.id, delta);
      && r.lives == IntMax(0, s.lives - e.damage)
      && r.gameState == (if r.lives == 0 && s.gameState == Playing then Lost else s.gameState)
      && (forall i :: 0 <= i < |r.enemies| ==> r.enemies[i].id != e.id)
      && Subsequence(r.enemies, s.enemies)
      && (forall i :: 0 <= i < |s.enemies| && s.enemies[i].id != e.id ==> s.enemies[i] in r.enemies)
      && r.enemiesRemainingInWave == IntMax(0, s.enemiesRemainingInWave - 1)
      && r == s.(enemies := r.enemies, lives := r.lives, gameState := r.gameState,
                 enemiesRemainingInWave := r.enemiesRemainingInWave)
  {
  }

  /**
   * Moving enemies touches only the enemies, the lives, the game state (a
   * leak can lose the game) and the remaining count.
   */
  lemma {:induction false} MoveAllFrame(geo: Geo, path: seq<Vec3>, s: Store, snapshot: seq<Enemy>, delta: real)
    requires PathWf(geo, path)
    ensures var r := MoveAll(geo, path, s, snapshot, delta);
      r == s.(enemies := r.enemies, lives := r.lives, gameState := r.gameState, enemiesRemainingInWave := r.enemiesRemainingInWave)
    decreases |snapshot|
  {
    if snapshot != [] {
      var e := snapshot[0];
      if !(e.isDead || e.reachedEnd) {
        MoveEnemyFrame(geo, path, s, e.id, delta);
      }
      var next := if e.isDead || e.reachedEnd then s else MoveEnemy(geo, path, s, e.id, delta);
      MoveAllFrame(geo, path, next, snapshot[1..], delta);
    }
  }

  lemma MoveEnemyFrame(geo: Geo, path: seq<Vec3>, s: Store, id: Id, delta: real)
    requires PathWf(geo, path)
    ensures var r := MoveEnemy(geo, path, s, id, delta);
      r == s.(enemies := r.enemies, lives := r.lives, gameState := r.gameState, enemiesRemainingInWave := r.enemiesRemainingInWave)
  {
  }
}

=== FILE: entities.dfy ===
/**
 * Entity constructors (src/entities/Enemy.ts, Hero.ts, Projectile.ts,
 * Tower.ts) and the tower tier graph (src/entities/Tower.ts).
 * The random `generateId` is replaced by an `id` argument.
 */
module Entities {
  import opened Wrappers
  import opened Geometry
  import opened Model

  /** A fresh enemy at the spawn point, at full health, at the start of the path. */
  function CreateEnemy(id: Id, kind: EnemyType, position: Vec3, stats: EnemyStats): (e: Enemy)
    ensures e.id == id && e.kind == kind
    ensures e.health == e.maxHealth == stats.maxHealth
    ensures e.pathIndex == 0 && e.pathProgress == 0.0
    ensures !e.isDead && !e.reachedEnd
    ensures e.position == position && e.rotation == 0.0
    ensures e.speed == stats.speed && e.damage == stats.damage && e.reward == stats.reward
  {
    Enemy(id, kind, position, 0.0, stats.maxHealth, stats.maxHealth, stats.speed,
          stats.damage, stats.reward, 0, 0.0, false, false)
  }

  /** An ability with its cooldown running from zero. */
  function Ready(spec: AbilitySpec): (a: Ability)
    ensures a.currentCooldown == 0.0
    ensures a.key == spec.key && a.name == spec.name && a.description == spec.description
    ensures a.cooldown == spec.cooldown && a.damage == spec.damage
    ensures a.radius == spec.radius && a.duration == spec.duration
  {
    Ability(spec.key, spec.name, spec.description, spec.cooldown, 0.0, spec.damage, spec.radius, spec.duration)
  }

  /** A fresh hero: full health, standing still, no target, every ability ready. */
  function CreateHero(id: Id, name: string, position: Vec3, stats: HeroStats, abilities: Slots<AbilitySpec>): (h: Hero)
    ensures forall k :: h.abilities.Get(k).currentCooldown == 0.0
    ensures forall k :: h.abilities.Get(k) == Ready(abilities.Get(k))
    ensures h.health == h.maxHealth == stats.maxHealth
    ensures !h.isMoving && h.targetId.None? && h.targetPosition.None?
    ensures h.lastAttackTime == 0.0 && h.rotation == 0.0
    ensures h.position == position && h.name == name && h.id == id
    ensures h.speed == stats.speed && h.damage == stats.damage
    ensures h.attackRange == stats.attackRange && h.attackSpeed == stats.attackSpeed
  {
    var full := Slots(Ready(abilities.q), Ready(abilities.w), Ready(abilities.r));
    Hero(id, name, position, 0.0, stats.maxHealth, stats.maxHealth, stats.speed, stats.damage,
         stats.attackRange, stats.attackSpeed, 0.0, None, None, full, false)
  }

  /** A projectile at its launch point, carrying the given payload unchanged. */
  function CreateProjectile(id: Id, sourceId: Id, targetId: Id, startPosition: Vec3, targetPosition: Vec3,
                            damage: real, speed: real, splashRadius: Option<real>): (p: Projectile)
    ensures p.position == p.startPosition == startPosition
    ensures p.targetPosition == targetPosition
    ensures p.progress == 0.0 && p.rotation == 0.0
    ensures p.id == id && p.sourceId == sourceId && p.targetId == targetId
    ensures p.damage == damage && p.speed == speed && p.splashRadius == splashRadius
  {
    Projectile(id, sourceId, targetId, startPosition, 0.0, startPosition, targetPosition,
               damage, speed, splashRadius, 0.0)
  }

  /** A freshly bought tower: tier 1, no special effect, its price counted as invested. */
  function CreateTower(id: Id, kind: TowerType, position: Vec3, stats: TowerStats): (t: Tower)
    ensures t.tier == T1 && t.upgradePath.None? && t.specialEffect == "none"
    ensures t.totalInvested == stats.cost
    ensures t.lastFireTime == 0.0 && t.targetId.None? && t.rotation == 0.0
    ensures t.id == id && t.kind == kind && t.position == position
    ensures t.damage == stats.damage && t.range == stats.range && t.fireRate == stats.fireRate
    ensures t.projectileSpeed == stats.projectileSpeed && t.splashRadius == stats.splashRadius
  {
    Tower(id, kind, position, 0.0, stats.damage, stats.range, stats.fireRate, stats.projectileSpeed,
          0.0, None, stats.splashRadius, T1, None, "none", stats.cost)
  }

  /** Numeric level of a tier; both tier-4 branches are level 4. */
  function TierNumber(t: Tier): (n: nat)
    ensures 1 <= n <= 4
    ensures n == 4 <==> t == T4A || t == T4B
  {
    match t
    case T1 => 1
    case T2 => 2
    case T3 => 3
    case T4A => 4
    case T4B => 4
  }

  /** The tiers one upgrade step away. */
  function NextTiers(t: Tier): (r: seq<Tier>)
    ensures |r| <= 2
    ensures forall i :: 0 <= i < |r| ==> TierNumber(r[i]) == TierNumber(t) + 1
    ensures TierNumber(t) == 4 <==> r == []
  {
    match t
    case T1 => [T2]
    case T2 => [T3]
    case T3 => [T4A, T4B]
    case T4A => []
    case T4B => []
  }

  /** Legal upgrade steps: exactly the edges 1->2, 2->3, 3->4A and 3->4B. */
  predicate CanUpgradeTo(current: Tier, target: Tier)
    ensures CanUpgradeTo(current, target) <==>
      (current, target) in {(T1, T2), (T2, T3), (T3, T4A), (T3, T4B)}
    ensures CanUpgradeTo(current, target) ==> TierNumber(target) == TierNumber(current) + 1
  {
    target in NextTiers(current)
  }
}

=== FILE: game_manager.dfy ===
/**
 * The game loop (src/core/GameManager.ts). One tick runs, only while the
 * game is being played, the wave director, enemy movement, enemy health,
 * tower targeting, tower attacks, projectiles, hero movement, hero
 * abilities and hero combat, in that order, each on the store the previous
 * one left; it then declares the game won once the last wave is over and
 * the field is clear.
 *
 * The systems' private state lives in the `World` next to the store: the
 * director, the attack system's game time, the combat system's clock, the
 * ability queued by the last key press and the id counter. Player input
 * arrives as `Command`s between ticks.
 */
module GameManager {
  import opened Wrappers
  import opened Geometry
  import opened Model
  import opened Store
  import opened TowerFactory
  import WaveDirector
  import EnemyMovement
  import EnemyHealth
  import TowerTargeting
  import TowerAttack
  import Projectiles
  import HeroMovement
  import HeroAbilities
  import HeroCombat
  import Placement

  /** What the loop reads but never changes: enemy statistics, where enemies enter, the tower catalogue. */
  datatype Env = Env(stats: EnemyType -> EnemyStats, spawnPoint: Vec3, configs: Configs)

  datatype World = World(
    store: Store,
    director: WaveDirector.Director,
    gameTime: real,
    combatClock: real,
    pending: Option<AbilityKey>,
    nextId: Id)

  /**
   * `initialize`: the map's path and tower spots in the store, the waves
   * loaded, the hero placed; all clocks at zero and nothing queued.
   */
  function Initialize(s: Store, path: seq<Vec3>, spots: seq<TowerSpot>, waves: seq<Wave>, hero: Hero): (w: World)
    ensures w.store.path == path && w.store.towerSpots == spots && w.store.hero == Some(hero)
    ensures w.store.totalWaves == |waves| && w.store.currentWave == 0
    ensures w.director == WaveDirector.New().(waves := waves)
    ensures w.store == s.(path := path, towerSpots := spots, hero := Some(hero), totalWaves := |waves|, currentWave := 0)
    ensures w.gameTime == 0.0 && w.combatClock == 0.0 && w.pending == None
  {
    var (d, loaded) := WaveDirector.Initialize(waves, s.(path := path, towerSpots := spots));
    World(loaded.(hero := Some(hero)), d, 0.0, 0.0, None, 0)
  }

  /** The last wave is over and nothing is left on the field or to come. */
  predicate WinReached(s: Store)
  {
    s.currentWave >= s.totalWaves && !s.waveInProgress && |s.enemies| == 0 && s.enemiesRemainingInWave == 0
  }

  /** `checkWinCondition`: the game is won exactly when the win is reached; nothing else changes. */
  function CheckWinCondition(s: Store): (r: Store)
    ensures WinReached(s) ==> r.gameState == Won
    ensures !WinReached(s) ==> r == s
    ensures r == s.(gameState := r.gameState)
  {
    if WinReached(s) then s.(gameState := Won) else s
  }

  /** The world after the wave director and the enemy, tower and projectile systems. */
  datatype Midway = Midway(director: WaveDirector.Director, store: Store, gameTime: real, nextId: Id)

  /** The first six systems of a tick, in the loop's order. */
  function FieldSystems(geo: Geo, env: Env, w: World, delta: real): (m: Midway)
    requires EnemyMovement.PathWf(geo, w.store.path)
  {
    var waved := WaveDirector.Update(w.director, w.store, delta, env.stats, env.spawnPoint, w.nextId);
    var moved := EnemyMovement.Update(geo, waved.store, delta);
    var culled := EnemyHealth.Update(moved);
    var aimed := TowerTargeting.Update(geo, culled);
    var (fired, gameTime, id) := TowerAttack.Update(geo, aimed, w.gameTime, delta, waved.nextId);
    Midway(waved.director, Projectiles.Update(geo, fired, delta), gameTime, id)
  }

  /**
   * None of the first six systems touches the hero or the map: the hero
   * systems see the hero, the path and the tower spots as the tick found
   * them; the attack clock advances by the time step and ids only grow.
   */
  lemma FieldSparesHero(geo: Geo, env: Env, w: World, delta: real)
    requires EnemyMovement.PathWf(geo, w.store.path)
    ensures var m := FieldSystems(geo, env, w, delta);
      && m.store.hero == w.store.hero && m.store.path == w.store.path && m.store.towerSpots == w.store.towerSpots
      && m.gameTime == w.gameTime + delta && m.nextId >= w.nextId
  {
    var waved := WaveDirector.Update(w.director, w.store, delta, env.stats, env.spawnPoint, w.nextId);
    var moved := EnemyMovement.Update(geo, waved.store, delta);
    if |waved.store.path| >= 2 {
      EnemyMovement.MoveAllFrame(geo, waved.store.path, waved.store, waved.store.enemies, delta);
    }
    EnemyHealth.KillAllFrame(moved, moved.enemies);
    var culled := EnemyHealth.Update(moved);
    TowerTargeting.RetargetAllFrame(geo, culled, culled.towers, culled.enemies);
  }

  /**
   * All nine systems in the loop's order, before the win check. Both system
   * clocks advance by the time step, ids only grow and the map is kept.
   */
  function Systems(geo: Geo, env: Env, w: World, delta: real): (r: World)
    requires EnemyMovement.PathWf(geo, w.store.path)
    ensures r.gameTime == w.gameTime + delta && r.combatClock == w.combatClock + delta && r.nextId >= w.nextId
    ensures r.store.path == w.store.path && r.store.towerSpots == w.store.towerSpots
  {
    FieldSparesHero(geo, env, w, delta);
    var m := FieldSystems(geo, env, w, delta);
    var walked := HeroMovement.Update(geo, m.store, delta);
    var cast := HeroAbilities.Update(geo, walked, w.pending, delta);
    var fought := HeroCombat.Update(geo, cast.store, w.combatClock, delta);
    World(fought.store, m.director, m.gameTime, fought.clock, cast.pending, m.nextId)
  }

  /**
   * `update(delta)`: nothing at all unless the game is being played;
   * otherwise the systems, then the win check, which alters only the game
   * state.
   */
  function Update(geo: Geo, env: Env, w: World, delta: real): (r: World)
    requires EnemyMovement.PathWf(geo, w.store.path)
    ensures w.store.gameState != Playing ==> r == w
    ensures w.store.gameState == Playing ==>
      var sys := Systems(geo, env, w, delta);
      && r == sys.(store := r.store)
      && r.store == sys.store.(gameState := r.store.gameState)
      && (WinReached(sys.store) ==> r.store.gameState == Won)
      && (!WinReached(sys.store) ==> r.store == sys.store)
  {
    if w.store.gameState != Playing then w
    else
      var sys := Systems(geo, env, w, delta);
      sys.(store := CheckWinCondition(sys.store))
  }

  /**
   * A played tick advances both system clocks by the time step, never
   * moves the id counter back and keeps the map (so a well-formed path
   * stays well-formed for the next tick).
   */
  lemma TickAdvances(geo: Geo, env: Env, w: World, delta: real)
    requires EnemyMovement.PathWf(geo, w.store.path)
    ensures var r := Update(geo, env, w, delta);
      && r.store.path == w.store.path && r.store.towerSpots == w.store.towerSpots && r.nextId >= w.nextId
      && (w.store.gameState == Playing ==> r.gameTime == w.gameTime + delta && r.combatClock == w.combatClock + delta)
  {
  }

  /** A sequence of ticks with the given time steps. */
  function Run(geo: Geo, env: Env, w: World, deltas: seq<real>): (r: World)
    requires EnemyMovement.PathWf(geo, w.store.path)
    ensures r.store.path == w.store.path
    decreases |deltas|
  {
    if deltas == [] then w
    else
      TickAdvances(geo, env, w, deltas[0]);
      Run(geo, env, Update(geo, env, w, deltas[0]), deltas[1..])
  }

  /** A game that is not being played (paused, won or lost) is frozen: no number of ticks changes anything. */
  lemma {:induction false} StoppedStaysStopped(geo: Geo, env: Env, w: World, deltas: seq<real>)
    requires EnemyMovement.PathWf(geo, w.store.path) && w.store.gameState != Playing
    ensures Run(geo, env, w, deltas) == w
    decreases |deltas|
  {
    if deltas != [] {
      StoppedStaysStopped(geo, env, Update(geo, env, w, deltas[0]), deltas[1..]);
    }
  }

  /**
   * Over any run, the two system clocks advance together and the id
   * counter never goes back, so an id handed out later is never one handed
   * out before.
   */
  lemma {:induction false} RunKeepsClocksTogether(geo: Geo, env: Env, w: World, deltas: seq<real>)
    requires EnemyMovement.PathWf(geo, w.store.path)
    ensures var r := Run(geo, env, w, deltas);
      r.nextId >= w.nextId && r.gameTime - w.gameTime == r.combatClock - w.combatClock
    decreases |deltas|
  {
    if deltas != [] {
      TickAdvances(geo, env, w, deltas[0]);
      RunKeepsClocksTogether(geo, env, Update(geo, env, w, deltas[0]), deltas[1..]);
    }
  }

  /** The last wave not yet started, the game cannot be won on this tick. */
  lemma NoWinBeforeLastWave(s: Store)
    requires s.currentWave < s.totalWaves
    ensures CheckWinCondition(s) == s
  {
  }

  // ----- Player input between ticks -----

  datatype Command =
    | MoveHero(x: real, z: real)        // a click on the ground
    | Cast(key: AbilityKey)             // a `heroAbility` key event
    | NextWave                          // the wave button (and the delayed auto-start of later waves)
    | PlaceTower(spot: TowerSpot)       // a click on a tower spot

  /** A command changes neither the game state nor the clocks. */
  function Apply(env: Env, w: World, c: Command): (r: World)
    ensures r.store.gameState == w.store.gameState
    ensures r.gameTime == w.gameTime && r.combatClock == w.combatClock
    ensures c.Cast? ==> r == w.(pending := Some(c.key))
    ensures c.MoveHero? ==> r == w.(store := r.store) && r.store == w.store.(hero := r.store.hero)
  {
    match c
    case MoveHero(x, z) => w.(store := HeroMovement.SetMoveTarget(w.store, x, z))
    case Cast(key) => w.(pending := Some(key))
    case NextWave =>
      var (d, s) := WaveDirector.StartNextWave(w.director, w.store);
      w.(director := d, store := s)
    case PlaceTower(spot) =>
      var placed := Placement.PlaceTower(env.configs, w.store, spot, w.nextId);
      w.(store := placed.store, nextId := placed.nextId)
  }

  /**
   * A key press is acted on by the next tick of a played game with a hero:
   * the queue is emptied, the ability's cooldown restarts exactly when it
   * was ready after the tick's own cooling, the other two only cool, and a
   * ready W heals the hero by 50 up to its maximum while any other outcome
   * leaves the hero's health as it was.
   */
  lemma CastIsConsumed(geo: Geo, env: Env, w: World, key: AbilityKey, delta: real)
    requires EnemyMovement.PathWf(geo, w.store.path) && w.store.gameState == Playing && w.store.hero.Some?
    ensures var r := Update(geo, env, Apply(env, w, Cast(key)), delta);
      var h := w.store.hero.value;
      var a := h.abilities.Get(key);
      && r.pending.None? && r.store.hero.Some?
      && (HeroAbilities.Ready(HeroAbilities.Cool(a, delta)) ==>
            r.store.hero.value.abilities.Get(key) == a.(currentCooldown := a.cooldown))
      && (!HeroAbilities.Ready(HeroAbilities.Cool(a, delta)) ==>
            r.store.hero.value.abilities.Get(key) == HeroAbilities.Cool(a, delta))
      && (forall k :: k != key ==> r.store.hero.value.abilities.Get(k) == HeroAbilities.Cool(h.abilities.Get(k), delta))
      && (key == W && HeroAbilities.Ready(HeroAbilities.Cool(a, delta)) ==>
            r.store.hero.value.health == Min(h.maxHealth, h.health + 50.0))
      && (!(key == W && HeroAbilities.Ready(HeroAbilities.Cool(a, delta))) ==>
            r.store.hero.value.health == h.health)
  {
    var queued := Apply(env, w, Cast(key));
    SystemsCast(geo, env, queued, delta);
  }

  /**
   * The nine systems act on a queued key with the hero's abilities and
   * health as the tick found them.
   */
  lemma SystemsCast(geo: Geo, env: Env, w: World, delta: real)
    requires EnemyMovement.PathWf(geo, w.store.path) && w.store.hero.Some? && w.pending.Some?
    ensures var r := Systems(geo, env, w, delta);
      var key := w.pending.value;
      var h := w.store.hero.value;
      var a := h.abilities.Get(key);
      && r.pending.None? && r.store.hero.Some?
      && (HeroAbilities.Ready(HeroAbilities.Cool(a, delta)) ==>
            r.store.hero.value.abilities.Get(key) == a.(currentCooldown := a.cooldown))
      && (!HeroAbilities.Ready(HeroAbilities.Cool(a, delta)) ==>
            r.store.hero.value.abilities.Get(key) == HeroAbilities.Cool(a, delta))
      && (forall k :: k != key ==> r.store.hero.value.abilities.Get(k) == HeroAbilities.Cool(h.abilities.Get(k), delta))
      && (key == W && HeroAbilities.Ready(HeroAbilities.Cool(a, delta)) ==>
            r.store.hero.value.health == Min(h.maxHealth, h.health + 50.0))
      && (!(key == W && HeroAbilities.Ready(HeroAbilities.Cool(a, delta))) ==>
            r.store.hero.value.health == h.health)
  {
    FieldSparesHero(geo, env, w, delta);
  }
}

=== FILE: geometry.dfy ===
/**
 * Vector helpers of the game (src/utils/helpers.ts).
 *
 * Numbers are `real`. Square root and arc tangent are not modelled exactly:
 * they are carried by a `Geo` value whose square root is only known to be
 * non-negative and to send 0 to 0, so every distance is non-negative and a
 * point is at distance 0 from itself; nothing else about `sqrt` or `atan2`
 * is assumed.
 */
module Geometry {

  datatype Vec3 = Vec3(x: real, y: real, z: real)

  const Origin := Vec3(0.0, 0.0, 0.0)

  function Zero(x: real): real { 0.0 }

  /**
   * A square-root oracle: any function that never returns a negative number
   * and sends 0 to 0.
   */
  type Root = f: real -> real | (forall x :: f(x) >= 0.0) && f(0.0) == 0.0 witness Zero

  /** The two transcendental functions the game uses, kept abstract. */
  datatype Geo = Geo(sqrt: Root, atan2: (real, real) -> real)

  function Min(a: real, b: real): real { if a <= b then a else b }

  function Max(a: real, b: real): real { if a >= b then a else b }

  function Sq(u: real): real { u * u }

  /** Sum of a sequence, peeled from the back so prefixes extend one step at a time. */
  function Sum(s: seq<real>): real
  {
    if |s| == 0 then 0.0 else Sum(s[..|s| - 1]) + s[|s| - 1]
  }

  /**
   * The product `len * t`, named so that facts proved about it carry over to
   * every place it appears with equal arguments.
   */
  function Portion(len: real, t: real): real
  {
    len * t
  }

  lemma PortionPositive(len: real, t: real)
    requires len > 0.0 && 0.0 < t
    ensures 0.0 < Portion(len, t)
  {
    assert len * t > 0.0;
  }

  lemma PortionShort(len: real, t: real)
    requires len > 0.0 && t < 1.0
    ensures Portion(len, t) < len
  {
    assert len * (1.0 - t) > 0.0;
  }

  lemma PortionNonNegative(len: real, t: real)
    requires len >= 0.0 && t >= 0.0
    ensures Portion(len, t) >= 0.0
  {
    assert len * t >= 0.0;
  }

  /** A fraction in [0, 1] of a non-negative length lies in [0, len]. */
  lemma PortionWithin(len: real, t: real)
    requires len >= 0.0 && 0.0 <= t <= 1.0
    ensures 0.0 <= Portion(len, t) <= len
  {
    assert len * t >= 0.0;
    assert len * (1.0 - t) >= 0.0;
  }

  /** A larger fraction of a non-negative length is no shorter. */
  lemma PortionMonotone(len: real, t: real, u: real)
    requires len >= 0.0 && t <= u
    ensures Portion(len, t) <= Portion(len, u)
  {
    assert len * (u - t) >= 0.0;
  }

  /** Dividing `len * t` by `len` gives back `t`. */
  lemma DivideProduct(len: real, t: real)
    requires len != 0.0
    ensures Portion(len, t) / len == t
  {
    var q := (len * t) / len;
    assert len * q == len * t;
    assert len * (q - t) == 0.0;
  }

  lemma MulNonNegative(x: real, y: real)
    requires x >= 0.0 && y >= 0.0
    ensures x * y >= 0.0
  {
  }

  /** Linear interpolation `a + (b - a) * t`. */
  function Lerp(a: real, b: real, t: real): (r: real)
    ensures t == 0.0 ==> r == a
    ensures t == 1.0 ==> r == b
  {
    a + Portion(b - a, t)
  }

  /** Between its ends, interpolation stays between them. */
  lemma LerpBetween(a: real, b: real, t: real)
    requires a <= b && 0.0 <= t <= 1.0
    ensures a <= Lerp(a, b, t) <= b
  {
    PortionWithin(b - a, t);
  }

  /** Interpolation of points, one coordinate at a time. */
  function LerpVec(a: Vec3, b: Vec3, t: real): (r: Vec3)
    ensures t == 0.0 ==> r == a
    ensures t == 1.0 ==> r == b
  {
    Vec3(Lerp(a.x, b.x, t), Lerp(a.y, b.y, t), Lerp(a.z, b.z, t))
  }

  /** `Math.max(lo, Math.min(hi, v))`. */
  function Clamp(v: real, lo: real, hi: real): (r: real)
    ensures lo <= hi ==> lo <= r <= hi
    ensures lo <= v <= hi ==> r == v
    ensures v < lo ==> r == lo
    ensures lo <= hi && hi < v ==> r == hi
    ensures hi < lo ==> r == lo
  {
    Max(lo, Min(hi, v))
  }

  function Add(a: Vec3, b: Vec3): Vec3
  {
    Vec3(a.x + b.x, a.y + b.y, a.z + b.z)
  }

  /** Subtraction; adding `b` back recovers `a`. */
  function Sub(a: Vec3, b: Vec3): (r: Vec3)
    ensures Add(r, b) == a
    ensures b == Origin ==> r == a
  {
    Vec3(a.x - b.x, a.y - b.y, a.z - b.z)
  }

  function Scale(v: Vec3, k: real): Vec3
  {
    Vec3(v.x * k, v.y * k, v.z * k)
  }

  /** Scaling twice is scaling once by the product. */
  lemma ScaleTwice(v: Vec3, a: real, b: real)
    ensures Scale(Scale(v, a), b) == Scale(v, Portion(a, b))
  {
    assert (v.x * a) * b == v.x * (a * b);
    assert (v.y * a) * b == v.y * (a * b);
    assert (v.z * a) * b == v.z * (a * b);
  }

  /** Euclidean length of `v`, through the square-root oracle. */
  function Length(geo: Geo, v: Vec3): (r: real)
    ensures r >= 0.0
  {
    geo.sqrt(Sq(v.x) + Sq(v.y) + Sq(v.z))
  }

  /** Unit vector in the direction of `v`; the zero vector stays zero. */
  function Normalize(geo: Geo, v: Vec3): (r: Vec3)
    ensures v == Origin ==> r == Origin
    ensures exists k :: k >= 0.0 && r == Scale(v, k)
  {
    var len := Length(geo, v);
    if len == 0.0 then
      assert Origin == Scale(v, 0.0);
      Origin
    else
      assert Vec3(v.x / len, v.y / len, v.z / len) == Scale(v, 1.0 / len);
      Vec3(v.x / len, v.y / len, v.z / len)
  }

  /** Distance in the ground plane: the y coordinates are not read. */
  function Distance2D(geo: Geo, a: Vec3, b: Vec3): (r: real)
    ensures r >= 0.0
  {
    geo.sqrt(Sq(b.x - a.x) + Sq(b.z - a.z))
  }

  /** Distance in space. */
  function Distance3D(geo: Geo, a: Vec3, b: Vec3): (r: real)
    ensures r >= 0.0
  {
    Length(geo, Sub(b, a))
  }

  /** Facing angle from `from` towards `to`: `atan2(dx, dz)`. */
  function AngleToTarget(geo: Geo, from: Vec3, to: Vec3): real
  {
    geo.atan2(to.x - from.x, to.z - from.z)
  }

  lemma SquareOfDifference(p: real, q: real)
    ensures Sq(p - q) == Sq(q - p)
  {
    assert p - q == -(q - p);
  }

  /** The planar distance is symmetric and ignores height. */
  lemma Distance2DProperties(geo: Geo, a: Vec3, b: Vec3, ya: real, yb: real)
    ensures Distance2D(geo, a, b) == Distance2D(geo, b, a)
    ensures Distance2D(geo, a, b) == Distance2D(geo, a.(y := ya), b.(y := yb))
    ensures Distance2D(geo, a, a) == 0.0
  {
    SquareOfDifference(a.x, b.x);
    SquareOfDifference(a.z, b.z);
  }

  /** The spatial distance is symmetric. */
  lemma Distance3DSymmetric(geo: Geo, a: Vec3, b: Vec3)
    ensures Distance3D(geo, a, b) == Distance3D(geo, b, a)
  {
    SquareOfDifference(a.x, b.x);
    SquareOfDifference(a.y, b.y);
    SquareOfDifference(a.z, b.z);
  }

  /** A point is at distance 0 from itself, in space as in the plane. */
  lemma Distance3DSelf(geo: Geo, a: Vec3)
    ensures Distance3D(geo, a, a) == 0.0
  {
    assert Sub(a, a) == Origin;
  }

  /** Interpolation between two numbers stays between them, in either order. */
  lemma LerpWithin(a: real, b: real, t: real)
    requires 0.0 <= t <= 1.0
    ensures Min(a, b) <= Lerp(a, b, t) <= Max(a, b)
  {
    if a <= b {
      LerpBetween(a, b, t);
    } else {
      PortionWithin(a - b, t);
      assert Portion(b - a, t) == -Portion(a - b, t);
    }
  }

  /**
   * Interpolated points lie on the segment from `a` in the direction of
   * `b - a`, inside the box the two ends span.
   */
  lemma LerpVecOnSegment(a: Vec3, b: Vec3, t: real)
    ensures LerpVec(a, b, t) == Add(a, Scale(Sub(b, a), t))
    ensures 0.0 <= t <= 1.0 ==>
      var r := LerpVec(a, b, t);
      Min(a.x, b.x) <= r.x <= Max(a.x, b.x) &&
      Min(a.y, b.y) <= r.y <= Max(a.y, b.y) &&
      Min(a.z, b.z) <= r.z <= Max(a.z, b.z)
  {
    if 0.0 <= t <= 1.0 {
      LerpWithin(a.x, b.x, t);
      LerpWithin(a.y, b.y, t);
      LerpWithin(a.z, b.z, t);
    }
  }
}

=== FILE: hero_abilities.dfy ===
/**
 * Hero abilities (src/systems/HeroAbilitySystem.ts). A key press is held as
 * the pending ability until the next tick. Each tick with a hero runs every
 * ability's cooldown down by the time step, then casts the pending ability
 * if it is ready and clears it: Q, the plasma burst, deals fixed damage
 * around the hero; W, the energy shield, heals 50 up to the maximum; R, the
 * orbital strike, deals damage that falls off with distance to a third at
 * 1.5 times the radius. A cast ability's cooldown restarts in full.
 */
module HeroAbilities {
  import opened Wrappers
  import opened Geometry
  import opened Model
  import opened Store
  import opened EnemyHealth
  import opened AreaDamage

  /** An ability can be cast when no cooldown is left. */
  predicate Ready(a: Ability)
  {
    a.currentCooldown <= 0.0
  }

  /** One tick of an ability's cooldown: a positive cooldown goes down by `delta`, never below 0. */
  function Cool(a: Ability, delta: real): Ability
  {
    if a.currentCooldown > 0.0 then a.(currentCooldown := Max(0.0, a.currentCooldown - delta)) else a
  }

  /** The cooldown step applied to the three abilities. */
  function Tick(abs: Slots<Ability>, delta: real): (r: Slots<Ability>)
    ensures forall k: AbilityKey :: r.Get(k) == Cool(abs.Get(k), delta)
  {
    Slots(Cool(abs.q, delta), Cool(abs.w, delta), Cool(abs.r, delta))
  }

  /** An ability after one cooldown tick per time step, in order. */
  function CoolFor(a: Ability, ds: seq<real>): Ability
  {
    if |ds| == 0 then a else Cool(CoolFor(a, ds[..|ds| - 1]), ds[|ds| - 1])
  }

  lemma {:induction false} SumNonNegative(ds: seq<real>)
    requires forall i :: 0 <= i < |ds| ==> ds[i] >= 0.0
    ensures Sum(ds) >= 0.0
  {
    if |ds| > 0 {
      SumNonNegative(ds[..|ds| - 1]);
    }
  }

  /**
   * Over a run of non-negative time steps a running cooldown goes down by
   * their total and stops at 0; a cooldown that is not running stays put.
   * Nothing else about the ability changes.
   */
  lemma {:induction false} CooldownRunsDown(a: Ability, ds: seq<real>)
    requires forall i :: 0 <= i < |ds| ==> ds[i] >= 0.0
    ensures CoolFor(a, ds) == a.(currentCooldown := CoolFor(a, ds).currentCooldown)
    ensures a.currentCooldown > 0.0 ==> CoolFor(a, ds).currentCooldown == Max(0.0, a.currentCooldown - Sum(ds))
    ensures a.currentCooldown <= 0.0 ==> CoolFor(a, ds) == a
  {
    if |ds| > 0 {
      var init := ds[..|ds| - 1];
      CooldownRunsDown(a, init);
      SumNonNegative(init);
    }
  }

  /** Once the time steps add up to the cooldown, the ability is ready again. */
  lemma ReadyAfterCooldown(a: Ability, ds: seq<real>)
    requires forall i :: 0 <= i < |ds| ==> ds[i] >= 0.0
    requires Sum(ds) >= a.currentCooldown
    ensures Ready(CoolFor(a, ds))
  {
    CooldownRunsDown(a, ds);
  }

  /** Orbital-strike damage at distance `dist`: `floor(damage * (1 - dist / (radius * 1.5)))`. */
  function Strike(dist: real, radius: real, damage: real): real
    requires radius != 0.0
  {
    Portion(damage, 1.0 - dist / (radius * 1.5)).Floor as real
  }

  lemma StrikeShare(dist: real, radius: real)
    requires radius > 0.0 && 0.0 <= dist <= radius
    ensures 0.0 <= dist / (radius * 1.5) <= 2.0 / 3.0
  {
    var q := dist / radius;
    assert q * radius == dist;
    assert 0.0 <= q <= 1.0 by {
      assert q * radius <= 1.0 * radius;
    }
    assert dist / (radius * 1.5) == q / 1.5 by {
      assert (q / 1.5) * (radius * 1.5) == q * radius;
    }
  }

  /**
   * Inside the radius the strike deals a whole amount between a third of its
   * damage (rounded down) and its full damage.
   */
  lemma StrikeBounds(dist: real, radius: real, damage: real)
    requires radius > 0.0 && 0.0 <= dist <= radius && damage >= 0.0
    ensures (damage / 3.0).Floor as real <= Strike(dist, radius, damage) <= damage
  {
    StrikeShare(dist, radius);
    var f := 1.0 - dist / (radius * 1.5);
    PortionMonotone(damage, 1.0 / 3.0, f);
    PortionWithin(damage, f);
    assert Portion(damage, 1.0 / 3.0) == damage / 3.0;
  }

  /** At the centre the strike deals its full damage, rounded down. */
  lemma StrikeAtCentre(radius: real, damage: real)
    requires radius != 0.0
    ensures Strike(0.0, radius, damage) == damage.Floor as real
  {
    assert 0.0 / (radius * 1.5) == 0.0;
    assert Portion(damage, 1.0) == damage;
  }

  /** Radius and damage of Q: the ability's own values when truthy, else 2 and 80. */
  function PlasmaRadius(a: Ability): real { OrElse(a.radius, 2.0) }
  function PlasmaDamage(a: Ability): real { OrElse(a.damage, 80.0) }

  /** Radius and damage of R: the ability's own values when truthy, else 4 and 200. */
  function StrikeRadius(a: Ability): (r: real)
    ensures r != 0.0
  {
    OrElse(a.radius, 4.0)
  }
  function StrikeDamage(a: Ability): real { OrElse(a.damage, 200.0) }

  /** The effect of casting `key` with ability `a` from hero `h`'s position, before the cooldown restarts. */
  function Effect(geo: Geo, s: Store, h: Hero, key: AbilityKey, a: Ability): Store
  {
    match key
    case Q =>
      Burst(geo, s, h.position, PlasmaRadius(a), (dist: real) => PlasmaDamage(a), s.enemies)
    case W =>
      UpdateHero(s, (x: Hero) => x.(health := Min(x.maxHealth, x.health + 50.0)))
    case R =>
      var radius := StrikeRadius(a);
      Burst(geo, s, h.position, radius, (dist: real) => Strike(dist, radius, StrikeDamage(a)), s.enemies)
  }

  /**
   * `executeAbility`: with a hero whose ability `key` is ready, apply its
   * effect, then restart that ability's cooldown at its full length. A
   * missing hero or a cooling ability leaves the store as it is. Only the
   * enemies and the hero change; W touches only the hero's health, Q and R
   * only enemy health.
   */
  function Execute(geo: Geo, s: Store, key: AbilityKey): (r: Store)
    ensures s.hero.None? || !Ready(s.hero.value.abilities.Get(key)) ==> r == s
    ensures r == s.(enemies := r.enemies, hero := r.hero) && r.hero.Some? == s.hero.Some?
    ensures |r.enemies| == |s.enemies|
    ensures s.hero.Some? && Ready(s.hero.value.abilities.Get(key)) ==>
      var h := s.hero.value;
      var a := h.abilities.Get(key);
      && r.hero.value.abilities.Get(key) == a.(currentCooldown := a.cooldown)
      && (forall k :: k != key ==> r.hero.value.abilities.Get(k) == h.abilities.Get(k))
      && (key == W ==> r.enemies == s.enemies && r.hero.value == h.(health := Min(h.maxHealth, h.health + 50.0), abilities := r.hero.value.abilities))
      && (key != W ==> r.hero.value == h.(abilities := r.hero.value.abilities))
  {
    if s.hero.None? then s
    else
      var h := s.hero.value;
      var a := h.abilities.Get(key);
      if !Ready(a) then s
      else
        var after := Effect(geo, s, h, key, a);
        UpdateHero(after, (x: Hero) => x.(abilities := h.abilities.With(key, a.(currentCooldown := a.cooldown))))
  }

  /** The store and the pending key after a tick. */
  datatype Outcome = Outcome(store: Store, pending: Option<AbilityKey>)

  /**
   * `update`: without a hero nothing happens and a pending key stays
   * pending. With one, every cooldown ticks, then a pending key is cast (if
   * ready) and cleared.
   */
  function Update(geo: Geo, s: Store, pending: Option<AbilityKey>, delta: real): (r: Outcome)
    ensures s.hero.None? ==> r == Outcome(s, pending)
    ensures s.hero.Some? ==> r.pending.None? && r.store.hero.Some?
    ensures s.hero.Some? && pending.None? ==>
      r.store == s.(hero := Some(s.hero.value.(abilities := Tick(s.hero.value.abilities, delta))))
    ensures s.hero.Some? && pending.Some? ==>
      var found := s.hero.value.abilities.Get(pending.value);
      var rest := r.store.hero.value.abilities;
      && (Ready(Cool(found, delta)) ==> rest.Get(pending.value) == found.(currentCooldown := found.cooldown))
      && (!Ready(Cool(found, delta)) ==> rest.Get(pending.value) == Cool(found, delta) && r.store.enemies == s.enemies)
    ensures s.hero.Some? && pending.Some? ==>
      forall k :: k != pending.value ==> r.store.hero.value.abilities.Get(k) == Cool(s.hero.value.abilities.Get(k), delta)
    ensures s.hero.Some? && pending.Some? ==>
      r.store == Execute(geo, s.(hero := Some(s.hero.value.(abilities := Tick(s.hero.value.abilities, delta)))), pending.value)
  {
    if s.hero.None? then Outcome(s, pending)
    else
      var ticked := UpdateHero(s, (h: Hero) => h.(abilities := Tick(h.abilities, delta)));
      if pending.Some? then Outcome(Execute(geo, ticked, pending.value), None)
      else Outcome(ticked, None)
  }

  /**
   * With unique enemy ids, a plasma burst hits every live enemy within its
   * radius of the hero exactly once, for the ability's damage.
   */
  lemma PlasmaBurstHitsEachOnce(geo: Geo, s: Store)
    requires UniqueEnemyIds(s.enemies) && s.hero.Some? && Ready(s.hero.value.abilities.q)
    ensures var h := s.hero.value;
      var a := h.abilities.q;
      Execute(geo, s, Q).enemies == Blasted(geo, s.enemies, h.position, PlasmaRadius(a), (dist: real) => PlasmaDamage(a))
  {
    var h := s.hero.value;
    var a := h.abilities.q;
    BurstHitsEachOnce(geo, s, h.position, PlasmaRadius(a), (dist: real) => PlasmaDamage(a));
  }

  /**
   * With unique enemy ids, an orbital strike hits every live enemy within its
   * radius of the hero exactly once, by the strike damage for its distance.
   */
  lemma OrbitalStrikeHitsEachOnce(geo: Geo, s: Store)
    requires UniqueEnemyIds(s.enemies) && s.hero.Some? && Ready(s.hero.value.abilities.r)
    ensures var h := s.hero.value;
      var a := h.abilities.r;
      var radius := StrikeRadius(a);
      Execute(geo, s, R).enemies == Blasted(geo, s.enemies, h.position, radius, (dist: real) => Strike(dist, radius, StrikeDamage(a)))
  {
    var h := s.hero.value;
    var a := h.abilities.r;
    var radius := StrikeRadius(a);
    BurstHitsEachOnce(geo, s, h.position, radius, (dist: real) => Strike(dist, radius, StrikeDamage(a)));
  }

  /** Casting twice in a row casts once: the second press finds the ability cooling (for a positive cooldown). */
  lemma NoDoubleCast(geo: Geo, s: Store, key: AbilityKey)
    requires s.hero.Some? && Ready(s.hero.value.abilities.Get(key)) && s.hero.value.abilities.Get(key).cooldown > 0.0
    ensures var once := Execute(geo, s, key); Execute(geo, once, key) == once
  {
  }
}

=== FILE: hero_combat.dfy ===
/**
 * Hero auto-attack (src/systems/HeroCombatSystem.ts). The system keeps its
 * own clock, advanced by every tick. A hero standing still picks the
 * nearest live enemy within its attack range (the first one on a tie) and,
 * once `1 / attackSpeed` has passed since its last attack, damages it and
 * turns to face it; with no enemy in range it drops its target.
 */
module HeroCombat {
  import opened Wrappers
  import opened Geometry
  import opened Model
  import opened Store
  import opened EnemyHealth

  /** A live enemy within the hero's attack range, in the ground plane. */
  predicate InReach(geo: Geo, h: Hero, e: Enemy)
  {
    !e.isDead && Distance2D(geo, h.position, e.position) <= h.attackRange
  }

  function Dist(geo: Geo, h: Hero, e: Enemy): real
  {
    Distance2D(geo, h.position, e.position)
  }

  /**
   * `r` is the index of the first in-reach enemy at the least distance, or
   * `None` when no enemy is in reach.
   */
  ghost predicate IsNearest(geo: Geo, h: Hero, es: seq<Enemy>, r: Option<nat>)
  {
    && (r.Some? ==>
          && r.value < |es| && InReach(geo, h, es[r.value])
          && (forall j :: 0 <= j < |es| && InReach(geo, h, es[j]) ==> Dist(geo, h, es[r.value]) <= Dist(geo, h, es[j]))
          && (forall j :: 0 <= j < r.value && InReach(geo, h, es[j]) ==> Dist(geo, h, es[r.value]) < Dist(geo, h, es[j])))
    && (r.None? ==> forall j :: 0 <= j < |es| ==> !InReach(geo, h, es[j]))
  }

  /** What the scan knows after looking at `es[..i]`; `None` stands for the infinite starting distance. */
  ghost predicate ScanSoFar(geo: Geo, h: Hero, es: seq<Enemy>, i: nat, best: Option<nat>)
  {
    && i <= |es|
    && (best.Some? ==>
          && best.value < i && InReach(geo, h, es[best.value])
          && (forall j :: 0 <= j < i && InReach(geo, h, es[j]) ==> Dist(geo, h, es[best.value]) <= Dist(geo, h, es[j]))
          && (forall j :: 0 <= j < best.value && InReach(geo, h, es[j]) ==> Dist(geo, h, es[best.value]) < Dist(geo, h, es[j])))
    && (best.None? ==> forall j :: 0 <= j < i ==> !InReach(geo, h, es[j]))
  }

  /** The search loop from `i` on: a strictly smaller distance replaces the nearest so far. */
  function Scan(geo: Geo, h: Hero, es: seq<Enemy>, i: nat, best: Option<nat>): (r: Option<nat>)
    requires ScanSoFar(geo, h, es, i, best)
    ensures IsNearest(geo, h, es, r)
    decreases |es| - i
  {
    if i == |es| then best
    else if InReach(geo, h, es[i]) && (best.None? || Dist(geo, h, es[i]) < Dist(geo, h, es[best.value])) then
      Scan(geo, h, es, i + 1, Some(i))
    else Scan(geo, h, es, i + 1, best)
  }

  /** The nearest enemy in reach, by index into `es`. */
  function Nearest(geo: Geo, h: Hero, es: seq<Enemy>): (r: Option<nat>)
    ensures IsNearest(geo, h, es, r)
  {
    Scan(geo, h, es, 0, None)
  }

  /** The choice is determined: at most one index satisfies the selection rule. */
  lemma NearestIsUnique(geo: Geo, h: Hero, es: seq<Enemy>, r1: Option<nat>, r2: Option<nat>)
    requires IsNearest(geo, h, es, r1) && IsNearest(geo, h, es, r2)
    ensures r1 == r2
  {
  }

  /** The store and the system clock after a tick. */
  datatype Outcome = Outcome(store: Store, clock: real)

  /**
   * `update`: the clock always advances by `delta`. Without a hero, or with
   * one that is walking, nothing else happens. With an enemy in reach the
   * hero attacks it when cooled down (damage, then `lastAttackTime`,
   * `targetId` and facing) and otherwise waits; with none in reach a held
   * target is dropped.
   */
  function Update(geo: Geo, s: Store, clock: real, delta: real): (r: Outcome)
    ensures r.clock == clock + delta
    ensures s.hero.None? || s.hero.value.isMoving ==> r.store == s
    ensures r.store.hero.Some? <==> s.hero.Some?
    ensures r.store == s.(enemies := r.store.enemies, hero := r.store.hero)
    ensures s.hero.Some? ==> r.store.hero.value.abilities == s.hero.value.abilities
    ensures s.hero.Some? ==> r.store.hero.value.health == s.hero.value.health && r.store.hero.value.maxHealth == s.hero.value.maxHealth
    ensures s.hero.Some? && !s.hero.value.isMoving ==>
      var h := s.hero.value;
      var k := Nearest(geo, h, s.enemies);
      && (k.Some? && CooledDown(r.clock - h.lastAttackTime, h.attackSpeed) ==>
            && r.store.enemies == DamageEnemy(s, s.enemies[k.value].id, h.damage).enemies
            && r.store.hero.value == h.(lastAttackTime := r.clock, targetId := Some(s.enemies[k.value].id),
                                        rotation := AngleToTarget(geo, h.position, s.enemies[k.value].position)))
      && (k.Some? && !CooledDown(r.clock - h.lastAttackTime, h.attackSpeed) ==> r.store == s)
      && (k.None? ==> r.store == s.(hero := Some(h.(targetId := None))))
  {
    var now := clock + delta;
    if s.hero.None? || s.hero.value.isMoving then Outcome(s, now)
    else
      var h := s.hero.value;
      match Nearest(geo, h, s.enemies)
      case Some(k) =>
        var e := s.enemies[k];
        if CooledDown(now - h.lastAttackTime, h.attackSpeed) then
          var hit := DamageEnemy(s, e.id, h.damage);
          Outcome(UpdateHero(hit, (x: Hero) => x.(lastAttackTime := now, targetId := Some(e.id), rotation := AngleToTarget(geo, h.position, e.position))), now)
        else Outcome(s, now)
      case None =>
        Outcome(if h.targetId.Some? then UpdateHero(s, (x: Hero) => x.(targetId := None)) else s, now)
  }

  /**
   * With unique enemy ids, an attack takes the hero's damage off exactly the
   * nearest enemy in reach (health floored at 0), and every other enemy is
   * left as it was.
   */
  lemma AttackHitsNearestOnly(geo: Geo, s: Store, clock: real, delta: real)
    requires UniqueEnemyIds(s.enemies) && s.hero.Some? && !s.hero.value.isMoving
    requires Nearest(geo, s.hero.value, s.enemies).Some?
    requires CooledDown(clock + delta - s.hero.value.lastAttackTime, s.hero.value.attackSpeed)
    ensures var k := Nearest(geo, s.hero.value, s.enemies).value;
      var r := Update(geo, s, clock, delta).store;
      && |r.enemies| == |s.enemies|
      && r.enemies[k] == s.enemies[k].(health := Max(0.0, s.enemies[k].health - s.hero.value.damage))
      && forall i :: 0 <= i < |s.enemies| && i != k ==> r.enemies[i] == s.enemies[i]
  {
    var k := Nearest(geo, s.hero.value, s.enemies).value;
    HurtAt(s.enemies, k, s.hero.value.damage);
  }

  /** A hero with a zero attack speed never attacks: its cooldown is infinite. */
  lemma ZeroSpeedNeverAttacks(geo: Geo, s: Store, clock: real, delta: real)
    requires s.hero.Some? && s.hero.value.attackSpeed == 0.0
    ensures Update(geo, s, clock, delta).store.enemies == s.enemies
  {
  }
}

=== FILE: hero_movement.dfy ===
/**
 * Hero movement (src/systems/HeroMovementSystem.ts). A hero with a target
 * point walks towards it in a straight line at its speed, kept on the
 * ground, and turns to face the point; within 0.1 of the point it snaps onto
 * it and stops. `setMoveTarget` is the click command that sets the point.
 */
module HeroMovement {
  import opened Wrappers
  import opened Geometry
  import opened Model
  import opened Store

  /** The hero is walking to a point. */
  predicate Walking(s: Store)
  {
    s.hero.Some? && s.hero.value.targetPosition.Some? && s.hero.value.isMoving
  }

  /** Distance still to walk, in the ground plane. */
  function Remaining(geo: Geo, h: Hero): real
    requires h.targetPosition.Some?
  {
    Distance2D(geo, h.position, h.targetPosition.value)
  }

  /** How far the hero walks this tick: its speed times the time step, but never past the point. */
  function Stride(geo: Geo, h: Hero, delta: real): (r: real)
    requires h.targetPosition.Some?
    ensures r <= Remaining(geo, h)
    ensures h.speed >= 0.0 && delta >= 0.0 ==> r >= 0.0
    ensures Portion(h.speed, delta) >= Remaining(geo, h) ==> r == Remaining(geo, h)
  {
    if h.speed >= 0.0 && delta >= 0.0 then PortionNonNegative(h.speed, delta); Min(Portion(h.speed, delta), Remaining(geo, h))
    else Min(Portion(h.speed, delta), Remaining(geo, h))
  }

  /**
   * `update`: nothing without a hero walking to a point; within 0.1 of the
   * point the hero lands on it, drops the point and stops; otherwise it
   * steps `Stride` along the unit direction to the point, with height 0,
   * facing the point, and keeps walking.
   */
  function Update(geo: Geo, s: Store, delta: real): (r: Store)
    ensures !Walking(s) ==> r == s
    ensures Walking(s) ==> r == s.(hero := r.hero) && r.hero.Some?
    ensures s.hero.Some? ==> r.hero.Some? && r.hero.value.abilities == s.hero.value.abilities
    ensures s.hero.Some? ==> r.hero.value.health == s.hero.value.health && r.hero.value.maxHealth == s.hero.value.maxHealth
    ensures Walking(s) && Remaining(geo, s.hero.value) < 0.1 ==>
      r.hero.value == s.hero.value.(position := s.hero.value.targetPosition.value, targetPosition := None, isMoving := false)
    ensures Walking(s) && Remaining(geo, s.hero.value) >= 0.1 ==>
      var h := s.hero.value;
      && r.hero.value == h.(position := r.hero.value.position, rotation := AngleToTarget(geo, h.position, h.targetPosition.value))
      && r.hero.value.position.y == 0.0
      && Walking(r)
  {
    if !Walking(s) then s
    else
      var h := s.hero.value;
      var target := h.targetPosition.value;
      if Remaining(geo, h) < 0.1 then
        UpdateHero(s, (x: Hero) => x.(position := target, targetPosition := None, isMoving := false))
      else
        var direction := Normalize(geo, Sub(target, h.position));
        var moved := Add(h.position, Scale(direction, Stride(geo, h, delta))).(y := 0.0);
        UpdateHero(s, (x: Hero) => x.(position := moved, rotation := AngleToTarget(geo, h.position, target)))
  }

  /**
   * A step that does not arrive moves the hero towards its point: the new
   * position is the old one plus a non-negative multiple of the way to the
   * point, brought down to the ground.
   */
  lemma StepsTowardTarget(geo: Geo, s: Store, delta: real)
    requires Walking(s) && Remaining(geo, s.hero.value) >= 0.1
    requires s.hero.value.speed >= 0.0 && delta >= 0.0
    ensures var h := s.hero.value;
      exists k :: k >= 0.0 &&
        Update(geo, s, delta).hero.value.position
          == Add(h.position, Scale(Sub(h.targetPosition.value, h.position), k)).(y := 0.0)
  {
    var h := s.hero.value;
    var v := Sub(h.targetPosition.value, h.position);
    var stride := Stride(geo, h, delta);
    var k1 :| k1 >= 0.0 && Normalize(geo, v) == Scale(v, k1);
    ScaleTwice(v, k1, stride);
    PortionNonNegative(k1, stride);
    assert Update(geo, s, delta).hero.value.position == Add(h.position, Scale(v, Portion(k1, stride))).(y := 0.0);
  }

  /** `setMoveTarget(x, z)`: walk to the ground point (x, 0, z); nothing without a hero. */
  function SetMoveTarget(s: Store, x: real, z: real): (r: Store)
    ensures s.hero.None? ==> r == s
    ensures s.hero.Some? ==> Walking(r) && r.hero.value == s.hero.value.(targetPosition := Some(Vec3(x, 0.0, z)), isMoving := true)
    ensures r == s.(hero := r.hero)
  {
    UpdateHero(s, (h: Hero) => h.(targetPosition := Some(Vec3(x, 0.0, z)), isMoving := true))
  }

  /**
   * A hero sent to a point it is already within 0.1 of arrives in one tick,
   * and after arriving further updates leave the store as it is.
   */
  lemma CloseTargetArrives(geo: Geo, s: Store, x: real, z: real, delta: real, delta2: real)
    requires s.hero.Some? && Distance2D(geo, s.hero.value.position, Vec3(x, 0.0, z)) < 0.1
    ensures var r := Update(geo, SetMoveTarget(s, x, z), delta);
      && r.hero.Some? && r.hero.value.position == Vec3(x, 0.0, z) && !r.hero.value.isMoving
      && Update(geo, r, delta2) == r
  {
  }
}

=== FILE: lists.dfy ===
/**
 * The array primitives the store and the systems are built from:
 * `find`, `filter` and `map` restricted to matching entries.
 */
module Lists {
  import opened Wrappers

  /** Index of the first element that satisfies `hit`, as `Array.prototype.find` scans. */
  function FindFirst<T>(xs: seq<T>, hit: T -> bool): (r: Option<nat>)
    ensures r.Some? ==> r.value < |xs| && hit(xs[r.value])
    ensures r.Some? ==> forall j :: 0 <= j < r.value ==> !hit(xs[j])
    ensures r.None? <==> forall j :: 0 <= j < |xs| ==> !hit(xs[j])
  {
    if xs == [] then None
    else if hit(xs[0]) then Some(0)
    else
      match FindFirst(xs[1..], hit)
      case None => None
      case Some(i) => Some(i + 1)
  }

  /** Number of elements that satisfy `p`. */
  function CountWhere<T>(xs: seq<T>, p: T -> bool): (n: nat)
    ensures n <= |xs|
  {
    if xs == [] then 0 else (if p(xs[0]) then 1 else 0) + CountWhere(xs[1..], p)
  }

  /** `a` can be obtained from `b` by deleting elements. */
  ghost predicate Subsequence<T>(a: seq<T>, b: seq<T>)
    decreases |b|
  {
    a == [] || (b != [] && ((a[0] == b[0] && Subsequence(a[1..], b[1..])) || Subsequence(a, b[1..])))
  }

  /** `Array.prototype.filter`: the elements satisfying `keep`, in their original order. */
  function Filter<T>(xs: seq<T>, keep: T -> bool): (r: seq<T>)
    ensures forall i :: 0 <= i < |r| ==> keep(r[i]) && r[i] in xs
    ensures forall i :: 0 <= i < |xs| && keep(xs[i]) ==> xs[i] in r
    ensures |r| == CountWhere(xs, keep)
    ensures Subsequence(r, xs)
  {
    if xs == [] then []
    else if keep(xs[0]) then [xs[0]] + Filter(xs[1..], keep)
    else Filter(xs[1..], keep)
  }

  /**
   * Filtering does not see edits to dropped entries: where either list keeps
   * an entry, the two lists agree there.
   */
  lemma {:induction false} FilterIgnoresDropped<T>(xs: seq<T>, ys: seq<T>, keep: T -> bool)
    requires |xs| == |ys|
    requires forall i :: 0 <= i < |xs| && (keep(xs[i]) || keep(ys[i])) ==> ys[i] == xs[i]
    ensures Filter(ys, keep) == Filter(xs, keep)
  {
    if xs != [] {
      FilterIgnoresDropped(xs[1..], ys[1..], keep);
    }
  }

  /** `xs.map(x => hit(x) ? f(x) : x)`: only the matching entries change. */
  function MapWhere<T>(xs: seq<T>, hit: T -> bool, f: T -> T): (r: seq<T>)
    ensures |r| == |xs|
    ensures forall i :: 0 <= i < |xs| ==> r[i] == (if hit(xs[i]) then f(xs[i]) else xs[i])
  {
    if xs == [] then []
    else [if hit(xs[0]) then f(xs[0]) else xs[0]] + MapWhere(xs[1..], hit, f)
  }

  lemma {:induction false} FilterAppend<T>(a: seq<T>, b: seq<T>, keep: T -> bool)
    ensures Filter(a + b, keep) == Filter(a, keep) + Filter(b, keep)
    decreases |a|
  {
    if a == [] {
      assert a + b == b;
    } else {
      assert (a + b)[1..] == a[1..] + b;
      FilterAppend(a[1..], b, keep);
    }
  }

  lemma {:induction false} FilterKeepsAll<T>(xs: seq<T>, keep: T -> bool)
    requires forall i :: 0 <= i < |xs| ==> keep(xs[i])
    ensures Filter(xs, keep) == xs
    decreases |xs|
  {
    if xs != [] {
      FilterKeepsAll(xs[1..], keep);
    }
  }

  /** Filtering out exactly one element, with everything around it kept, leaves the rest in order. */
  lemma FilterDropsOne<T>(a: seq<T>, x: T, b: seq<T>, keep: T -> bool)
    requires forall i :: 0 <= i < |a| ==> keep(a[i])
    requires forall i :: 0 <= i < |b| ==> keep(b[i])
    requires !keep(x)
    ensures Filter(a + [x] + b, keep) == a + b
  {
    assert Filter([x], keep) == [] by {
      assert [x][1..] == [];
    }
    FilterAppend(a, [x], keep);
    FilterKeepsAll(a, keep);
    assert Filter(a + [x], keep) == a;
    FilterAppend(a + [x], b, keep);
    FilterKeepsAll(b, keep);
  }
}

=== FILE: model.dfy ===
/**
 * The records of the game (src/types/index.ts, plus the upgrade fields that
 * src/entities/Tower.ts and src/entities/TowerFactory.ts use).
 *
 * Identifiers of generated entities are natural numbers handed out by a
 * counter; tower spots keep the string ids of the map file. Display-only
 * fields (colours, sizes, descriptions of configs) are not carried.
 */
module Model {
  import opened Wrappers
  import opened Geometry

  type Id = nat

  datatype GameState = Menu | Playing | Paused | Won | Lost

  datatype EnemyType = Blobbert | SirScuttles | Chonkzilla | Floofernaut

  datatype TowerType = PlasmaSpire | RailCannon | NovaLauncher

  datatype AbilityKey = Q | W | R

  /** Tower tiers: 1, 2, 3 and the two exclusive tier-4 branches. */
  datatype Tier = T1 | T2 | T3 | T4A | T4B

  datatype EnemyStats = EnemyStats(maxHealth: real, speed: real, damage: int, reward: int)

  datatype Enemy = Enemy(
    id: Id,
    kind: EnemyType,
    position: Vec3,
    rotation: real,
    health: real,
    maxHealth: real,
    speed: real,
    damage: int,
    reward: int,
    pathIndex: nat,
    pathProgress: real,
    isDead: bool,
    reachedEnd: bool)

  datatype TowerStats = TowerStats(
    damage: real,
    range: real,
    fireRate: real,
    projectileSpeed: real,
    cost: int,
    splashRadius: Option<real>)

  datatype Tower = Tower(
    id: Id,
    kind: TowerType,
    position: Vec3,
    rotation: real,
    damage: real,
    range: real,
    fireRate: real,
    projectileSpeed: real,
    lastFireTime: real,
    targetId: Option<Id>,
    splashRadius: Option<real>,
    tier: Tier,
    upgradePath: Option<Tier>,
    specialEffect: string,
    totalInvested: int)

  /** Multiplicative modifiers of one upgrade step; absent ones leave the stat alone. */
  datatype StatModifiers = StatModifiers(
    damage: Option<real>,
    range: Option<real>,
    fireRate: Option<real>,
    splashRadius: Option<real>)

  datatype TowerUpgrade = TowerUpgrade(
    name: string,
    cost: int,
    statModifiers: StatModifiers,
    specialEffect: Option<string>)

  datatype Upgrades = Upgrades(tier2: TowerUpgrade, tier3: TowerUpgrade, tier4A: TowerUpgrade, tier4B: TowerUpgrade)

  datatype TowerConfig = TowerConfig(name: string, stats: TowerStats, upgrades: Upgrades)

  datatype Projectile = Projectile(
    id: Id,
    sourceId: Id,
    targetId: Id,
    position: Vec3,
    rotation: real,
    startPosition: Vec3,
    targetPosition: Vec3,
    damage: real,
    speed: real,
    splashRadius: Option<real>,
    progress: real)

  /** An ability as configured: everything but the running cooldown. */
  datatype AbilitySpec = AbilitySpec(
    key: AbilityKey,
    name: string,
    description: string,
    cooldown: real,
    damage: Option<real>,
    radius: Option<real>,
    duration: Option<real>)

  datatype Ability = Ability(
    key: AbilityKey,
    name: string,
    description: string,
    cooldown: real,
    currentCooldown: real,
    damage: Option<real>,
    radius: Option<real>,
    duration: Option<real>)

  /** A record keyed by the three ability keys. */
  datatype Slots<T> = Slots(q: T, w: T, r: T) {

    function Get(k: AbilityKey): T
    {
      match k
      case Q => q
      case W => w
      case R => r
    }

    function With(k: AbilityKey, v: T): (s: Slots<T>)
      ensures s.Get(k) == v
      ensures forall k' :: k' != k ==> s.Get(k') == Get(k')
    {
      match k
      case Q => this.(q := v)
      case W => this.(w := v)
      case R => this.(r := v)
    }
  }

  datatype HeroStats = HeroStats(maxHealth: real, speed: real, damage: real, attackRange: real, attackSpeed: real)

  datatype Hero = Hero(
    id: Id,
    name: string,
    position: Vec3,
    rotation: real,
    health: real,
    maxHealth: real,
    speed: real,
    damage: real,
    attackRange: real,
    attackSpeed: real,
    lastAttackTime: real,
    targetId: Option<Id>,
    targetPosition: Option<Vec3>,
    abilities: Slots<Ability>,
    isMoving: bool)

  datatype TowerSpot = TowerSpot(id: string, position: Vec3, occupied: bool)

  datatype WaveEnemy = WaveEnemy(kind: EnemyType, count: nat, spawnDelay: real)

  datatype Wave = Wave(id: int, enemies: seq<WaveEnemy>, delayBetweenWaves: real)

  /** JavaScript truthiness of an optional number: present and non-zero. */
  predicate Truthy(o: Option<real>)
  {
    o.Some? && o.value != 0.0
  }

  /** `o || d` on an optional number. */
  function OrElse(o: Option<real>, d: real): (r: real)
    ensures d != 0.0 ==> r != 0.0
    ensures r == d || (o.Some? && r == o.value)
  {
    if Truthy(o) then o.value else d
  }

  /**
   * The cooldown gate of towers and of the hero: `elapsed >= 1 / rate`, read
   * with JavaScript division, so a zero rate gives an infinite cooldown that
   * never runs out.
   */
  predicate CooledDown(elapsed: real, rate: real)
  {
    rate != 0.0 && elapsed >= 1.0 / rate
  }
}

=== FILE: paths.dfy ===
/**
 * The path manager (src/core/PathManager.ts): a polyline of waypoints with
 * cached planar segment lengths, mapping overall progress in [0, 1] to a
 * point on the path and a (segment, fraction) pair back to overall progress.
 */
module Paths {
  import opened Geometry

  lemma SumPrefixStep(s: seq<real>, i: nat)
    requires i < |s|
    ensures Sum(s[..i + 1]) == Sum(s[..i]) + s[i]
  {
    assert s[..i + 1][..i] == s[..i];
  }

  /** Prefix sums of non-negative lengths never decrease. */
  lemma {:induction false} SumPrefixMonotone(s: seq<real>, i: nat, j: nat)
    requires i <= j <= |s|
    requires forall k :: 0 <= k < |s| ==> s[k] >= 0.0
    ensures Sum(s[..i]) <= Sum(s[..j])
    decreases j - i
  {
    if i < j {
      SumPrefixMonotone(s, i, j - 1);
      SumPrefixStep(s, j - 1);
    }
  }

  datatype PathManager = PathManager(path: seq<Vec3>, segmentLengths: seq<real>, totalLength: real)
  {
    /** The cached lengths belong to the path: one per segment, non-negative, and summed. */
    ghost predicate Wf(geo: Geo)
    {
      && |segmentLengths| == (if |path| == 0 then 0 else |path| - 1)
      && (forall i :: 0 <= i < |segmentLengths| ==> segmentLengths[i] == Distance2D(geo, path[i], path[i + 1]))
      && totalLength == Sum(segmentLengths)
    }

    function SegmentCount(): nat
    {
      |segmentLengths|
    }
  }

  /** A manager that has not been given a path yet. */
  function Empty(): PathManager
  {
    PathManager([], [], 0.0)
  }

  /** Planar length of each segment of a polyline. */
  function SegmentLengths(geo: Geo, path: seq<Vec3>): (lens: seq<real>)
    ensures |lens| == (if |path| == 0 then 0 else |path| - 1)
    ensures forall i :: 0 <= i < |lens| ==> lens[i] == Distance2D(geo, path[i], path[i + 1])
  {
    if |path| <= 1 then [] else SegmentLengths(geo, path[..|path| - 1]) + [Distance2D(geo, path[|path| - 2], path[|path| - 1])]
  }

  /** Replace the path and recompute the cached lengths. */
  function SetPath(geo: Geo, path: seq<Vec3>): (pm: PathManager)
    ensures pm.Wf(geo) && pm.path == path
    ensures pm.SegmentCount() == (if |path| == 0 then 0 else |path| - 1)
  {
    var lens := SegmentLengths(geo, path);
    PathManager(path, lens, Sum(lens))
  }

  /** Total length is never negative; it is zero exactly when every segment is degenerate. */
  lemma TotalLengthZero(geo: Geo, pm: PathManager)
    requires pm.Wf(geo)
    ensures pm.totalLength >= 0.0
    ensures pm.totalLength == 0.0 <==> forall i :: 0 <= i < |pm.segmentLengths| ==> pm.segmentLengths[i] == 0.0
  {
    var s := pm.segmentLengths;
    LengthsNonNegative(geo, pm);
    SumPrefixMonotone(s, 0, |s|);
    assert s[..|s|] == s;
    if forall k :: 0 <= k < |s| ==> s[k] == 0.0 {
      ZeroSum(s);
    }
    if pm.totalLength == 0.0 {
      forall i | 0 <= i < |s|
        ensures s[i] == 0.0
      {
        SumPrefixMonotone(s, 0, i);
        SumPrefixStep(s, i);
        SumPrefixMonotone(s, i + 1, |s|);
      }
    }
  }

  lemma {:induction false} ZeroSum(s: seq<real>)
    requires forall k :: 0 <= k < |s| ==> s[k] == 0.0
    ensures Sum(s) == 0.0
  {
    if |s| > 0 {
      ZeroSum(s[..|s| - 1]);
    }
  }

  /**
   * Scan the segments from `i`, where `acc` is the length already passed and
   * still short of `target`; stop in the first segment that reaches it.
   */
  function Walk(pm: PathManager, i: nat, acc: real, target: real): (r: Vec3)
    requires |pm.path| == |pm.segmentLengths| + 1
    requires i <= |pm.segmentLengths|
    requires forall k :: 0 <= k < |pm.segmentLengths| ==> pm.segmentLengths[k] >= 0.0
    requires acc == Sum(pm.segmentLengths[..i]) && acc < target
    ensures
      var lens := pm.segmentLengths;
      || (exists j :: i <= j < |lens| && Reaches(pm, j, target) && r == AlongSegment(pm, j, target))
      || (r == pm.path[|pm.path| - 1] && Sum(lens) < target)
    decreases |pm.segmentLengths| - i
  {
    var lens := pm.segmentLengths;
    if i == |lens| then
      assert lens[..i] == lens;
      pm.path[|pm.path| - 1]
    else
      SumPrefixStep(lens, i);
      if acc + lens[i] >= target then
        AlongSegment(pm, i, target)
      else
        Walk(pm, i + 1, acc + lens[i], target)
  }

  /** Segment `j` is the first whose end reaches `target`. */
  ghost predicate Reaches(pm: PathManager, j: nat, target: real)
    requires j < |pm.segmentLengths|
  {
    var lens := pm.segmentLengths;
    Sum(lens[..j]) < target <= Sum(lens[..j + 1]) && lens[j] > 0.0
  }

  /** The point `target` along the whole path, inside segment `j`. */
  function AlongSegment(pm: PathManager, j: nat, target: real): Vec3
    requires j < |pm.segmentLengths| && |pm.path| == |pm.segmentLengths| + 1
    requires Sum(pm.segmentLengths[..j]) < target <= Sum(pm.segmentLengths[..j + 1])
  {
    var lens := pm.segmentLengths;
    SumPrefixStep(lens, j);
    LerpVec(pm.path[j], pm.path[j + 1], (target - Sum(lens[..j])) / lens[j])
  }

  /**
   * The point at overall `progress`: the origin on an empty path, the only
   * point of a one-point path, the ends outside (0, 1), and otherwise the
   * interpolated point in the unique segment that first covers
   * `progress * totalLength`.
   */
  function PositionAtProgress(geo: Geo, pm: PathManager, progress: real): (r: Vec3)
    requires pm.Wf(geo)
    requires |pm.path| >= 2 && 0.0 < progress < 1.0 ==> pm.totalLength > 0.0
    ensures |pm.path| == 0 ==> r == Origin
    ensures |pm.path| == 1 ==> r == pm.path[0]
    ensures |pm.path| >= 2 && progress <= 0.0 ==> r == pm.path[0]
    ensures |pm.path| >= 2 && progress >= 1.0 ==> r == pm.path[|pm.path| - 1]
    ensures |pm.path| >= 2 && 0.0 < progress < 1.0 ==>
      exists j :: 0 <= j < |pm.segmentLengths| && Reaches(pm, j, Target(pm, progress))
        && r == AlongSegment(pm, j, Target(pm, progress))
  {
    if |pm.path| == 0 then Origin
    else if |pm.path| == 1 then pm.path[0]
    else if progress <= 0.0 then pm.path[0]
    else if progress >= 1.0 then pm.path[|pm.path| - 1]
    else
      WalkFromStart(geo, pm, progress);
      Walk(pm, 0, 0.0, Target(pm, progress))
  }

  /** The distance along the path that overall `progress` stands for. */
  function Target(pm: PathManager, progress: real): real
  {
    Portion(pm.totalLength, progress)
  }


  /** Strictly inside (0, 1), the target distance is strictly inside the path, so a walk from the start applies. */
  lemma WalkFromStart(geo: Geo, pm: PathManager, progress: real)
    requires pm.Wf(geo) && |pm.path| >= 2 && 0.0 < progress < 1.0 && pm.totalLength > 0.0
    ensures |pm.path| == |pm.segmentLengths| + 1
    ensures forall k :: 0 <= k < |pm.segmentLengths| ==> pm.segmentLengths[k] >= 0.0
    ensures 0.0 == Sum(pm.segmentLengths[..0]) && 0.0 < Target(pm, progress) < Sum(pm.segmentLengths)
  {
    LengthsNonNegative(geo, pm);
    PartOfSegment(pm.totalLength, progress);
    assert pm.segmentLengths[..0] == [];
  }

  lemma LengthsNonNegative(geo: Geo, pm: PathManager)
    requires pm.Wf(geo)
    ensures forall k :: 0 <= k < |pm.segmentLengths| ==> pm.segmentLengths[k] >= 0.0
  {
    forall k | 0 <= k < |pm.segmentLengths|
      ensures pm.segmentLengths[k] >= 0.0
    {
      assert pm.segmentLengths[k] == Distance2D(geo, pm.path[k], pm.path[k + 1]);
    }
  }

  /** At most one segment first reaches a given distance. */
  lemma ReachesUnique(geo: Geo, pm: PathManager, i: nat, j: nat, x: real)
    requires pm.Wf(geo) && i < |pm.segmentLengths| && j < |pm.segmentLengths|
    requires Reaches(pm, i, x) && Reaches(pm, j, x)
    ensures i == j
  {
    LengthsNonNegative(geo, pm);
    if i < j {
      SumPrefixMonotone(pm.segmentLengths, i + 1, j);
    } else if j < i {
      SumPrefixMonotone(pm.segmentLengths, j + 1, i);
    }
  }

  /**
   * Overall progress of a point `progressInSegment` of the way along segment
   * `index`: the length before the segment plus that share of it, over the
   * total; 0 on a path of no length.
   */
  function ProgressForIndex(pm: PathManager, index: nat, progressInSegment: real): (r: real)
    ensures pm.totalLength != 0.0 ==> Portion(pm.totalLength, r) == Covered(pm.segmentLengths, index, progressInSegment)
    ensures 0.0 < Covered(pm.segmentLengths, index, progressInSegment) < pm.totalLength ==> 0.0 < r
    ensures 0.0 < Covered(pm.segmentLengths, index, progressInSegment) < pm.totalLength ==> r < 1.0
    ensures pm.totalLength == 0.0 ==> r == 0.0
  {
    if pm.totalLength == 0.0 then 0.0
    else Ratio(Covered(pm.segmentLengths, index, progressInSegment), pm.totalLength)
  }

  /** Real division, with the facts about it the progress lemmas rely on. */
  function Ratio(x: real, d: real): (q: real)
    requires d != 0.0
    ensures Portion(d, q) == x
    ensures 0.0 < x < d ==> 0.0 < q
    ensures 0.0 < x < d ==> q < 1.0
  {
    if 0.0 < x < d then QuotientInside(x, d); x / d else x / d
  }

  lemma QuotientInside(x: real, d: real)
    requires 0.0 < x < d
    ensures 0.0 < x / d < 1.0
  {
    var q := x / d;
    assert q * d == x;
    if q <= 0.0 {
      MulNonNegative(-q, d);
      assert false;
    }
    if q >= 1.0 {
      MulNonNegative(q - 1.0, d);
      assert false;
    }
  }

  /** Path length covered at fraction `t` of segment `index` (the whole path past the last segment). */
  function Covered(lens: seq<real>, index: nat, t: real): real
  {
    if index < |lens| then Sum(lens[..index]) + Portion(lens[index], t) else Sum(lens)
  }

  /** Inside a segment of positive length and for `t` strictly inside (0, 1), the covered length lies strictly between the segment's ends. */
  lemma CoveredInSegment(lens: seq<real>, index: nat, t: real)
    requires index < |lens| && lens[index] > 0.0 && 0.0 < t < 1.0
    ensures Sum(lens[..index]) < Covered(lens, index, t) < Sum(lens[..index]) + lens[index]
  {
    PartOfSegment(lens[index], t);
  }

  /** Inside a segment of positive length, the covered length is fraction `t` of the segment past its start. */
  lemma CoveredShare(lens: seq<real>, index: nat, t: real)
    requires index < |lens| && lens[index] > 0.0
    ensures (Covered(lens, index, t) - Sum(lens[..index])) / lens[index] == t
  {
    var base := Sum(lens[..index]);
    assert (base + Portion(lens[index], t)) - base == Portion(lens[index], t);
    DivideProduct(lens[index], t);
  }

  /** Fraction `t` of a length `len` lies strictly inside (0, len) for `t` in (0, 1). */
  lemma PartOfSegment(len: real, t: real)
    requires len > 0.0 && 0.0 < t < 1.0
    ensures 0.0 < Portion(len, t) < len
  {
    PortionPositive(len, t);
    PortionShort(len, t);
  }

  /** The start of the first segment is progress 0, and the end of the last (or anything past it) is 1. */
  lemma ProgressEnds(geo: Geo, pm: PathManager)
    requires pm.Wf(geo) && |pm.path| >= 2 && pm.totalLength > 0.0
    ensures ProgressForIndex(pm, 0, 0.0) == 0.0
    ensures ProgressForIndex(pm, |pm.path| - 2, 1.0) == 1.0
    ensures forall i: nat :: i >= |pm.segmentLengths| ==> ProgressForIndex(pm, i, 0.0) == 1.0
  {
    var lens := pm.segmentLengths;
    var m := |lens|;
    assert lens[..0] == [];
    assert Covered(lens, 0, 0.0) == 0.0;
    SumPrefixStep(lens, m - 1);
    assert lens[..m] == lens;
    assert Covered(lens, m - 1, 1.0) == pm.totalLength;
    assert pm.totalLength / pm.totalLength == 1.0;
  }

  /** Covered length never decreases as (index, t) moves forward along the path. */
  lemma CoveredMonotone(lens: seq<real>, i: nat, t: real, j: nat, u: real)
    requires forall k :: 0 <= k < |lens| ==> lens[k] >= 0.0
    requires 0.0 <= t <= 1.0 && 0.0 <= u <= 1.0
    requires i < j || (i == j && t <= u)
    ensures Covered(lens, i, t) <= Covered(lens, j, u)
  {
    var m := |lens|;
    assert lens[..m] == lens;
    if i < m {
      SumPrefixStep(lens, i);
      PortionWithin(lens[i], t);
      if i == j {
        PortionMonotone(lens[i], t, u);
      } else if j < m {
        SumPrefixMonotone(lens, i + 1, j);
        PortionWithin(lens[j], u);
      } else {
        SumPrefixMonotone(lens, i + 1, m);
      }
    }
  }

  /** Moving forward along the path never lowers overall progress. */
  lemma ProgressMonotone(geo: Geo, pm: PathManager, i: nat, t: real, j: nat, u: real)
    requires pm.Wf(geo) && pm.totalLength > 0.0
    requires 0.0 <= t <= 1.0 && 0.0 <= u <= 1.0
    requires i < j || (i == j && t <= u)
    ensures ProgressForIndex(pm, i, t) <= ProgressForIndex(pm, j, u)
  {
    LengthsNonNegative(geo, pm);
    CoveredMonotone(pm.segmentLengths, i, t, j, u);
    DivideMonotone(Covered(pm.segmentLengths, i, t), Covered(pm.segmentLengths, j, u), pm.totalLength);
  }

  lemma DivideMonotone(a: real, b: real, d: real)
    requires a <= b && d > 0.0
    ensures a / d <= b / d
  {
    assert b / d - a / d == (b - a) / d;
  }

  /**
   * Round trip: the point at the overall progress of (segment `i`, fraction
   * `t`) is the point fraction `t` along segment `i`, for a segment of
   * positive length and a fraction strictly inside it.
   */
  lemma ProgressRoundTrip(geo: Geo, pm: PathManager, i: nat, t: real)
    requires pm.Wf(geo) && i < |pm.segmentLengths| && pm.segmentLengths[i] > 0.0
    requires 0.0 < t < 1.0
    ensures pm.totalLength > 0.0
    ensures PositionAtProgress(geo, pm, ProgressForIndex(pm, i, t)) == LerpVec(pm.path[i], pm.path[i + 1], t)
  {
    var lens := pm.segmentLengths;
    var x := Covered(lens, i, t);
    LengthsNonNegative(geo, pm);
    SegmentSpan(lens, i, t);
    assert Reaches(pm, i, x);
    assert AlongSegment(pm, i, x) == LerpVec(pm.path[i], pm.path[i + 1], t);
    var p := ProgressForIndex(pm, i, t);
    TargetOfIndex(pm, i, t);
    assert 0.0 < p < 1.0;
    var r := PositionAtProgress(geo, pm, p);
    var j :| 0 <= j < |lens| && Reaches(pm, j, x) && r == AlongSegment(pm, j, x);
    ReachesUnique(geo, pm, i, j, x);
  }

  /** Scaling the overall progress of a position back up gives the length covered to it. */
  lemma TargetOfIndex(pm: PathManager, i: nat, t: real)
    requires pm.totalLength != 0.0
    ensures Target(pm, ProgressForIndex(pm, i, t)) == Covered(pm.segmentLengths, i, t)
  {
  }

  /** The length covered strictly inside segment `i` lies strictly between its ends, within the path. */
  lemma SegmentSpan(lens: seq<real>, i: nat, t: real)
    requires forall k :: 0 <= k < |lens| ==> lens[k] >= 0.0
    requires i < |lens| && lens[i] > 0.0 && 0.0 < t < 1.0
    ensures 0.0 <= Sum(lens[..i]) < Covered(lens, i, t) < Sum(lens[..i + 1]) <= Sum(lens)
    ensures (Covered(lens, i, t) - Sum(lens[..i])) / lens[i] == t
  {
    CoveredInSegment(lens, i, t);
    CoveredShare(lens, i, t);
    SumPrefixStep(lens, i);
    SumPrefixMonotone(lens, 0, i);
    SumPrefixMonotone(lens, i + 1, |lens|);
    assert lens[..0] == [];
    assert lens[..|lens|] == lens;
  }
}

=== FILE: placement.dfy ===
/**
 * The place-tower command: the click handler of a tower spot
 * (src/graphics/MapRenderer.tsx). A click on a free spot with a tower type
 * selected buys a tower of that type at the spot's position, if the purse
 * covers its cost, and marks the spot occupied. The spot is the one the
 * handler was rendered with; the new tower's id comes from a counter.
 */
module Placement {
  import opened Wrappers
  import opened Model
  import opened Store
  import opened TowerFactory

  /** The store and the id counter after a click. */
  datatype Placed = Placed(store: Store, nextId: Id)

  function PlaceTower(configs: Configs, s: Store, spot: TowerSpot, nextId: Id): (r: Placed)
    ensures spot.occupied || s.selectedTowerType.None? ==> r == Placed(s, nextId)
    ensures !spot.occupied && s.selectedTowerType.Some? && s.currency < GetCost(configs, s.selectedTowerType.value) ==>
      r == Placed(s, nextId)
    ensures !spot.occupied && s.selectedTowerType.Some? && s.currency >= GetCost(configs, s.selectedTowerType.value) ==>
      var kind := s.selectedTowerType.value;
      && r.store.currency == s.currency - GetCost(configs, kind)
      && r.store.towers == s.towers + [Create(configs, nextId, kind, spot.position)]
      && r.store == SetSpotOccupied(s, spot.id, true).(currency := r.store.currency, towers := r.store.towers)
      && r.nextId == nextId + 1
  {
    if spot.occupied || s.selectedTowerType.None? then Placed(s, nextId)
    else
      var kind := s.selectedTowerType.value;
      var paid := SpendCurrency(s, GetCost(configs, kind));
      if paid.ok then
        var tower := Create(configs, nextId, kind, spot.position);
        Placed(OccupyTowerSpot(AddTower(paid.store, tower), spot.id), nextId + 1)
      else Placed(s, nextId)
  }

  /**
   * With the purse covering the cost, a click on a free spot of the store
   * adds one tower without taking the purse below zero; and once the spot
   * has been built on, clicking it again (as re-rendered from the new
   * store) changes nothing.
   */
  lemma NoSecondTowerOnSpot(configs: Configs, s: Store, k: nat, nextId: Id)
    requires k < |s.towerSpots| && s.selectedTowerType.Some?
    requires s.currency >= GetCost(configs, s.selectedTowerType.value)
    ensures var r := PlaceTower(configs, s, s.towerSpots[k], nextId);
      && (!s.towerSpots[k].occupied ==> |r.store.towers| == |s.towers| + 1 && r.store.currency >= 0)
      && k < |r.store.towerSpots| && r.store.towerSpots[k].occupied
      && PlaceTower(configs, r.store, r.store.towerSpots[k], r.nextId) == r
  {
    var r := PlaceTower(configs, s, s.towerSpots[k], nextId);
    if !s.towerSpots[k].occupied {
      assert r.store.towerSpots[k] == s.towerSpots[k].(occupied := true);
    }
  }
}

=== FILE: projectiles.dfy ===
/**
 * Projectile flight (src/systems/ProjectileSystem.ts). Each projectile of the
 * snapshot homes on its target while that enemy is in the snapshot and alive,
 * or flies on to the last point it aimed at. Progress along the flight is
 * capped at 1. A homing projectile lands when it comes within 0.5 of its
 * target in the ground plane or reaches the end of its flight; a projectile
 * without a target lands at the end of its flight. Landing removes it: a
 * splash projectile then damages every live enemy in its radius with linear
 * falloff, a single-target one damages its target, and a single-target one
 * whose target is gone deals nothing. A projectile still in flight is
 * removed and appended again with its new progress and position.
 */
module Projectiles {
  import opened Wrappers
  import opened Geometry
  import opened Model
  import opened Store
  import opened EnemyHealth
  import opened AreaDamage

  /** Share of the whole flight covered in one tick; a flight of no length is covered at once. */
  function Increment(speed: real, delta: real, total: real): real
  {
    if total > 0.0 then Portion(speed, delta) / total else 1.0
  }

  lemma IncrementNonNegative(speed: real, delta: real, total: real)
    requires speed >= 0.0 && delta >= 0.0
    ensures Increment(speed, delta, total) >= 0.0
  {
    if total > 0.0 {
      PortionNonNegative(speed, delta);
      QuotientNonNegative(Portion(speed, delta), total);
    }
  }

  lemma QuotientNonNegative(x: real, d: real)
    requires x >= 0.0 && d > 0.0
    ensures x / d >= 0.0
  {
  }

  /**
   * The projectile after one tick of flight from its start towards `aim`,
   * which becomes its target position: progress grows by the tick's share of
   * the flight, capped at 1, and the position is that far along the line.
   */
  function Homed(geo: Geo, p: Projectile, aim: Vec3, delta: real): (q: Projectile)
    ensures q == p.(targetPosition := aim, progress := q.progress, position := LerpVec(p.startPosition, aim, q.progress))
    ensures q.progress <= 1.0
    ensures Distance3D(geo, p.startPosition, aim) == 0.0 && p.progress >= 0.0 ==> q.progress == 1.0
    ensures p.startPosition == aim && p.progress >= 0.0 ==> q.progress == 1.0 && q.position == aim
  {
    Distance3DSelf(geo, aim);
    var progress := Min(1.0, p.progress + Increment(p.speed, delta, Distance3D(geo, p.startPosition, aim)));
    p.(targetPosition := aim, progress := progress, position := LerpVec(p.startPosition, aim, progress))
  }

  /** With a non-negative speed and time step, flight only moves forward and stays within [0, 1]. */
  lemma HomedMovesForward(geo: Geo, p: Projectile, aim: Vec3, delta: real)
    requires p.speed >= 0.0 && delta >= 0.0 && 0.0 <= p.progress <= 1.0
    ensures p.progress <= Homed(geo, p, aim, delta).progress <= 1.0
  {
    IncrementNonNegative(p.speed, delta, Distance3D(geo, p.startPosition, aim));
  }

  /** Splash damage at distance `dist` from the centre: `floor(damage * (1 - dist / radius))`. */
  function Falloff(dist: real, radius: real, damage: real): real
    requires radius != 0.0
  {
    Portion(damage, 1.0 - dist / radius).Floor as real
  }

  /** Inside the radius, splash damage is a whole number between 0 and the full damage. */
  lemma FalloffBounds(dist: real, radius: real, damage: real)
    requires radius > 0.0 && 0.0 <= dist <= radius && damage >= 0.0
    ensures 0.0 <= Falloff(dist, radius, damage) <= damage
  {
    QuotientAtMostOne(dist, radius);
    PortionWithin(damage, 1.0 - dist / radius);
  }

  lemma QuotientAtMostOne(x: real, d: real)
    requires d > 0.0 && 0.0 <= x <= d
    ensures 0.0 <= x / d <= 1.0
  {
    assert x / d * d == x;
  }

  /** At the edge of the radius, splash damage is nothing. */
  lemma FalloffAtEdge(radius: real, damage: real)
    requires radius != 0.0
    ensures Falloff(radius, radius, damage) == 0.0
  {
    assert radius / radius == 1.0;
    assert Portion(damage, 0.0) == 0.0;
  }

  /**
   * `applySplashDamage`: a burst around the projectile's position, with
   * falloff damage, over the snapshot enemies.
   */
  function Splash(geo: Geo, s: Store, p: Projectile, es: seq<Enemy>): (r: Store)
    requires Truthy(p.splashRadius)
    ensures r == s.(enemies := r.enemies) && |r.enemies| == |s.enemies|
    ensures forall i :: 0 <= i < |s.enemies| ==> r.enemies[i] == s.enemies[i].(health := r.enemies[i].health)
  {
    var radius := p.splashRadius.value;
    Burst(geo, s, p.position, radius, (dist: real) => Falloff(dist, radius, p.damage), es)
  }

  /** The snapshot entry of the projectile's target, when it is there and alive. */
  function LiveTargetOf(p: Projectile, es: seq<Enemy>): (r: Option<Enemy>)
    ensures r.Some? ==> r.value in es && r.value.id == p.targetId && !r.value.isDead
    ensures r.None? ==> FindEnemy(es, p.targetId).None? || FindEnemy(es, p.targetId).value.isDead
  {
    var t := FindEnemy(es, p.targetId);
    if t.Some? && !t.value.isDead then t else None
  }

  /** Where the projectile flies this tick: at its live target, or on to the point it last aimed at. */
  function Aim(p: Projectile, es: seq<Enemy>): Vec3
  {
    match LiveTargetOf(p, es)
    case Some(target) => target.position
    case None => p.targetPosition
  }

  /** The projectile after this tick's flight. */
  function Flown(geo: Geo, p: Projectile, es: seq<Enemy>, delta: real): Projectile
  {
    Homed(geo, p, Aim(p, es), delta)
  }

  /** The projectile lands this tick: close enough to a live target or at the end of its flight. */
  predicate Lands(geo: Geo, p: Projectile, es: seq<Enemy>, delta: real)
  {
    var q := Flown(geo, p, es, delta);
    || q.progress >= 1.0
    || (LiveTargetOf(p, es).Some? && Distance2D(geo, q.position, LiveTargetOf(p, es).value.position) < 0.5)
  }

  /** `onProjectileHit`: splash around the landed projectile, or its damage to its target alone. */
  function Impact(geo: Geo, s: Store, q: Projectile, es: seq<Enemy>): (r: Store)
    ensures r == s.(enemies := r.enemies) && |r.enemies| == |s.enemies|
    ensures forall i :: 0 <= i < |s.enemies| ==> r.enemies[i] == s.enemies[i].(health := r.enemies[i].health)
    ensures Truthy(q.splashRadius) ==> r == Splash(geo, s, q, es)
    ensures !Truthy(q.splashRadius) ==> r == DamageEnemy(s, q.targetId, q.damage)
  {
    if Truthy(q.splashRadius) then Splash(geo, s, q, es) else DamageEnemy(s, q.targetId, q.damage)
  }

  /**
   * `updateProjectile` for one snapshot projectile `p`, against the snapshot
   * enemies `es`. Its id leaves the list, and comes back at the end, moved,
   * exactly when it does not land; enemies are untouched while it flies, a
   * landed single-target projectile damages its live target by its damage,
   * and a single-target one whose target is gone deals nothing. A splash
   * projectile that lands on its live target bursts where it arrived
   * (`SplashHitBurstsWhereItLands`); one whose target is gone bursts where
   * it was at the start of the tick, not where it arrived.
   */
  function Step(geo: Geo, s: Store, p: Projectile, es: seq<Enemy>, delta: real): (r: Store)
    ensures r == s.(enemies := r.enemies, projectiles := r.projectiles) && |r.enemies| == |s.enemies|
    ensures Lands(geo, p, es, delta) ==> r.projectiles == RemoveProjectile(s, p.id).projectiles
    ensures !Lands(geo, p, es, delta) ==> r.projectiles == RemoveProjectile(s, p.id).projectiles + [Flown(geo, p, es, delta)]
    ensures !Lands(geo, p, es, delta) ==> r.enemies == s.enemies && Flown(geo, p, es, delta).progress < 1.0
    ensures Lands(geo, p, es, delta) && !Truthy(p.splashRadius) && LiveTargetOf(p, es).Some? ==>
      r.enemies == DamageEnemy(s, p.targetId, p.damage).enemies
    ensures LiveTargetOf(p, es).None? && !Truthy(p.splashRadius) ==> r.enemies == s.enemies
    ensures Lands(geo, p, es, delta) && Truthy(p.splashRadius) && LiveTargetOf(p, es).None? ==>
      r.enemies == Splash(geo, s, p, es).enemies
  {
    match LiveTargetOf(p, es)
    case Some(target) =>
      var q := Homed(geo, p, target.position, delta);
      var rest := RemoveProjectile(s, p.id);
      if Distance2D(geo, q.position, target.position) < 0.5 || q.progress >= 1.0 then Impact(geo, rest, q, es)
      else AddProjectile(rest, q)
    case None =>
      var q := Homed(geo, p, p.targetPosition, delta);
      if q.progress >= 1.0 then
        RemoveProjectile(if Truthy(p.splashRadius) then Splash(geo, s, p, es) else s, p.id)
      else AddProjectile(RemoveProjectile(s, p.id), q)
  }

  /**
   * The ordinary splash hit: a splash projectile that lands on its live
   * target bursts around the point it reached this tick, on the store
   * without the projectile.
   */
  lemma SplashHitBurstsWhereItLands(geo: Geo, s: Store, p: Projectile, es: seq<Enemy>, delta: real)
    requires Lands(geo, p, es, delta) && Truthy(p.splashRadius) && LiveTargetOf(p, es).Some?
    ensures Step(geo, s, p, es, delta).enemies == Splash(geo, RemoveProjectile(s, p.id), Flown(geo, p, es, delta), es).enemies
  {
  }

  /**
   * With unique ids, a splash over the store's own enemies hits every live
   * enemy within the radius of the projectile exactly once, by the falloff
   * damage for its distance.
   */
  lemma SplashHitsEachOnce(geo: Geo, s: Store, p: Projectile)
    requires UniqueEnemyIds(s.enemies) && Truthy(p.splashRadius)
    ensures var radius := p.splashRadius.value;
      Splash(geo, s, p, s.enemies).enemies
        == Blasted(geo, s.enemies, p.position, radius, (dist: real) => Falloff(dist, radius, p.damage))
  {
    var radius := p.splashRadius.value;
    BurstHitsEachOnce(geo, s, p.position, radius, (dist: real) => Falloff(dist, radius, p.damage));
  }

  /** `update`: step every projectile of the snapshot in order, against the snapshot enemies. */
  function StepAll(geo: Geo, s: Store, ps: seq<Projectile>, es: seq<Enemy>, delta: real): (r: Store)
    ensures r == s.(enemies := r.enemies, projectiles := r.projectiles) && |r.enemies| == |s.enemies|
    decreases |ps|
  {
    if ps == [] then s else StepAll(geo, Step(geo, s, ps[0], es, delta), ps[1..], es, delta)
  }

  function Update(geo: Geo, s: Store, delta: real): (r: Store)
    ensures r == s.(enemies := r.enemies, projectiles := r.projectiles) && |r.enemies| == |s.enemies|
  {
    StepAll(geo, s, s.projectiles, s.enemies, delta)
  }

  /** A projectile part-way through a well-formed flight. */
  predicate InFlight(q: Projectile)
  {
    0.0 <= q.progress < 1.0 && q.speed >= 0.0
  }

  predicate Launchable(q: Projectile)
  {
    0.0 <= q.progress <= 1.0 && q.speed >= 0.0
  }

  /** The ids of a list of projectiles, in order. */
  function Ids(ps: seq<Projectile>): (r: seq<Id>)
    ensures |r| == |ps| && forall i :: 0 <= i < |ps| ==> r[i] == ps[i].id
  {
    if ps == [] then [] else [ps[0].id] + Ids(ps[1..])
  }

  /** Every entry is in flight or will still be stepped, as one of the projectiles `rest`. */
  ghost predicate Pending(qs: seq<Projectile>, rest: seq<Projectile>)
  {
    forall i :: 0 <= i < |qs| ==> InFlight(qs[i]) || qs[i].id in Ids(rest)
  }

  /** Removing the id of the projectile just stepped leaves only entries pending on the rest. */
  lemma RemovalKeepsPending(s: Store, ps: seq<Projectile>)
    requires ps != [] && Pending(s.projectiles, ps)
    ensures Pending(RemoveProjectile(s, ps[0].id).projectiles, ps[1..])
  {
    var kept := RemoveProjectile(s, ps[0].id).projectiles;
    assert Ids(ps) == [ps[0].id] + Ids(ps[1..]);
    forall i | 0 <= i < |kept|
      ensures InFlight(kept[i]) || kept[i].id in Ids(ps[1..])
    {
      assert kept[i] in s.projectiles && kept[i].id != ps[0].id;
    }
  }

  /**
   * Folding from the remaining snapshot `ps`: if every entry of the store is
   * in flight or still pending, every entry afterwards is in flight; and ids
   * only ever come from `ids`.
   */
  lemma {:induction false} StepAllSettles(geo: Geo, s: Store, ps: seq<Projectile>, es: seq<Enemy>, delta: real, ids: seq<Id>)
    requires delta >= 0.0
    requires forall j :: 0 <= j < |ps| ==> Launchable(ps[j]) && ps[j].id in ids
    requires forall i :: 0 <= i < |s.projectiles| ==> s.projectiles[i].id in ids
    requires Pending(s.projectiles, ps)
    ensures forall i :: 0 <= i < |StepAll(geo, s, ps, es, delta).projectiles| ==>
      var q := StepAll(geo, s, ps, es, delta).projectiles[i];
      InFlight(q) && q.id in ids
    decreases |ps|
  {
    if ps != [] {
      var p := ps[0];
      HomedMovesForward(geo, p, Aim(p, es), delta);
      RemovalKeepsPending(s, ps);
      StepAllSettles(geo, Step(geo, s, p, es, delta), ps[1..], es, delta, ids);
    }
  }

  /**
   * With a non-negative time step and every projectile launched with a
   * non-negative speed and progress in [0, 1], after one update every
   * remaining projectile is part-way through its flight: one that reaches
   * the end of its flight is gone in the same tick. No projectile appears
   * with a new id, and only enemies and projectiles change.
   */
  lemma UpdateLeavesOnlyFlights(geo: Geo, s: Store, delta: real)
    requires delta >= 0.0
    requires forall i :: 0 <= i < |s.projectiles| ==> Launchable(s.projectiles[i])
    ensures forall i :: 0 <= i < |Update(geo, s, delta).projectiles| ==>
      InFlight(Update(geo, s, delta).projectiles[i]) && Update(geo, s, delta).projectiles[i].id in Ids(s.projectiles)
  {
    StepAllSettles(geo, s, s.projectiles, s.enemies, delta, Ids(s.projectiles));
  }
}

=== FILE: store.dfy ===
/**
 * The game store (src/stores/gameStore.ts): one immutable record holding the
 * whole game state, and its actions as pure functions from store to store.
 * Plain setters (`setGameState`, `setPath`, `setCurrentWave`, ...) are Dafny
 * record updates `s.(field := v)` and have no function of their own.
 */
module Store {
  import opened Wrappers
  import opened Geometry
  import opened Model
  import opened Lists

  datatype Store = Store(
    gameState: GameState,
    currency: int,
    lives: int,
    maxLives: int,
    score: int,
    enemies: seq<Enemy>,
    towers: seq<Tower>,
    projectiles: seq<Projectile>,
    hero: Option<Hero>,
    towerSpots: seq<TowerSpot>,
    path: seq<Vec3>,
    currentWave: int,
    totalWaves: int,
    waveInProgress: bool,
    enemiesRemainingInWave: int,
    selectedTowerType: Option<TowerType>,
    selectedTowerId: Option<Id>,
    hoveredSpotId: Option<string>)

  /** The state a game starts in, and the state `resetGame` returns to. */
  function Initial(): (s: Store)
    ensures s.gameState == Playing && s.currency == 200 && s.lives == 20 && s.maxLives == 20 && s.score == 0
    ensures s.enemies == [] && s.towers == [] && s.projectiles == [] && s.hero == None
    ensures s.towerSpots == [] && s.path == []
    ensures s.currentWave == 0 && s.totalWaves == 5 && !s.waveInProgress && s.enemiesRemainingInWave == 0
    ensures s.selectedTowerType == None && s.selectedTowerId == None && s.hoveredSpotId == None
  {
    Store(Playing, 200, 20, 20, 0, [], [], [], None, [], [], 0, 5, false, 0, None, None, None)
  }

  /** `resetGame`: everything back to the initial state, whatever came before. */
  function ResetGame(s: Store): (r: Store)
    ensures r == Initial() && Invariant(r)
  {
    Initial()
  }

  // ----- Economy -----

  function AddCurrency(s: Store, amount: int): (r: Store)
    ensures r.currency == s.currency + amount
    ensures r == s.(currency := r.currency)
  {
    s.(currency := s.currency + amount)
  }

  datatype Spent = Spent(ok: bool, store: Store)

  /** Pay `amount` if the purse holds at least that much; otherwise nothing changes. */
  function SpendCurrency(s: Store, amount: int): (r: Spent)
    ensures r.ok <==> s.currency >= amount
    ensures r.ok ==> r.store == s.(currency := s.currency - amount) && r.store.currency >= 0
    ensures !r.ok ==> r.store == s
  {
    if s.currency >= amount then Spent(true, s.(currency := s.currency - amount))
    else Spent(false, s)
  }

  /** Spending what was just added always succeeds and restores the purse. */
  lemma SpendUndoesAdd(s: Store, amount: int)
    requires s.currency >= 0
    ensures SpendCurrency(AddCurrency(s, amount), amount) == Spent(true, s)
  {
  }

  /** Attempt each purchase in turn; a refused one leaves the purse as it was. */
  function SpendAll(s: Store, amounts: seq<int>): Store
    decreases |amounts|
  {
    if amounts == [] then s else SpendAll(SpendCurrency(s, amounts[0]).store, amounts[1..])
  }

  /**
   * A non-negative purse stays non-negative through any sequence of
   * purchases, only the purse changes, and with no negative prices it never
   * grows.
   */
  lemma {:induction false} SpendKeepsPurseNonNegative(s: Store, amounts: seq<int>)
    ensures SpendAll(s, amounts) == s.(currency := SpendAll(s, amounts).currency)
    ensures s.currency >= 0 ==> SpendAll(s, amounts).currency >= 0
    ensures (forall i :: 0 <= i < |amounts| ==> amounts[i] >= 0) ==> SpendAll(s, amounts).currency <= s.currency
    decreases |amounts|
  {
    if amounts != [] {
      SpendKeepsPurseNonNegative(SpendCurrency(s, amounts[0]).store, amounts[1..]);
    }
  }

  function AddScore(s: Store, points: int): (r: Store)
    ensures r.score == s.score + points
    ensures r == s.(score := r.score)
  {
    s.(score := s.score + points)
  }

  /**
   * Lose `amount` lives, never going below zero; reaching zero while playing
   * loses the game.
   */
  function LoseLives(s: Store, amount: int): (r: Store)
    ensures r.lives == IntMax(0, s.lives - amount) && r.lives >= 0
    ensures r.gameState == (if r.lives == 0 && s.gameState == Playing then Lost else s.gameState)
    ensures r == s.(lives := r.lives, gameState := r.gameState)
  {
    var newLives := if 0 >= s.lives - amount then 0 else s.lives - amount;
    var t := s.(lives := newLives);
    if newLives <= 0 && s.gameState == Playing then t.(gameState := Lost) else t
  }

  function IntMax(a: int, b: int): int { if a >= b then a else b }

  /** Losing lives keeps them within [0, maxLives] and the game is lost exactly when they run out while playing. */
  lemma LoseLivesBounds(s: Store, amount: int)
    requires 0 <= s.lives <= s.maxLives && amount >= 0
    ensures 0 <= LoseLives(s, amount).lives <= s.lives
    ensures s.gameState == Playing ==> (LoseLives(s, amount).gameState == Lost <==> amount >= s.lives)
  {
  }

  // ----- Entity collections -----

  /** Distinct entities carry distinct ids. */
  ghost predicate UniqueEnemyIds(es: seq<Enemy>)
  {
    forall i, j :: 0 <= i < j < |es| ==> es[i].id != es[j].id
  }

  ghost predicate UniqueTowerIds(ts: seq<Tower>)
  {
    forall i, j :: 0 <= i < j < |ts| ==> ts[i].id != ts[j].id
  }

  ghost predicate UniqueProjectileIds(ps: seq<Projectile>)
  {
    forall i, j :: 0 <= i < j < |ps| ==> ps[i].id != ps[j].id
  }

  /** The bookkeeping every reachable store satisfies. */
  ghost predicate Invariant(s: Store)
  {
    && 0 <= s.lives <= s.maxLives
    && s.enemiesRemainingInWave >= 0
    && UniqueEnemyIds(s.enemies) && UniqueTowerIds(s.towers) && UniqueProjectileIds(s.projectiles)
  }

  /** `enemies.find(e => e.id === id)`. */
  function FindEnemy(es: seq<Enemy>, id: Id): (r: Option<Enemy>)
    ensures r.Some? ==> r.value in es && r.value.id == id
    ensures r.None? <==> forall i :: 0 <= i < |es| ==> es[i].id != id
  {
    match FindFirst(es, (e: Enemy) => e.id == id)
    case None => None
    case Some(i) => Some(es[i])
  }

  /** With unique ids, looking an enemy's id up finds that very enemy. */
  lemma FindUniqueEnemy(es: seq<Enemy>, k: nat)
    requires UniqueEnemyIds(es) && k < |es|
    ensures FindEnemy(es, es[k].id) == Some(es[k])
  {
    var hit := (e: Enemy) => e.id == es[k].id;
    assert hit(es[k]);
    var i := FindFirst(es, hit).value;
    assert !(i > k);
    assert !(i < k);
  }

  function FindTower(ts: seq<Tower>, id: Id): (r: Option<Tower>)
    ensures r.Some? ==> r.value in ts && r.value.id == id
    ensures r.None? <==> forall i :: 0 <= i < |ts| ==> ts[i].id != id
  {
    match FindFirst(ts, (t: Tower) => t.id == id)
    case None => None
    case Some(i) => Some(ts[i])
  }

  function AddEnemy(s: Store, e: Enemy): (r: Store)
    ensures r.enemies == s.enemies + [e]
    ensures r == s.(enemies := r.enemies)
  {
    s.(enemies := s.enemies + [e])
  }

  /** Apply `update` to every enemy with this id; the others are untouched. */
  function UpdateEnemy(s: Store, id: Id, update: Enemy -> Enemy): (r: Store)
    ensures |r.enemies| == |s.enemies|
    ensures forall i :: 0 <= i < |s.enemies| ==>
      r.enemies[i] == (if s.enemies[i].id == id then update(s.enemies[i]) else s.enemies[i])
    ensures r == s.(enemies := r.enemies)
  {
    s.(enemies := MapWhere(s.enemies, (e: Enemy) => e.id == id, update))
  }

  /** Drop every enemy with this id, keeping the others in order. */
  function RemoveEnemy(s: Store, id: Id): (r: Store)
    ensures forall i :: 0 <= i < |r.enemies| ==> r.enemies[i].id != id && r.enemies[i] in s.enemies
    ensures forall i :: 0 <= i < |s.enemies| && s.enemies[i].id != id ==> s.enemies[i] in r.enemies
    ensures Subsequence(r.enemies, s.enemies)
    ensures r == s.(enemies := r.enemies)
  {
    s.(enemies := Filter(s.enemies, (e: Enemy) => e.id != id))
  }

  /** Adding a fresh enemy and removing it again gives back the same store. */
  lemma RemoveUndoesAddEnemy(s: Store, e: Enemy)
    requires forall i :: 0 <= i < |s.enemies| ==> s.enemies[i].id != e.id
    ensures RemoveEnemy(AddEnemy(s, e), e.id) == s
  {
    var keep := (x: Enemy) => x.id != e.id;
    FilterAppend(s.enemies, [e], keep);
    FilterKeepsAll(s.enemies, keep);
    assert Filter([e], keep) == [];
  }

  /** Removing an id that no enemy carries changes nothing. */
  lemma RemoveMissingEnemy(s: Store, id: Id)
    requires forall i :: 0 <= i < |s.enemies| ==> s.enemies[i].id != id
    ensures RemoveEnemy(s, id) == s
  {
    FilterKeepsAll(s.enemies, (x: Enemy) => x.id != id);
  }

  function AddTower(s: Store, t: Tower): (r: Store)
    ensures r.towers == s.towers + [t]
    ensures r == s.(towers := r.towers)
  {
    s.(towers := s.towers + [t])
  }

  function UpdateTower(s: Store, id: Id, update: Tower -> Tower): (r: Store)
    ensures |r.towers| == |s.towers|
    ensures forall i :: 0 <= i < |s.towers| ==>
      r.towers[i] == (if s.towers[i].id == id then update(s.towers[i]) else s.towers[i])
    ensures r == s.(towers := r.towers)
  {
    s.(towers := MapWhere(s.towers, (t: Tower) => t.id == id, update))
  }

  function RemoveTower(s: Store, id: Id): (r: Store)
    ensures forall i :: 0 <= i < |r.towers| ==> r.towers[i].id != id && r.towers[i] in s.towers
    ensures forall i :: 0 <= i < |s.towers| && s.towers[i].id != id ==> s.towers[i] in r.towers
    ensures Subsequence(r.towers, s.towers)
    ensures r == s.(towers := r.towers)
  {
    s.(towers := Filter(s.towers, (t: Tower) => t.id != id))
  }

  function AddProjectile(s: Store, p: Projectile): (r: Store)
    ensures r.projectiles == s.projectiles + [p]
    ensures r == s.(projectiles := r.projectiles)
  {
    s.(projectiles := s.projectiles + [p])
  }

  function RemoveProjectile(s: Store, id: Id): (r: Store)
    ensures forall i :: 0 <= i < |r.projectiles| ==> r.projectiles[i].id != id && r.projectiles[i] in s.projectiles
    ensures forall i :: 0 <= i < |s.projectiles| && s.projectiles[i].id != id ==> s.projectiles[i] in r.projectiles
    ensures Subsequence(r.projectiles, s.projectiles)
    ensures r == s.(projectiles := r.projectiles)
  {
    s.(projectiles := Filter(s.projectiles, (p: Projectile) => p.id != id))
  }

  /** Merge an update into the hero if there is one; with no hero there is still none. */
  function UpdateHero(s: Store, update: Hero -> Hero): (r: Store)
    ensures r.hero.Some? <==> s.hero.Some?
    ensures s.hero.Some? ==> r.hero.value == update(s.hero.value)
    ensures r == s.(hero := r.hero)
  {
    s.(hero := if s.hero.Some? then Some(update(s.hero.value)) else None)
  }

  /** Mark every spot with this id occupied (or free); other spots are untouched. */
  function SetSpotOccupied(s: Store, spotId: string, occupied: bool): (r: Store)
    ensures |r.towerSpots| == |s.towerSpots|
    ensures forall i :: 0 <= i < |s.towerSpots| ==>
      r.towerSpots[i] == (if s.towerSpots[i].id == spotId then s.towerSpots[i].(occupied := occupied) else s.towerSpots[i])
    ensures r == s.(towerSpots := r.towerSpots)
  {
    s.(towerSpots := MapWhere(s.towerSpots, (p: TowerSpot) => p.id == spotId, (p: TowerSpot) => p.(occupied := occupied)))
  }

  function OccupyTowerSpot(s: Store, spotId: string): (r: Store)
    ensures forall i :: 0 <= i < |r.towerSpots| && r.towerSpots[i].id == spotId ==> r.towerSpots[i].occupied
    ensures r == SetSpotOccupied(s, spotId, true)
  {
    SetSpotOccupied(s, spotId, true)
  }

  function FreeTowerSpot(s: Store, spotId: string): (r: Store)
    ensures forall i :: 0 <= i < |r.towerSpots| && r.towerSpots[i].id == spotId ==> !r.towerSpots[i].occupied
    ensures r == SetSpotOccupied(s, spotId, false)
  {
    SetSpotOccupied(s, spotId, false)
  }

  /** Freeing an occupied spot restores the spot list it had before being occupied. */
  lemma FreeUndoesOccupy(s: Store, spotId: string)
    requires forall i :: 0 <= i < |s.towerSpots| && s.towerSpots[i].id == spotId ==> !s.towerSpots[i].occupied
    ensures FreeTowerSpot(OccupyTowerSpot(s, spotId), spotId) == s
  {
    var r := FreeTowerSpot(OccupyTowerSpot(s, spotId), spotId);
    assert r.towerSpots == s.towerSpots;
  }

  /** One fewer enemy left in the wave, never below zero. */
  function DecrementEnemiesRemaining(s: Store): (r: Store)
    ensures r.enemiesRemainingInWave == IntMax(0, s.enemiesRemainingInWave - 1)
    ensures r == s.(enemiesRemainingInWave := r.enemiesRemainingInWave)
  {
    s.(enemiesRemainingInWave := if s.enemiesRemainingInWave - 1 <= 0 then 0 else s.enemiesRemainingInWave - 1)
  }

  function DecrementTimes(s: Store, k: nat): Store
    decreases k
  {
    if k == 0 then s else DecrementTimes(DecrementEnemiesRemaining(s), k - 1)
  }

  /** `k` decrements leave max(0, remaining - k), touching nothing else. */
  lemma {:induction false} DecrementTimesCount(s: Store, k: nat)
    requires s.enemiesRemainingInWave >= 0
    ensures DecrementTimes(s, k).enemiesRemainingInWave == IntMax(0, s.enemiesRemainingInWave - k)
    ensures DecrementTimes(s, k) == s.(enemiesRemainingInWave := DecrementTimes(s, k).enemiesRemainingInWave)
    decreases k
  {
    if k > 0 {
      DecrementTimesCount(DecrementEnemiesRemaining(s), k - 1);
    }
  }
}

=== FILE: tower_attack.dfy ===
/**
 * Firing (src/systems/TowerAttackSystem.ts). The system keeps its own clock,
 * advanced by every update. A tower of the snapshot fires when it has a
 * target that is still present and alive and at least `1 / fireRate` seconds
 * have passed since it last fired; a shot launches a projectile one unit
 * above the tower, aimed at where the target stands, and the tower records
 * the time and turns to face the target. The random projectile id is
 * replaced by a counter.
 */
module TowerAttack {
  import opened Wrappers
  import opened Geometry
  import opened Model
  import opened Store
  import opened Entities

  /** The tower's target, when it names an enemy that is present and not dead. */
  function LiveTarget(t: Tower, es: seq<Enemy>): (r: Option<Enemy>)
    ensures r.Some? ==> t.targetId == Some(r.value.id) && r.value in es && !r.value.isDead
    ensures t.targetId.None? ==> r.None?
  {
    if t.targetId.None? then None
    else
      match FindEnemy(es, t.targetId.value)
      case None => None
      case Some(e) => if e.isDead then None else Some(e)
  }

  /** The tower fires at time `clock`. */
  predicate Fires(t: Tower, es: seq<Enemy>, clock: real)
  {
    LiveTarget(t, es).Some? && CooledDown(clock - t.lastFireTime, t.fireRate)
  }

  /** The projectile a tower launches at an enemy. */
  function Shot(t: Tower, e: Enemy, id: Id): (p: Projectile)
    ensures p.startPosition == p.position == t.position.(y := t.position.y + 1.0)
    ensures p.targetPosition == e.position && p.progress == 0.0
    ensures p.sourceId == t.id && p.targetId == e.id && p.id == id
    ensures p.damage == t.damage && p.speed == t.projectileSpeed && p.splashRadius == t.splashRadius
  {
    CreateProjectile(id, t.id, e.id, t.position.(y := t.position.y + 1.0), e.position,
                     t.damage, t.projectileSpeed, t.splashRadius)
  }

  /** `tryFireTower` once the cooldown has passed: add the projectile, then stamp and turn the tower. */
  function Fire(geo: Geo, s: Store, t: Tower, e: Enemy, clock: real, id: Id): Store
  {
    var launched := AddProjectile(s, Shot(t, e, id));
    UpdateTower(launched, t.id,
                (x: Tower) => x.(lastFireTime := clock, rotation := AngleToTarget(geo, t.position, e.position)))
  }

  /** Fold over the tower snapshot; the counter supplies the next projectile id. */
  function AttackAll(geo: Geo, s: Store, ts: seq<Tower>, es: seq<Enemy>, clock: real, id: Id): (r: (Store, Id))
    ensures |r.0.towers| == |s.towers| && r.1 >= id
    ensures r.0 == s.(towers := r.0.towers, projectiles := r.0.projectiles)
    decreases |ts|
  {
    if ts == [] then (s, id)
    else
      var t := ts[0];
      if Fires(t, es, clock) then AttackAll(geo, Fire(geo, s, t, LiveTarget(t, es).value, clock, id), ts[1..], es, clock, id + 1)
      else AttackAll(geo, s, ts[1..], es, clock, id)
  }

  /** `update`: advance the clock by `delta`, then let every ready tower fire. */
  function Update(geo: Geo, s: Store, gameTime: real, delta: real, nextId: Id): (r: (Store, real, Id))
    ensures r.1 == gameTime + delta && r.2 >= nextId
    ensures |r.0.towers| == |s.towers|
    ensures r.0 == s.(towers := r.0.towers, projectiles := r.0.projectiles)
  {
    var clock := gameTime + delta;
    var (fired, id) := AttackAll(geo, s, s.towers, s.enemies, clock, nextId);
    (fired, clock, id)
  }

  /** A tower as it stands after the update: stamped and turned if it fired, as it was otherwise. */
  function AfterVolley(geo: Geo, t: Tower, es: seq<Enemy>, clock: real): (r: Tower)
    ensures Fires(t, es, clock) ==> r.lastFireTime == clock
    ensures r == t.(lastFireTime := r.lastFireTime, rotation := r.rotation)
    ensures !Fires(t, es, clock) ==> r == t
  {
    if Fires(t, es, clock) then
      t.(lastFireTime := clock, rotation := AngleToTarget(geo, t.position, LiveTarget(t, es).value.position))
    else t
  }

  /**
   * The projectiles the towers `ts` launch: one per firing tower, in tower
   * order, numbered consecutively from `id`.
   */
  function Volley(ts: seq<Tower>, es: seq<Enemy>, clock: real, id: Id): (r: seq<Projectile>)
    ensures forall i :: 0 <= i < |r| ==> r[i].id == id + i
    decreases |ts|
  {
    if ts == [] then []
    else
      var t := ts[0];
      var rest := Volley(ts[1..], es, clock, if Fires(t, es, clock) then id + 1 else id);
      if Fires(t, es, clock) then [Shot(t, LiveTarget(t, es).value, id)] + rest else rest
  }

  /** Which tower launched the `i`-th projectile of the volley: a firing one, with the shot it fires. */
  function Launcher(ts: seq<Tower>, es: seq<Enemy>, clock: real, id: Id, i: nat): (j: nat)
    requires i < |Volley(ts, es, clock, id)|
    ensures j < |ts| && Fires(ts[j], es, clock)
    ensures Volley(ts, es, clock, id)[i] == Shot(ts[j], LiveTarget(ts[j], es).value, id + i)
    decreases |ts|
  {
    VolleyHead(ts, es, clock, id);
    var t, tail := ts[0], ts[1..];
    if !Fires(t, es, clock) then
      var j := Launcher(tail, es, clock, id, i);
      assert tail[j] == ts[j + 1];
      j + 1
    else if i == 0 then 0
    else
      var j := Launcher(tail, es, clock, id + 1, i - 1);
      ConsIndex(Shot(t, LiveTarget(t, es).value, id), Volley(tail, es, clock, id + 1), i);
      assert tail[j] == ts[j + 1];
      j + 1
  }

  /** The volley of a non-empty snapshot: the first tower's shot, if it fires, then the rest's. */
  lemma VolleyHead(ts: seq<Tower>, es: seq<Enemy>, clock: real, id: Id)
    requires |ts| > 0 || |Volley(ts, es, clock, id)| > 0
    ensures |ts| > 0
    ensures Fires(ts[0], es, clock) ==>
      Volley(ts, es, clock, id) == [Shot(ts[0], LiveTarget(ts[0], es).value, id)] + Volley(ts[1..], es, clock, id + 1)
    ensures !Fires(ts[0], es, clock) ==> Volley(ts, es, clock, id) == Volley(ts[1..], es, clock, id)
  {
  }

  lemma ConsIndex(x: Projectile, r: seq<Projectile>, i: nat)
    requires 0 < i <= |r|
    ensures ([x] + r)[i] == r[i - 1]
  {
  }

  /** With unique ids, the tower at index `n` firing (or not) changes only itself and the projectile list. */
  lemma AttackStep(geo: Geo, s: Store, n: nat, es: seq<Enemy>, clock: real, id: Id)
    requires UniqueTowerIds(s.towers) && n < |s.towers|
    requires Fires(s.towers[n], es, clock)
    ensures Fire(geo, s, s.towers[n], LiveTarget(s.towers[n], es).value, clock, id)
         == s.(towers := s.towers[n := AfterVolley(geo, s.towers[n], es, clock)],
               projectiles := s.projectiles + [Shot(s.towers[n], LiveTarget(s.towers[n], es).value, id)])
  {
    var t := s.towers[n];
    var r := Fire(geo, s, t, LiveTarget(t, es).value, clock, id);
    var want := s.towers[n := AfterVolley(geo, t, es, clock)];
    forall i | 0 <= i < |s.towers|
      ensures r.towers[i] == want[i]
    {
      if i != n {
        assert s.towers[i].id != t.id;
      }
    }
    assert r.towers == want;
  }

  /** Every tower of `ts` as it stands after the update. */
  function AfterVolleyAll(geo: Geo, ts: seq<Tower>, es: seq<Enemy>, clock: real): (r: seq<Tower>)
    ensures |r| == |ts|
    ensures forall i :: 0 <= i < |ts| ==> r[i] == AfterVolley(geo, ts[i], es, clock)
  {
    seq(|ts|, i requires 0 <= i < |ts| => AfterVolley(geo, ts[i], es, clock))
  }

  /** `r` is the whole volley of `orig[n..]` applied to `s`: every tower done, the shots appended. */
  ghost predicate VolleyDone(r: (Store, Id), s: Store, towers: seq<Tower>, v: seq<Projectile>, id: Id)
  {
    r == (s.(towers := towers, projectiles := s.projectiles + v), id + |v|)
  }

  /** Folding from index `n`, with the towers before `n` already done, finishes the volley. */
  lemma {:induction false} AttackAllFrom(geo: Geo, s: Store, orig: seq<Tower>, es: seq<Enemy>, clock: real, n: nat, id: Id)
    requires UniqueTowerIds(orig) && n <= |orig| == |s.towers|
    requires forall i :: 0 <= i < n ==> s.towers[i] == AfterVolley(geo, orig[i], es, clock)
    requires forall i :: n <= i < |orig| ==> s.towers[i] == orig[i]
    ensures VolleyDone(AttackAll(geo, s, orig[n..], es, clock, id), s, AfterVolleyAll(geo, orig, es, clock),
                       Volley(orig[n..], es, clock, id), id)
    decreases |orig| - n
  {
    if n == |orig| {
      assert s.towers == AfterVolleyAll(geo, orig, es, clock);
      assert s.projectiles + [] == s.projectiles;
    } else {
      var t := orig[n];
      assert orig[n..][0] == t && orig[n..][1..] == orig[n + 1..];
      assert UniqueTowerIds(s.towers) by {
        forall i, j | 0 <= i < j < |s.towers|
          ensures s.towers[i].id != s.towers[j].id
        {
          assert s.towers[i].id == orig[i].id && s.towers[j].id == orig[j].id;
        }
      }
      if Fires(t, es, clock) {
        var shot := Shot(t, LiveTarget(t, es).value, id);
        var next := Fire(geo, s, t, LiveTarget(t, es).value, clock, id);
        assert AttackAll(geo, s, orig[n..], es, clock, id) == AttackAll(geo, next, orig[n + 1..], es, clock, id + 1);
        assert Volley(orig[n..], es, clock, id) == [shot] + Volley(orig[n + 1..], es, clock, id + 1);
        AttackStep(geo, s, n, es, clock, id);
        AttackAllFrom(geo, next, orig, es, clock, n + 1, id + 1);
        ChainShot(AttackAll(geo, next, orig[n + 1..], es, clock, id + 1), next, s, AfterVolleyAll(geo, orig, es, clock),
                  shot, Volley(orig[n + 1..], es, clock, id + 1), id);
      } else {
        assert AttackAll(geo, s, orig[n..], es, clock, id) == AttackAll(geo, s, orig[n + 1..], es, clock, id);
        assert Volley(orig[n..], es, clock, id) == Volley(orig[n + 1..], es, clock, id);
        AttackAllFrom(geo, s, orig, es, clock, n + 1, id);
      }
    }
  }

  /** A shot followed by the rest of the volley is the whole volley. */
  lemma ChainShot(r: (Store, Id), next: Store, s: Store, towers: seq<Tower>, shot: Projectile, rest: seq<Projectile>, id: Id)
    requires next == s.(towers := next.towers, projectiles := s.projectiles + [shot])
    requires VolleyDone(r, next, towers, rest, id + 1)
    ensures VolleyDone(r, s, towers, [shot] + rest, id)
  {
    assert (s.projectiles + [shot]) + rest == s.projectiles + ([shot] + rest);
  }

  /**
   * With unique tower ids, one update stamps and turns exactly the towers
   * that fire, appends their projectiles after the existing ones, in tower
   * order and with fresh consecutive ids, and changes nothing else.
   */
  lemma UpdateFiresReadyTowers(geo: Geo, s: Store, gameTime: real, delta: real, nextId: Id)
    requires UniqueTowerIds(s.towers)
    ensures var clock := gameTime + delta;
      var v := Volley(s.towers, s.enemies, clock, nextId);
      Update(geo, s, gameTime, delta, nextId)
        == (s.(towers := AfterVolleyAll(geo, s.towers, s.enemies, clock), projectiles := s.projectiles + v),
            clock, nextId + |v|)
  {
    assert s.towers[0..] == s.towers;
    AttackAllFrom(geo, s, s.towers, s.enemies, gameTime + delta, 0, nextId);
  }

  /**
   * Rate limit: a tower with a positive fire rate that fired in one update
   * does not fire again in the next if less than `1 / fireRate` seconds pass.
   */
  lemma NoSecondShotWithinCooldown(geo: Geo, s: Store, gameTime: real, d1: real, d2: real, nextId: Id, i: nat)
    requires UniqueTowerIds(s.towers) && i < |s.towers|
    requires s.towers[i].fireRate > 0.0 && d2 < 1.0 / s.towers[i].fireRate
    requires Fires(s.towers[i], s.enemies, gameTime + d1)
    ensures var first := Update(geo, s, gameTime, d1, nextId);
      var second := Update(geo, first.0, first.1, d2, first.2);
      second.0.towers[i] == first.0.towers[i]
  {
    var first := Update(geo, s, gameTime, d1, nextId);
    UpdateFiresReadyTowers(geo, s, gameTime, d1, nextId);
    var t := first.0.towers[i];
    assert t.lastFireTime == gameTime + d1 && t.fireRate == s.towers[i].fireRate;
    UpdateKeepsTowerIds(geo, s, gameTime, d1, nextId);
    UpdateFiresReadyTowers(geo, first.0, first.1, d2, first.2);
    assert !Fires(t, first.0.enemies, first.1 + d2);
  }

  /** An update keeps every tower's id, so unique ids stay unique. */
  lemma UpdateKeepsTowerIds(geo: Geo, s: Store, gameTime: real, delta: real, nextId: Id)
    requires UniqueTowerIds(s.towers)
    ensures var r := Update(geo, s, gameTime, delta, nextId);
      && (forall k :: 0 <= k < |s.towers| ==> r.0.towers[k].id == s.towers[k].id)
      && UniqueTowerIds(r.0.towers)
  {
    var r := Update(geo, s, gameTime, delta, nextId);
    UpdateFiresReadyTowers(geo, s, gameTime, delta, nextId);
    assert forall k :: 0 <= k < |s.towers| ==> r.0.towers[k].id == s.towers[k].id;
  }

  /** Consecutive updates with the time steps `ds`, the last one last. */
  function UpdateRun(geo: Geo, s: Store, gameTime: real, ds: seq<real>, nextId: Id): (r: (Store, real, Id))
    ensures r.1 == gameTime + Sum(ds) && r.2 >= nextId
    ensures |r.0.towers| == |s.towers|
    decreases |ds|
  {
    if |ds| == 0 then (s, gameTime, nextId)
    else
      var prev := UpdateRun(geo, s, gameTime, ds[..|ds| - 1], nextId);
      Update(geo, prev.0, prev.1, ds[|ds| - 1], prev.2)
  }

  /**
   * A tower with a positive fire rate stays exactly as it is through any run
   * of non-negative time steps that ends before `1 / fireRate` seconds have
   * passed since it last fired.
   */
  lemma {:induction false} QuietWithinCooldown(geo: Geo, s: Store, gameTime: real, ds: seq<real>, nextId: Id, i: nat)
    requires UniqueTowerIds(s.towers) && i < |s.towers| && s.towers[i].fireRate > 0.0
    requires forall k :: 0 <= k < |ds| ==> ds[k] >= 0.0
    requires gameTime + Sum(ds) - s.towers[i].lastFireTime < 1.0 / s.towers[i].fireRate
    ensures var r := UpdateRun(geo, s, gameTime, ds, nextId);
      && r.0.towers[i] == s.towers[i]
      && (forall k :: 0 <= k < |s.towers| ==> r.0.towers[k].id == s.towers[k].id)
      && UniqueTowerIds(r.0.towers)
    decreases |ds|
  {
    if |ds| > 0 {
      var init := ds[..|ds| - 1];
      var prev := UpdateRun(geo, s, gameTime, init, nextId);
      QuietWithinCooldown(geo, s, gameTime, init, nextId, i);
      var clock := prev.1 + ds[|ds| - 1];
      assert !CooledDown(clock - s.towers[i].lastFireTime, s.towers[i].fireRate);
      UpdateFiresReadyTowers(geo, prev.0, prev.1, ds[|ds| - 1], prev.2);
      UpdateKeepsTowerIds(geo, prev.0, prev.1, ds[|ds| - 1], prev.2);
    }
  }

  /**
   * Rate limit over a run: a tower with a positive fire rate that fired in
   * one update fires in none of the updates that follow, as long as their
   * non-negative time steps add up to less than `1 / fireRate` seconds.
   */
  lemma NoShotWithinCooldownOverRun(geo: Geo, s: Store, gameTime: real, d1: real, ds: seq<real>, nextId: Id, i: nat)
    requires UniqueTowerIds(s.towers) && i < |s.towers|
    requires s.towers[i].fireRate > 0.0 && Sum(ds) < 1.0 / s.towers[i].fireRate
    requires forall k :: 0 <= k < |ds| ==> ds[k] >= 0.0
    requires Fires(s.towers[i], s.enemies, gameTime + d1)
    ensures var first := Update(geo, s, gameTime, d1, nextId);
      UpdateRun(geo, first.0, first.1, ds, first.2).0.towers[i] == first.0.towers[i]
  {
    var first := Update(geo, s, gameTime, d1, nextId);
    UpdateFiresReadyTowers(geo, s, gameTime, d1, nextId);
    UpdateKeepsTowerIds(geo, s, gameTime, d1, nextId);
    assert first.0.towers[i].lastFireTime == first.1;
    QuietWithinCooldown(geo, first.0, first.1, ds, first.2, i);
  }
}

=== FILE: tower_factory.dfy ===
/**
 * Tower purchase price, upgrade lookup, upgrade application and sell value
 * (src/entities/TowerFactory.ts). The JSON config is a total function from
 * tower type to config, so every type has an entry.
 */
module TowerFactory {
  import opened Wrappers
  import opened Model
  import opened Entities

  type Configs = TowerType -> TowerConfig

  /** Purchase price of a tower type. */
  function GetCost(configs: Configs, kind: TowerType): int
  {
    configs(kind).stats.cost
  }

  /** A freshly bought tower of the given type (`TowerFactory.create`). */
  function Create(configs: Configs, id: Id, kind: TowerType, position: Geometry.Vec3): (t: Tower)
    ensures t.tier == T1 && t.totalInvested == GetCost(configs, kind)
    ensures t == CreateTower(id, kind, position, configs(kind).stats)
  {
    CreateTower(id, kind, position, configs(kind).stats)
  }

  /** The upgrade step that leads to `tier`; tier 1 is never the target of a step. */
  function GetUpgrade(config: TowerConfig, tier: Tier): (u: Option<TowerUpgrade>)
    ensures u.None? <==> tier == T1
  {
    match tier
    case T1 => None
    case T2 => Some(config.upgrades.tier2)
    case T3 => Some(config.upgrades.tier3)
    case T4A => Some(config.upgrades.tier4A)
    case T4B => Some(config.upgrades.tier4B)
  }

  /** Price of the step to `tier`; 0 for tier 1, which no step leads to. */
  function GetUpgradeCost(configs: Configs, kind: TowerType, tier: Tier): (c: int)
    ensures tier == T1 ==> c == 0
    ensures tier != T1 ==> c == GetUpgrade(configs(kind), tier).value.cost
  {
    match GetUpgrade(configs(kind), tier)
    case None => 0
    case Some(u) => u.cost
  }

  /** Name shown for a tower: the base name at tier 1, the upgrade's name above. */
  function GetTowerDisplayName(configs: Configs, t: Tower): (name: string)
    ensures t.tier == T1 ==> name == configs(t.kind).name
    ensures t.tier != T1 ==> name == GetUpgrade(configs(t.kind), t.tier).value.name
  {
    if t.tier == T1 then configs(t.kind).name
    else GetUpgrade(configs(t.kind), t.tier).value.name
  }

  /** The upgrade offers shown for a tower: one per next tier, in tier order. */
  function GetAvailableUpgrades(configs: Configs, t: Tower): (r: seq<TowerUpgrade>)
    ensures |r| == |NextTiers(t.tier)|
    ensures forall i :: 0 <= i < |r| ==> GetUpgrade(configs(t.kind), NextTiers(t.tier)[i]) == Some(r[i])
    ensures TierNumber(t.tier) == 4 ==> r == []
  {
    var u := configs(t.kind).upgrades;
    match t.tier
    case T1 => [u.tier2]
    case T2 => [u.tier3]
    case T3 => [u.tier4A, u.tier4B]
    case T4A => []
    case T4B => []
  }

  /** A present modifier multiplies the current value; an absent one keeps it. */
  function Scaled(modifier: Option<real>, current: real): (r: real)
    ensures r == current * Factor(modifier)
  {
    if modifier.Some? then current * modifier.value else current
  }

  /** Splash is scaled only when both the modifier and the tower's splash exist. */
  function ScaledSplash(modifier: Option<real>, current: Option<real>): Option<real>
  {
    if modifier.Some? && current.Some? then Some(current.value * modifier.value) else current
  }

  /** The factor a modifier contributes: its value, or 1 when absent. */
  function Factor(modifier: Option<real>): real
  {
    modifier.GetOr(1.0)
  }

  /**
   * Upgrade a tower to `target`. Fails (None) exactly when `target` is not one
   * legal step away. On success the tier moves, the price is added to the
   * investment, stats are multiplied by the present modifiers, and nothing
   * else changes.
   */
  function ApplyUpgrade(configs: Configs, t: Tower, target: Tier): (r: Option<Tower>)
    ensures r.None? <==> !CanUpgradeTo(t.tier, target)
    ensures r.Some? ==>
      var u := GetUpgrade(configs(t.kind), target).value;
      var m := u.statModifiers;
      && r.value.tier == target
      && r.value.totalInvested == t.totalInvested + u.cost
      && r.value.damage == Scaled(m.damage, t.damage)
      && r.value.range == Scaled(m.range, t.range)
      && r.value.fireRate == Scaled(m.fireRate, t.fireRate)
      && r.value.splashRadius == ScaledSplash(m.splashRadius, t.splashRadius)
      && r.value.specialEffect ==
           (if u.specialEffect.Some? && u.specialEffect.value != "" then u.specialEffect.value else t.specialEffect)
      && r.value.upgradePath == (if target == T4A || target == T4B then Some(target) else t.upgradePath)
      && SameIdentity(r.value, t)
  {
    if !CanUpgradeTo(t.tier, target) then None
    else
      match GetUpgrade(configs(t.kind), target)
      case None => None
      case Some(u) =>
        var m := u.statModifiers;
        var upgraded := t.(
          tier := target,
          totalInvested := t.totalInvested + u.cost,
          damage := Scaled(m.damage, t.damage),
          range := Scaled(m.range, t.range),
          fireRate := Scaled(m.fireRate, t.fireRate),
          splashRadius := ScaledSplash(m.splashRadius, t.splashRadius),
          specialEffect :=
            if u.specialEffect.Some? && u.specialEffect.value != "" then u.specialEffect.value else t.specialEffect,
          upgradePath := if target == T4A || target == T4B then Some(target) else t.upgradePath);
        Some(upgraded)
  }

  /** Fields an upgrade never touches. */
  predicate SameIdentity(a: Tower, b: Tower)
  {
    && a.id == b.id && a.kind == b.kind && a.position == b.position && a.rotation == b.rotation
    && a.projectileSpeed == b.projectileSpeed && a.lastFireTime == b.lastFireTime && a.targetId == b.targetId
  }

  /** Sixty per cent of everything invested, rounded down. */
  function GetSellValue(t: Tower): (v: int)
    ensures v == (3 * t.totalInvested) / 5
    ensures t.totalInvested >= 0 ==> 0 <= v <= t.totalInvested
  {
    SixtyPercentFloor(t.totalInvested);
    ((t.totalInvested as real) * 0.6).Floor
  }

  lemma SixtyPercentFloor(n: int)
    ensures ((n as real) * 0.6).Floor == (3 * n) / 5
  {
    var q := (3 * n) / 5;
    assert 5 * q <= 3 * n < 5 * q + 5;
    assert (q as real) <= (n as real) * 0.6 < (q as real) + 1.0;
  }

  /**
   * Upgrading along 1 -> 2 -> 3 compounds: each step multiplies the stats
   * reached by the previous one, and the investment grows by both prices.
   */
  lemma {:induction false} UpgradesCompound(configs: Configs, t: Tower)
    requires t.tier == T1
    ensures
      var u := configs(t.kind).upgrades;
      var t2 := ApplyUpgrade(configs, t, T2);
      t2.Some? &&
      var t3 := ApplyUpgrade(configs, t2.value, T3);
      && t3.Some?
      && t3.value.damage == Scaled(u.tier3.statModifiers.damage, Scaled(u.tier2.statModifiers.damage, t.damage))
      && t3.value.range == Scaled(u.tier3.statModifiers.range, Scaled(u.tier2.statModifiers.range, t.range))
      && t3.value.fireRate == Scaled(u.tier3.statModifiers.fireRate, Scaled(u.tier2.statModifiers.fireRate, t.fireRate))
      && t3.value.totalInvested == t.totalInvested + u.tier2.cost + u.tier3.cost
      && t3.value.tier == T3
  {
    var u := configs(t.kind).upgrades;
    var t2 := ApplyUpgrade(configs, t, T2);
    assert t2.Some? by {
      assert CanUpgradeTo(T1, T2);
    }
    assert GetUpgrade(configs(t.kind), T2) == Some(u.tier2);
    var t3 := ApplyUpgrade(configs, t2.value, T3);
    assert t3.Some? by {
      assert CanUpgradeTo(T2, T3);
    }
    assert GetUpgrade(configs(t2.value.kind), T3) == Some(u.tier3);
  }

  /** At tier 3 both tier-4 branches are open, and they are exactly the upgrades offered. */
  lemma TierThreeBranches(configs: Configs, t: Tower)
    requires t.tier == T3
    ensures ApplyUpgrade(configs, t, T4A).Some? && ApplyUpgrade(configs, t, T4B).Some?
    ensures var u := configs(t.kind).upgrades;
      GetAvailableUpgrades(configs, t) == [u.tier4A, u.tier4B]
  {
    assert CanUpgradeTo(T3, T4A) && CanUpgradeTo(T3, T4B);
  }

  /** Tier 4 is final: no target tier is reachable from 4A or 4B. */
  lemma TierFourIsFinal(configs: Configs, t: Tower, target: Tier)
    requires t.tier == T4A || t.tier == T4B
    ensures ApplyUpgrade(configs, t, target).None?
    ensures GetAvailableUpgrades(configs, t) == []
  {
  }
}

=== FILE: tower_targeting.dfy ===
/**
 * Target selection (src/systems/TowerTargetingSystem.ts). Each tower of the
 * snapshot keeps its current target while that enemy is alive, has not
 * reached the end and is within range; otherwise the target is cleared and
 * the eligible enemy furthest along the path is chosen, the first one on a
 * tie. Only `targetId` is ever written.
 */
module TowerTargeting {
  import opened Wrappers
  import opened Geometry
  import opened Model
  import opened Store
  import opened EnemyMovement

  /** Alive, still on the path, and within the tower's planar range. */
  predicate Eligible(geo: Geo, t: Tower, e: Enemy)
  {
    !e.isDead && !e.reachedEnd && Distance2D(geo, t.position, e.position) <= t.range
  }

  /** The tower's current target is found and still eligible. */
  predicate Keeps(geo: Geo, t: Tower, es: seq<Enemy>)
  {
    t.targetId.Some? &&
    var found := FindEnemy(es, t.targetId.value);
    found.Some? && Eligible(geo, t, found.value)
  }

  /**
   * `r` is the index of the first eligible enemy whose overall progress is
   * maximal among the eligible ones and above -1 (the scan's starting bar),
   * or `None` when no eligible enemy clears that bar.
   */
  ghost predicate IsBest(geo: Geo, t: Tower, es: seq<Enemy>, r: Option<nat>)
  {
    && (r.Some? ==>
          && r.value < |es| && Eligible(geo, t, es[r.value]) && Along(es[r.value]) > -1.0
          && (forall j :: 0 <= j < |es| && Eligible(geo, t, es[j]) ==> Along(es[j]) <= Along(es[r.value]))
          && (forall j :: 0 <= j < r.value && Eligible(geo, t, es[j]) ==> Along(es[j]) < Along(es[r.value])))
    && (r.None? ==> forall j :: 0 <= j < |es| && Eligible(geo, t, es[j]) ==> Along(es[j]) <= -1.0)
  }

  /** What the scan knows after looking at `es[..i]`. */
  ghost predicate ScanSoFar(geo: Geo, t: Tower, es: seq<Enemy>, i: nat, best: Option<nat>, bar: real)
  {
    && i <= |es| && bar >= -1.0
    && (best.None? ==> bar == -1.0)
    && (best.Some? ==>
          && best.value < i && Eligible(geo, t, es[best.value]) && Along(es[best.value]) == bar && bar > -1.0
          && (forall j :: 0 <= j < best.value && Eligible(geo, t, es[j]) ==> Along(es[j]) < bar))
    && (forall j :: 0 <= j < i && Eligible(geo, t, es[j]) ==> Along(es[j]) <= bar)
  }

  /** The selection loop from `i` on: a strictly greater progress replaces the best so far. */
  function Scan(geo: Geo, t: Tower, es: seq<Enemy>, i: nat, best: Option<nat>, bar: real): (r: Option<nat>)
    requires ScanSoFar(geo, t, es, i, best, bar)
    ensures IsBest(geo, t, es, r)
    decreases |es| - i
  {
    if i == |es| then best
    else if Eligible(geo, t, es[i]) && Along(es[i]) > bar then Scan(geo, t, es, i + 1, Some(i), Along(es[i]))
    else Scan(geo, t, es, i + 1, best, bar)
  }

  /** The enemy closest to the base among those in range, by index into `es`. */
  function BestTarget(geo: Geo, t: Tower, es: seq<Enemy>): (r: Option<nat>)
    ensures IsBest(geo, t, es, r)
  {
    Scan(geo, t, es, 0, None, -1.0)
  }

  /** The choice is determined: at most one index satisfies the selection rule. */
  lemma BestIsUnique(geo: Geo, t: Tower, es: seq<Enemy>, r1: Option<nat>, r2: Option<nat>)
    requires IsBest(geo, t, es, r1) && IsBest(geo, t, es, r2)
    ensures r1 == r2
  {
  }

  /** When every enemy's progress is non-negative, a target is found exactly when one is eligible. */
  lemma BestFoundIffEligible(geo: Geo, t: Tower, es: seq<Enemy>)
    requires forall j :: 0 <= j < |es| ==> es[j].pathProgress >= 0.0
    ensures BestTarget(geo, t, es).Some? <==> exists j :: 0 <= j < |es| && Eligible(geo, t, es[j])
  {
    if j :| 0 <= j < |es| && Eligible(geo, t, es[j]) {
      assert Along(es[j]) >= 0.0;
    }
  }

  /** The tower's target after this update. */
  function NewTarget(geo: Geo, t: Tower, es: seq<Enemy>): (r: Option<Id>)
    ensures Keeps(geo, t, es) ==> r == t.targetId
    ensures r.Some? ==> exists j :: 0 <= j < |es| && es[j].id == r.value && Eligible(geo, t, es[j])
    ensures !Keeps(geo, t, es) ==>
      (r.None? <==> forall j :: 0 <= j < |es| && Eligible(geo, t, es[j]) ==> Along(es[j]) <= -1.0)
    ensures !Keeps(geo, t, es) && r.Some? ==> exists k: nat :: IsBest(geo, t, es, Some(k)) && es[k].id == r.value
  {
    if Keeps(geo, t, es) then t.targetId
    else
      match BestTarget(geo, t, es)
      case None => None
      case Some(k) => Some(es[k].id)
  }

  /** `updateTowerTarget` for one snapshot tower. */
  function Retarget(geo: Geo, s: Store, t: Tower, es: seq<Enemy>): Store
  {
    if Keeps(geo, t, es) then s
    else
      var cleared := if t.targetId.Some? then UpdateTower(s, t.id, (x: Tower) => x.(targetId := None)) else s;
      match BestTarget(geo, t, es)
      case None => cleared
      case Some(k) => UpdateTower(cleared, t.id, (x: Tower) => x.(targetId := Some(es[k].id)))
  }

  /** Fold over the tower snapshot. */
  function RetargetAll(geo: Geo, s: Store, ts: seq<Tower>, es: seq<Enemy>): Store
    decreases |ts|
  {
    if ts == [] then s else RetargetAll(geo, Retarget(geo, s, ts[0], es), ts[1..], es)
  }

  /** `update`: retarget every tower against the enemies as they were at the start. */
  function Update(geo: Geo, s: Store): Store
  {
    RetargetAll(geo, s, s.towers, s.enemies)
  }

  /** Every tower of `ts` with its target replaced by `NewTarget`. */
  function Retargeted(geo: Geo, ts: seq<Tower>, es: seq<Enemy>): (r: seq<Tower>)
    ensures |r| == |ts|
    ensures forall i :: 0 <= i < |ts| ==> r[i] == ts[i].(targetId := NewTarget(geo, ts[i], es))
  {
    seq(|ts|, i requires 0 <= i < |ts| => ts[i].(targetId := NewTarget(geo, ts[i], es)))
  }

  /** With unique ids, retargeting the tower at index `n` rewrites that one tower's target. */
  lemma RetargetStep(geo: Geo, s: Store, n: nat, es: seq<Enemy>)
    requires UniqueTowerIds(s.towers) && n < |s.towers|
    ensures Retarget(geo, s, s.towers[n], es)
         == s.(towers := s.towers[n := s.towers[n].(targetId := NewTarget(geo, s.towers[n], es))])
  {
    var t := s.towers[n];
    var want := s.towers[n := t.(targetId := NewTarget(geo, t, es))];
    var r := Retarget(geo, s, t, es);
    if !Keeps(geo, t, es) {
      forall i | 0 <= i < |s.towers|
        ensures r.towers[i] == want[i]
      {
        if i != n {
          assert s.towers[i].id != t.id;
        }
      }
      assert r.towers == want;
    }
  }

  /** Folding from index `n` with the towers before `n` already retargeted finishes the job. */
  lemma {:induction false} RetargetAllFrom(geo: Geo, s: Store, orig: seq<Tower>, es: seq<Enemy>, n: nat)
    requires UniqueTowerIds(orig) && n <= |orig| == |s.towers|
    requires forall i :: 0 <= i < n ==> s.towers[i] == orig[i].(targetId := NewTarget(geo, orig[i], es))
    requires forall i :: n <= i < |orig| ==> s.towers[i] == orig[i]
    ensures RetargetAll(geo, s, orig[n..], es) == s.(towers := Retargeted(geo, orig, es))
    decreases |orig| - n
  {
    if n == |orig| {
      assert s.towers == Retargeted(geo, orig, es);
    } else {
      assert UniqueTowerIds(s.towers) by {
        forall i, j | 0 <= i < j < |s.towers|
          ensures s.towers[i].id != s.towers[j].id
        {
          assert s.towers[i].id == orig[i].id && s.towers[j].id == orig[j].id;
        }
      }
      RetargetStep(geo, s, n, es);
      assert orig[n..][1..] == orig[n + 1..];
      var next := Retarget(geo, s, orig[n], es);
      RetargetAllFrom(geo, next, orig, es, n + 1);
    }
  }

  /**
   * With unique tower ids, one targeting update gives every tower exactly
   * `NewTarget` against the enemies at the start, and changes nothing else.
   */
  lemma UpdateRetargetsEveryTower(geo: Geo, s: Store)
    requires UniqueTowerIds(s.towers)
    ensures Update(geo, s) == s.(towers := Retargeted(geo, s.towers, s.enemies))
  {
    assert s.towers[0..] == s.towers;
    RetargetAllFrom(geo, s, s.towers, s.enemies, 0);
  }

  /** Retargeting touches only the towers. */
  lemma {:induction false} RetargetAllFrame(geo: Geo, s: Store, ts: seq<Tower>, es: seq<Enemy>)
    ensures var r := RetargetAll(geo, s, ts, es); r == s.(towers := r.towers)
    decreases |ts|
  {
    if ts != [] {
      RetargetAllFrame(geo, Retarget(geo, s, ts[0], es), ts[1..], es);
    }
  }
}

=== FILE: wav.dfy ===
/**
 * The WAVE serialiser of the synthesiser (src/core/SynthAudio.ts): the
 * channels of an audio buffer are interleaved frame by frame and written
 * as 16-bit PCM after the 44-byte header of the RIFF WAVE format
 * (Microsoft/IBM Multimedia Programming Interface and Data Specifications
 * 1.0: a `RIFF` form of type `WAVE` holding a `fmt ` chunk with format tag
 * 1 and a `data` chunk), every field little-endian.
 *
 * A typed-array store converts a number as JavaScript does: truncation
 * toward zero, then reduction modulo the field width.
 */
module Wav {
  import opened Geometry

  /** One byte of the output buffer. */
  newtype Byte = b: int | 0 <= b < 0x100

  const HeaderSize := 44
  const BytesPerSample := 2
  const BitDepth := 16
  const FormatPcm := 1

  const TwoTo8 := 0x100
  const TwoTo16 := 0x1_0000
  const TwoTo32 := 0x1_0000_0000

  // ----- Little-endian fields -----

  /** The two bytes a 16-bit store writes: the value modulo 2^16, low byte first. */
  function U16(v: int): (r: seq<Byte>)
    ensures |r| == 2
  {
    var m := v % TwoTo16;
    [(m % TwoTo8) as Byte, (m / TwoTo8) as Byte]
  }

  /** The four bytes a 32-bit store writes: the value modulo 2^32, low byte first. */
  function U32(v: int): (r: seq<Byte>)
    ensures |r| == 4
  {
    var m := v % TwoTo32;
    U16(m % TwoTo16) + U16(m / TwoTo16)
  }

  /** An unsigned 16-bit little-endian field. */
  function ReadU16(b: seq<Byte>, off: nat): nat
    requires off + 2 <= |b|
  {
    b[off] as int + TwoTo8 * b[off + 1] as int
  }

  /** A signed (two's complement) 16-bit little-endian field. */
  function ReadI16(b: seq<Byte>, off: nat): int
    requires off + 2 <= |b|
  {
    var u := ReadU16(b, off);
    if u >= 0x8000 then u - TwoTo16 else u
  }

  /** An unsigned 32-bit little-endian field. */
  function ReadU32(b: seq<Byte>, off: nat): nat
    requires off + 4 <= |b|
  {
    ReadU16(b, off) + TwoTo16 * ReadU16(b, off + 2)
  }

  /** Reading back a 16-bit field gives the value modulo 2^16. */
  lemma U16RoundTrip(v: int)
    ensures ReadU16(U16(v), 0) == v % TwoTo16
  {
  }

  /** Reading back a 32-bit field gives the value modulo 2^32. */
  lemma U32RoundTrip(v: int)
    ensures ReadU32(U32(v), 0) == v % TwoTo32
  {
    var m := v % TwoTo32;
    var lo, hi := m % TwoTo16, m / TwoTo16;
    assert m == lo + TwoTo16 * hi && 0 <= hi < TwoTo16;
    U16RoundTrip(lo);
    U16RoundTrip(hi);
    var b := U32(v);
    assert ReadU16(b, 0) == ReadU16(U16(lo), 0) == lo;
    assert ReadU16(b, 2) == ReadU16(U16(hi), 0) == hi;
  }

  /** A sample in the signed 16-bit range reads back as itself. */
  lemma I16RoundTrip(q: int)
    requires -0x8000 <= q < 0x8000
    ensures ReadI16(U16(q), 0) == q
  {
    U16RoundTrip(q);
  }

  // ----- The buffer and its writes -----

  /** `bytes` stored at `offset`; every other byte is left as it was. */
  function Put(buf: seq<Byte>, offset: nat, bytes: seq<Byte>): (r: seq<Byte>)
    requires offset + |bytes| <= |buf|
    ensures |r| == |buf|
    ensures forall i :: 0 <= i < |bytes| ==> r[offset + i] == bytes[i]
    ensures forall k :: 0 <= k < |buf| && !(offset <= k < offset + |bytes|) ==> r[k] == buf[k]
  {
    buf[..offset] + bytes + buf[offset + |bytes|..]
  }

  /** A write right after a filled prefix extends the prefix. */
  lemma PutExtends(buf: seq<Byte>, offset: nat, bytes: seq<Byte>, prefix: seq<Byte>)
    requires offset + |bytes| <= |buf| && |prefix| == offset && buf[..offset] == prefix
    ensures Put(buf, offset, bytes)[..offset + |bytes|] == prefix + bytes
    ensures Put(buf, offset, bytes)[offset + |bytes|..] == buf[offset + |bytes|..]
  {
  }

  /** The bytes `writeString` stores: each character's code, one byte each (modulo 256). */
  function Tag(str: string): (r: seq<Byte>)
    ensures |r| == |str|
  {
    seq(|str|, i requires 0 <= i < |str| => ((str[i] as int) % TwoTo8) as Byte)
  }

  /** `writeString`: character `i` of `str` at `offset + i`, nothing else touched. */
  function WriteString(buf: seq<Byte>, offset: nat, str: string): (r: seq<Byte>)
    requires offset + |str| <= |buf|
    ensures |r| == |buf|
    ensures forall i :: 0 <= i < |str| ==> r[offset + i] == ((str[i] as int) % TwoTo8) as Byte
    ensures forall k :: 0 <= k < |buf| && !(offset <= k < offset + |str|) ==> r[k] == buf[k]
  {
    Put(buf, offset, Tag(str))
  }

  function SetUint16(buf: seq<Byte>, offset: nat, v: int): seq<Byte>
    requires offset + 2 <= |buf|
  {
    Put(buf, offset, U16(v))
  }

  function SetUint32(buf: seq<Byte>, offset: nat, v: int): seq<Byte>
    requires offset + 4 <= |buf|
  {
    Put(buf, offset, U32(v))
  }

  // ----- Header -----

  /** The header as the format lays it out, field after field. */
  function HeaderBytes(numChannels: int, sampleRate: int, dataSize: int): (h: seq<Byte>)
    ensures |h| == HeaderSize
  {
    var blockAlign := numChannels * BytesPerSample;
    Tag("RIFF") + U32(36 + dataSize) + Tag("WAVE")
    + Tag("fmt ") + U32(16) + U16(FormatPcm) + U16(numChannels) + U32(sampleRate)
    + U32(sampleRate * blockAlign) + U16(blockAlign) + U16(BitDepth)
    + Tag("data") + U32(dataSize)
  }

  /** The header writes of `bufferToWav`, in the source's order and at its offsets. */
  function WriteHeader(buf: seq<Byte>, numChannels: int, sampleRate: int, dataSize: int): (r: seq<Byte>)
    requires |buf| >= HeaderSize
  {
    var blockAlign := numChannels * BytesPerSample;
    var b0 := WriteString(buf, 0, "RIFF");
    var b1 := SetUint32(b0, 4, 36 + dataSize);
    var b2 := WriteString(b1, 8, "WAVE");
    var b3 := WriteString(b2, 12, "fmt ");
    var b4 := SetUint32(b3, 16, 16);
    var b5 := SetUint16(b4, 20, FormatPcm);
    var b6 := SetUint16(b5, 22, numChannels);
    var b7 := SetUint32(b6, 24, sampleRate);
    var b8 := SetUint32(b7, 28, sampleRate * blockAlign);
    var b9 := SetUint16(b8, 32, blockAlign);
    var b10 := SetUint16(b9, 34, BitDepth);
    var b11 := WriteString(b10, 36, "data");
    SetUint32(b11, 40, dataSize)
  }

  /**
   * The header writes fill the first 44 bytes with exactly the format's
   * layout and leave the rest of the buffer alone.
   */
  lemma HeaderLayout(buf: seq<Byte>, numChannels: int, sampleRate: int, dataSize: int)
    requires |buf| >= HeaderSize
    ensures var r := WriteHeader(buf, numChannels, sampleRate, dataSize);
      |r| == |buf| && r[..HeaderSize] == HeaderBytes(numChannels, sampleRate, dataSize) && r[HeaderSize..] == buf[HeaderSize..]
  {
    var blockAlign := numChannels * BytesPerSample;
    var b0 := WriteString(buf, 0, "RIFF");
    PutExtends(buf, 0, Tag("RIFF"), []);
    var b1 := SetUint32(b0, 4, 36 + dataSize);
    PutExtends(b0, 4, U32(36 + dataSize), Tag("RIFF"));
    var p1 := Tag("RIFF") + U32(36 + dataSize);
    var b2 := WriteString(b1, 8, "WAVE");
    PutExtends(b1, 8, Tag("WAVE"), p1);
    var p2 := p1 + Tag("WAVE");
    var b3 := WriteString(b2, 12, "fmt ");
    PutExtends(b2, 12, Tag("fmt "), p2);
    var p3 := p2 + Tag("fmt ");
    var b4 := SetUint32(b3, 16, 16);
    PutExtends(b3, 16, U32(16), p3);
    var p4 := p3 + U32(16);
    var b5 := SetUint16(b4, 20, FormatPcm);
    PutExtends(b4, 20, U16(FormatPcm), p4);
    var p5 := p4 + U16(FormatPcm);
    var b6 := SetUint16(b5, 22, numChannels);
    PutExtends(b5, 22, U16(numChannels), p5);
    var p6 := p5 + U16(numChannels);
    var b7 := SetUint32(b6, 24, sampleRate);
    PutExtends(b6, 24, U32(sampleRate), p6);
    var p7 := p6 + U32(sampleRate);
    var b8 := SetUint32(b7, 28, sampleRate * blockAlign);
    PutExtends(b7, 28, U32(sampleRate * blockAlign), p7);
    var p8 := p7 + U32(sampleRate * blockAlign);
    var b9 := SetUint16(b8, 32, blockAlign);
    PutExtends(b8, 32, U16(blockAlign), p8);
    var p9 := p8 + U16(blockAlign);
    var b10 := SetUint16(b9, 34, BitDepth);
    PutExtends(b9, 34, U16(BitDepth), p9);
    var p10 := p9 + U16(BitDepth);
    var b11 := WriteString(b10, 36, "data");
    PutExtends(b10, 36, Tag("data"), p10);
    var p11 := p10 + Tag("data");
    PutExtends(b11, 40, U32(dataSize), p11);
  }

  /**
   * Reading the header back: the four tags at offsets 0, 8, 12 and 36, the
   * RIFF size `36 + dataSize`, a 16-byte `fmt ` chunk of format 1 with the
   * channel count, the sample rate, byte rate `sampleRate * channels * 2`,
   * block align `channels * 2` and 16 bits per sample, and the data size,
   * each modulo its field width.
   */
  lemma HeaderFields(numChannels: int, sampleRate: int, dataSize: int)
    ensures var h := HeaderBytes(numChannels, sampleRate, dataSize);
      && h[0..4] == Tag("RIFF") && h[8..12] == Tag("WAVE") && h[12..16] == Tag("fmt ") && h[36..40] == Tag("data")
      && ReadU32(h, 4) == (36 + dataSize) % TwoTo32
      && ReadU32(h, 16) == 16
      && ReadU16(h, 20) == 1
      && ReadU16(h, 22) == numChannels % TwoTo16
      && ReadU32(h, 24) == sampleRate % TwoTo32
      && ReadU32(h, 28) == (sampleRate * (numChannels * 2)) % TwoTo32
      && ReadU16(h, 32) == (numChannels * 2) % TwoTo16
      && ReadU16(h, 34) == 16
      && ReadU32(h, 40) == dataSize % TwoTo32
  {
    var h := HeaderBytes(numChannels, sampleRate, dataSize);
    HeaderTags(numChannels, sampleRate, dataSize);
    RiffSlices(numChannels, sampleRate, dataSize);
    FormatSlices(numChannels, sampleRate, dataSize);
    RateSlices(numChannels, sampleRate, dataSize);
    Read32At(h, 4, 36 + dataSize);
    Read32At(h, 16, 16);
    Read16At(h, 20, 1);
    Read16At(h, 22, numChannels);
    Read32At(h, 24, sampleRate);
    Read32At(h, 28, sampleRate * (numChannels * 2));
    Read16At(h, 32, numChannels * 2);
    Read16At(h, 34, 16);
    Read32At(h, 40, dataSize);
  }

  lemma HeaderTags(numChannels: int, sampleRate: int, dataSize: int)
    ensures var h := HeaderBytes(numChannels, sampleRate, dataSize);
      h[0..4] == Tag("RIFF") && h[8..12] == Tag("WAVE") && h[12..16] == Tag("fmt ") && h[36..40] == Tag("data")
  {
  }

  lemma RiffSlices(numChannels: int, sampleRate: int, dataSize: int)
    ensures var h := HeaderBytes(numChannels, sampleRate, dataSize);
      h[4..8] == U32(36 + dataSize) && h[16..20] == U32(16) && h[40..44] == U32(dataSize)
  {
  }

  lemma FormatSlices(numChannels: int, sampleRate: int, dataSize: int)
    ensures var h := HeaderBytes(numChannels, sampleRate, dataSize);
      h[20..22] == U16(1) && h[22..24] == U16(numChannels) && h[32..34] == U16(numChannels * 2) && h[34..36] == U16(16)
  {
  }

  lemma RateSlices(numChannels: int, sampleRate: int, dataSize: int)
    ensures var h := HeaderBytes(numChannels, sampleRate, dataSize);
      h[24..28] == U32(sampleRate) && h[28..32] == U32(sampleRate * (numChannels * 2))
  {
  }

  /** The 32-bit field at `off` of a buffer holding `U32(v)` there reads back as `v` modulo 2^32. */
  lemma Read32At(h: seq<Byte>, off: nat, v: int)
    requires off + 4 <= |h| && h[off..off + 4] == U32(v)
    ensures ReadU32(h, off) == v % TwoTo32
  {
    U32RoundTrip(v);
    assert ReadU32(h, off) == ReadU32(h[off..off + 4], 0);
  }

  /** The 16-bit field at `off` of a buffer holding `U16(v)` there reads back as `v` modulo 2^16. */
  lemma Read16At(h: seq<Byte>, off: nat, v: int)
    requires off + 2 <= |h| && h[off..off + 2] == U16(v)
    ensures ReadU16(h, off) == v % TwoTo16
  {
    U16RoundTrip(v);
    assert ReadU16(h, off) == ReadU16(h[off..off + 2], 0);
  }

  // ----- Samples -----

  /** Truncation toward zero, as a typed-array store applies it. */
  function Trunc(x: real): (r: int)
    ensures x >= 0.0 ==> r as real <= x < r as real + 1.0
    ensures x < 0.0 ==> r as real - 1.0 < x <= r as real
  {
    if x >= 0.0 then x.Floor else -((-x).Floor)
  }

  /**
   * One sample as stored: clamped to [-1, 1], then scaled by 32768 when
   * negative and by 32767 otherwise, and truncated.
   */
  function Quantize(x: real): (q: int)
    ensures -0x8000 <= q <= 0x7FFF
    ensures x >= 1.0 ==> q == 0x7FFF
    ensures x <= -1.0 ==> q == -0x8000
  {
    var c := Max(-1.0, Min(1.0, x));
    Trunc(if c < 0.0 then c * 32768.0 else c * 32767.0)
  }

  /** A louder sample never stores a smaller number. */
  lemma QuantizeMonotone(x: real, y: real)
    requires x <= y
    ensures Quantize(x) <= Quantize(y)
  {
    var cx, cy := Max(-1.0, Min(1.0, x)), Max(-1.0, Min(1.0, y));
    if cx < 0.0 && cy < 0.0 {
      assert (-cy * 32768.0).Floor <= (-cx * 32768.0).Floor;
    }
  }

  /** The encoded samples, two bytes each, in order. */
  function Samples(data: seq<real>): (r: seq<Byte>)
    ensures |r| == 2 * |data|
  {
    if data == [] then [] else Samples(data[..|data| - 1]) + U16(Quantize(data[|data| - 1]))
  }

  /** Sample `i` sits at bytes `2i` and `2i + 1` of the encoded samples and reads back as its quantized value. */
  lemma {:induction false} SampleAt(data: seq<real>, i: nat)
    requires i < |data|
    ensures Samples(data)[2 * i..2 * i + 2] == U16(Quantize(data[i]))
    ensures ReadI16(Samples(data), 2 * i) == Quantize(data[i])
  {
    var init := data[..|data| - 1];
    if i < |data| - 1 {
      SampleAt(init, i);
      assert Samples(data)[2 * i..2 * i + 2] == Samples(init)[2 * i..2 * i + 2];
    }
    I16RoundTrip(Quantize(data[i]));
  }

  // ----- Interleaving -----

  /** Slot `c` of frame `i` when frames hold `n` samples. */
  function Slot(i: nat, c: nat, n: nat): nat
  {
    i * n + c
  }

  lemma NextFrame(i: nat, n: nat)
    ensures (i + 1) * n == i * n + n
  {
  }

  lemma FramesMonotone(i: nat, j: nat, n: nat)
    requires i <= j
    ensures i * n <= j * n
  {
  }

  /** A slot of an earlier frame lies before every slot of a later frame, and the last frame ends the data. */
  lemma SlotBefore(i: nat, c: nat, n: nat, j: nat)
    requires c < n && i < j
    ensures Slot(i, c, n) < j * n
  {
    NextFrame(i, n);
    FramesMonotone(i + 1, j, n);
  }

  /** Different (frame, channel) pairs have different slots. */
  lemma SlotInjective(i: nat, c: nat, j: nat, d: nat, n: nat)
    requires c < n && d < n && (i, c) != (j, d)
    ensures Slot(i, c, n) != Slot(j, d, n)
  {
    if i < j {
      SlotBefore(i, c, n, j);
    } else if j < i {
      SlotBefore(j, d, n, i);
    }
  }

  /** Every channel holds `length` samples. */
  predicate Uniform(channels: seq<seq<real>>, length: nat)
  {
    forall c :: 0 <= c < |channels| ==> |channels[c]| == length
  }

  /**
   * `interleaveChannels`: a zero-filled array of `length * n` samples in
   * which, channel by channel, sample `i` of channel `c` is stored at slot
   * `i * n + c`.
   */
  method InterleaveChannels(channels: seq<seq<real>>, length: nat) returns (result: seq<real>)
    requires Uniform(channels, length)
    ensures |result| == length * |channels|
    ensures forall i, c :: 0 <= i < length && 0 <= c < |channels| ==>
      Slot(i, c, |channels|) < |result| && result[Slot(i, c, |channels|)] == channels[c][i]
  {
    var n := |channels|;
    result := seq(length * n, _ => 0.0);
    for channel := 0 to n
      invariant |result| == length * n
      invariant forall i, c :: 0 <= i < length && 0 <= c < channel ==>
        Slot(i, c, n) < |result| && result[Slot(i, c, n)] == channels[c][i]
    {
      for i := 0 to length
        invariant |result| == length * n
        invariant forall i', c :: 0 <= i' < length && 0 <= c < channel ==>
          Slot(i', c, n) < |result| && result[Slot(i', c, n)] == channels[c][i']
        invariant forall i' :: 0 <= i' < i ==>
          Slot(i', channel, n) < |result| && result[Slot(i', channel, n)] == channels[channel][i']
      {
        SlotBefore(i, channel, n, length);
        var k := Slot(i, channel, n);
        forall i', c | 0 <= i' < length && 0 <= c < channel
          ensures Slot(i', c, n) != k
        {
          SlotInjective(i', c, i, channel, n);
        }
        forall i' | 0 <= i' < i
          ensures Slot(i', channel, n) != k
        {
          SlotInjective(i', channel, i, channel, n);
        }
        result := result[k := channels[channel][i]];
      }
    }
  }

  /** Reading channel `c` back out of interleaved data: every `n`th sample from slot `c`. */
  function Channel(data: seq<real>, n: nat, length: nat, c: nat): (r: seq<real>)
    requires c < n && length * n <= |data|
    ensures |r| == length
  {
    seq(length, i requires 0 <= i < length => (SlotBefore(i, c, n, length); data[Slot(i, c, n)]))
  }

  /** De-interleaving gives every channel back. */
  lemma ChannelRoundTrip(channels: seq<seq<real>>, length: nat, data: seq<real>, c: nat)
    requires Uniform(channels, length) && c < |channels| && |data| == length * |channels|
    requires forall i, d :: 0 <= i < length && 0 <= d < |channels| ==>
      Slot(i, d, |channels|) < |data| && data[Slot(i, d, |channels|)] == channels[d][i]
    ensures Channel(data, |channels|, length, c) == channels[c]
  {
  }

  /**
   * The sample loop of `bufferToWav`: sample `i` stored as a signed 16-bit
   * value at `44 + 2i`. The header bytes stay as they were and the rest of
   * the buffer becomes the encoded samples.
   */
  method WriteSamples(buf: seq<Byte>, data: seq<real>) returns (out: seq<Byte>)
    requires |buf| == HeaderSize + BytesPerSample * |data|
    ensures out == buf[..HeaderSize] + Samples(data)
  {
    out := buf;
    for i := 0 to |data|
      invariant |out| == |buf|
      invariant out[..HeaderSize + 2 * i] == buf[..HeaderSize] + Samples(data[..i])
    {
      PutExtends(out, HeaderSize + 2 * i, U16(Quantize(data[i])), buf[..HeaderSize] + Samples(data[..i]));
      assert data[..i + 1][..i] == data[..i];
      out := SetUint16(out, HeaderSize + 2 * i, Quantize(data[i]));
    }
    assert data[..|data|] == data;
  }

  /**
   * `bufferToWav`: interleave, allocate a zeroed buffer of `44 + dataSize`
   * bytes with `dataSize = 2 * |samples|`, write the header, then the
   * samples. The result is the header laid out field by field followed by
   * the samples, sample `i` of channel `c` reading back, at slot
   * `i * channels + c`, as its quantized value.
   */
  method BufferToWav(channels: seq<seq<real>>, length: nat, sampleRate: int) returns (bytes: seq<Byte>)
    requires Uniform(channels, length)
    ensures |bytes| == HeaderSize + BytesPerSample * (length * |channels|)
    ensures bytes[..HeaderSize] == HeaderBytes(|channels|, sampleRate, BytesPerSample * (length * |channels|))
    ensures forall i, c :: 0 <= i < length && 0 <= c < |channels| ==>
      var k := Slot(i, c, |channels|);
      k < length * |channels| && ReadI16(bytes, HeaderSize + 2 * k) == Quantize(channels[c][i])
  {
    var n := |channels|;
    var data := InterleaveChannels(channels, length);
    assert |data| == length * n;
    var dataSize := BytesPerSample * |data|;
    var buf: seq<Byte> := seq(HeaderSize + dataSize, _ => 0);
    HeaderLayout(buf, n, sampleRate, dataSize);
    buf := WriteHeader(buf, n, sampleRate, dataSize);
    assert buf[..HeaderSize] == HeaderBytes(n, sampleRate, dataSize);
    bytes := WriteSamples(buf, data);
    assert bytes[..HeaderSize] == buf[..HeaderSize];
    forall i, c | 0 <= i < length && 0 <= c < n
      ensures ReadI16(bytes, HeaderSize + 2 * Slot(i, c, n)) == Quantize(channels[c][i])
    {
      SampleAfterHeader(buf[..HeaderSize], data, Slot(i, c, n));
    }
  }

  /** In a header followed by the encoded samples, sample `k` reads back at `44 + 2k`. */
  lemma SampleAfterHeader(header: seq<Byte>, data: seq<real>, k: nat)
    requires |header| == HeaderSize && k < |data|
    ensures ReadI16(header + Samples(data), HeaderSize + 2 * k) == Quantize(data[k])
  {
    SampleAt(data, k);
    assert ReadI16(header + Samples(data), HeaderSize + 2 * k) == ReadI16(Samples(data), 2 * k);
  }
}

=== FILE: wave_director.dfy ===
/**
 * The wave director (src/core/WaveManager.ts). A wave's groups are
 * flattened into a spawn queue; while spawning, a relative timer releases
 * at most one enemy per tick, once it reaches the head entry's delay. When
 * the queue has drained and the field is clear the wave is complete. The
 * director is a small state machine over `betweenWaves` and `isSpawning`.
 *
 * The delayed auto-start of later waves (a wall-clock timer in the source)
 * is the explicit `StartNextWave` command; enemy statistics and the spawn
 * point are parameters, and the new enemy's id comes from a counter.
 */
module WaveDirector {
  import opened Wrappers
  import opened Geometry
  import opened Model
  import opened Store
  import opened Entities

  /** One entry of the spawn queue. */
  datatype Spawn = Spawn(kind: EnemyType, delay: real)

  datatype Director = Director(
    waves: seq<Wave>,
    index: nat,
    queue: seq<Spawn>,
    spawnTimer: real,
    waveDelayTimer: real,
    isSpawning: bool,
    betweenWaves: bool)

  /** The director's state at construction. */
  function New(): Director
  {
    Director([], 0, [], 0.0, 0.0, false, true)
  }

  /** `initialize`: load the waves and publish their number; no wave has started. */
  function Initialize(waves: seq<Wave>, s: Store): (r: (Director, Store))
    ensures r.0 == New().(waves := waves)
    ensures r.1 == s.(totalWaves := |waves|, currentWave := 0)
  {
    (New().(waves := waves), s.(totalWaves := |waves|, currentWave := 0))
  }

  /** Number of enemies in a list of groups. */
  function Count(groups: seq<WaveEnemy>): nat
  {
    if groups == [] then 0 else groups[0].count + Count(groups[1..])
  }

  /** Where the entries of group `g` start in the queue. */
  function Offset(groups: seq<WaveEnemy>, g: nat): nat
    requires g <= |groups|
  {
    Count(groups[..g])
  }

  /** The queue entries of one group: the first immediately, the others after the group's delay. */
  function GroupQueue(group: WaveEnemy): (r: seq<Spawn>)
    ensures |r| == group.count
  {
    seq(group.count, i => Spawn(group.kind, if i == 0 then 0.0 else group.spawnDelay))
  }

  /** `buildSpawnQueue`: the groups' entries, group after group. */
  function BuildSpawnQueue(groups: seq<WaveEnemy>): (r: seq<Spawn>)
    ensures |r| == Count(groups)
  {
    if groups == [] then [] else GroupQueue(groups[0]) + BuildSpawnQueue(groups[1..])
  }

  /**
   * The queue holds, for every group in order and every `i` below its
   * count, the group's type at the group's offset plus `i`, with delay 0
   * for the group's first entry and the group's delay for the others.
   */
  lemma {:induction false} QueueOfGroup(groups: seq<WaveEnemy>, g: nat, i: nat)
    requires g < |groups| && i < groups[g].count
    ensures Offset(groups, g + 1) == Offset(groups, g) + groups[g].count
    ensures Offset(groups, g) + i < |BuildSpawnQueue(groups)|
    ensures BuildSpawnQueue(groups)[Offset(groups, g) + i]
         == Spawn(groups[g].kind, if i == 0 then 0.0 else groups[g].spawnDelay)
    decreases g
  {
    var rest := groups[1..];
    if g == 0 {
      assert groups[..1][1..] == [];
      assert groups[..0] == [];
    } else {
      QueueOfGroup(rest, g - 1, i);
      assert groups[..g][1..] == rest[..g - 1];
      assert groups[..g + 1][1..] == rest[..g];
    }
  }

  /**
   * `startNextWave`: a no-op when every wave has been started or one is in
   * progress; otherwise queue the next wave, publish its number, mark it in
   * progress with its queue length as the enemies remaining, and start
   * spawning with a fresh timer.
   */
  function StartNextWave(d: Director, s: Store): (r: (Director, Store))
    ensures d.index >= |d.waves| || s.waveInProgress ==> r == (d, s)
    ensures d.index < |d.waves| && !s.waveInProgress ==>
      var queue := BuildSpawnQueue(d.waves[d.index].enemies);
      && r.0 == d.(queue := queue, isSpawning := true, betweenWaves := false, spawnTimer := 0.0)
      && r.1 == s.(currentWave := d.index + 1, waveInProgress := true, enemiesRemainingInWave := |queue|)
  {
    if d.index >= |d.waves| || s.waveInProgress then (d, s)
    else
      var queue := BuildSpawnQueue(d.waves[d.index].enemies);
      (d.(queue := queue, isSpawning := true, betweenWaves := false, spawnTimer := 0.0),
       s.(currentWave := d.index + 1, waveInProgress := true, enemiesRemainingInWave := |queue|))
  }

  /**
   * `onWaveComplete`: the wave is no longer in progress and the index moves
   * on; if waves remain the director waits between waves with a fresh delay
   * timer.
   */
  function OnWaveComplete(d: Director, s: Store): (r: (Director, Store))
    ensures r.1 == s.(waveInProgress := false)
    ensures r.0.index == d.index + 1
    ensures d.index + 1 < |d.waves| ==> r.0 == d.(index := d.index + 1, betweenWaves := true, waveDelayTimer := 0.0)
    ensures d.index + 1 >= |d.waves| ==> r.0 == d.(index := d.index + 1)
  {
    var next := d.(index := d.index + 1);
    (if next.index < |d.waves| then next.(betweenWaves := true, waveDelayTimer := 0.0) else next,
     s.(waveInProgress := false))
  }

  /** The field is clear: no enemy on it and none left to come. */
  predicate Clear(s: Store)
  {
    |s.enemies| == 0 && s.enemiesRemainingInWave == 0
  }

  /** The director, the store and the id counter after a tick. */
  datatype Tick = Tick(director: Director, store: Store, nextId: Id)

  /**
   * `update`. Between waves only the first wave's delay timer runs, and the
   * first wave starts once it reaches 2 seconds. After spawning, the wave
   * completes when the field is clear. While spawning, the spawn timer runs
   * and the head of the queue spawns once the timer reaches its delay, the
   * timer then starting over; an empty queue ends spawning.
   */
  function Update(d: Director, s: Store, delta: real, stats: EnemyType -> EnemyStats, spawnPoint: Vec3, nextId: Id): (r: Tick)
    ensures r.store == s.(enemies := r.store.enemies, currentWave := r.store.currentWave,
                          waveInProgress := r.store.waveInProgress, enemiesRemainingInWave := r.store.enemiesRemainingInWave)
    ensures r.nextId == nextId || (r.nextId == nextId + 1 && |r.store.enemies| == |s.enemies| + 1)
    ensures r.director.waves == d.waves
  {
    if d.betweenWaves then
      if d.index == 0 then
        var timed := d.(waveDelayTimer := d.waveDelayTimer + delta);
        if timed.waveDelayTimer >= 2.0 then
          var (d2, s2) := StartNextWave(timed, s);
          Tick(d2, s2, nextId)
        else Tick(timed, s, nextId)
      else Tick(d, s, nextId)
    else if !d.isSpawning then
      if Clear(s) then
        var (d2, s2) := OnWaveComplete(d, s);
        Tick(d2, s2, nextId)
      else Tick(d, s, nextId)
    else
      var timed := d.(spawnTimer := d.spawnTimer + delta);
      if |d.queue| > 0 then
        var head := d.queue[0];
        if timed.spawnTimer >= head.delay then
          Tick(timed.(queue := d.queue[1..], spawnTimer := 0.0),
               AddEnemy(s, CreateEnemy(nextId, head.kind, spawnPoint, stats(head.kind))),
               nextId + 1)
        else Tick(timed, s, nextId)
      else Tick(timed.(isSpawning := false), s, nextId)
  }

  /**
   * While spawning, a tick spawns at most one enemy: the queue's head, once
   * the timer plus the time step reaches its delay, which resets the timer
   * and pops the queue. Nothing else in the store changes.
   */
  lemma SpawnsAtMostOne(d: Director, s: Store, delta: real, stats: EnemyType -> EnemyStats, spawnPoint: Vec3, nextId: Id)
    requires !d.betweenWaves && d.isSpawning
    ensures var r := Update(d, s, delta, stats, spawnPoint, nextId);
      && (|d.queue| > 0 && d.spawnTimer + delta >= d.queue[0].delay ==>
            && r.store == s.(enemies := s.enemies + [CreateEnemy(nextId, d.queue[0].kind, spawnPoint, stats(d.queue[0].kind))])
            && r.director == d.(queue := d.queue[1..], spawnTimer := 0.0)
            && r.nextId == nextId + 1)
      && (|d.queue| > 0 && d.spawnTimer + delta < d.queue[0].delay ==>
            r == Tick(d.(spawnTimer := d.spawnTimer + delta), s, nextId))
      && (|d.queue| == 0 ==> r == Tick(d.(spawnTimer := d.spawnTimer + delta, isSpawning := false), s, nextId))
  {
  }

  /**
   * A wave completes only after spawning has ended and the field is clear;
   * it then ends the wave in the store and moves the index on by exactly one.
   */
  lemma CompletesOnlyWhenClear(d: Director, s: Store, delta: real, stats: EnemyType -> EnemyStats, spawnPoint: Vec3, nextId: Id)
    ensures var r := Update(d, s, delta, stats, spawnPoint, nextId);
      r.director.index != d.index <==> !d.betweenWaves && !d.isSpawning && Clear(s)
    ensures var r := Update(d, s, delta, stats, spawnPoint, nextId);
      r.director.index != d.index ==>
        r.director.index == d.index + 1 && r.store == s.(waveInProgress := false) && r.nextId == nextId
  {
  }

  /**
   * Between waves at index 0, the delay timer accumulates, and the first
   * wave starts exactly on the tick it reaches 2 seconds (when there is a
   * wave and none is in progress).
   */
  lemma FirstWaveAutoStarts(d: Director, s: Store, delta: real, stats: EnemyType -> EnemyStats, spawnPoint: Vec3, nextId: Id)
    requires d.betweenWaves && d.index == 0 && |d.waves| > 0 && !s.waveInProgress
    ensures var r := Update(d, s, delta, stats, spawnPoint, nextId);
      && (d.waveDelayTimer + delta >= 2.0 ==>
            r.store.currentWave == 1 && r.store.waveInProgress && r.director.isSpawning && !r.director.betweenWaves
            && r.director.queue == BuildSpawnQueue(d.waves[0].enemies))
      && (d.waveDelayTimer + delta < 2.0 ==> r == Tick(d.(waveDelayTimer := d.waveDelayTimer + delta), s, nextId))
  {
  }

  /**
   * A director waiting between waves after the first never starts a wave by
   * itself: only the `StartNextWave` command moves it on.
   */
  lemma LaterWavesWaitForCommand(d: Director, s: Store, delta: real, stats: EnemyType -> EnemyStats, spawnPoint: Vec3, nextId: Id)
    requires d.betweenWaves && d.index > 0
    ensures Update(d, s, delta, stats, spawnPoint, nextId) == Tick(d, s, nextId)
  {
  }

  /** The director's phases never overlap: it is never spawning while between waves. */
  predicate Phased(d: Director)
  {
    d.isSpawning ==> !d.betweenWaves
  }

  lemma UpdateKeepsPhases(d: Director, s: Store, delta: real, stats: EnemyType -> EnemyStats, spawnPoint: Vec3, nextId: Id)
    requires Phased(d)
    ensures Phased(Update(d, s, delta, stats, spawnPoint, nextId).director)
    ensures Phased(StartNextWave(d, s).0)
  {
  }

  /**
   * Starting a wave queues exactly as many enemies as its groups count, and
   * that number is what the store reports as remaining.
   */
  lemma StartQueuesWholeWave(d: Director, s: Store)
    requires d.index < |d.waves| && !s.waveInProgress
    ensures var (d2, s2) := StartNextWave(d, s);
      |d2.queue| == s2.enemiesRemainingInWave == Count(d.waves[d.index].enemies)
  {
  }
}

=== FILE: wave_status.dfy ===
/**
 * The status line of the wave indicator
 * (src/ui/components/WaveIndicator.tsx): before the first wave it reads
 * "Preparing...", during a wave it reports the live enemy count and the
 * remaining count, after the last wave "All waves complete!", and between
 * waves "Wave complete!". Numbers are rendered as JavaScript renders
 * integers in a template string: decimal digits with a leading minus sign
 * for negatives.
 */
module WaveStatus {
  import opened Store

  /** The four cases of the status line. */
  datatype Status = Preparing | Fighting(enemies: nat, remaining: int) | AllComplete | WaveComplete

  /** `getStatusText`'s case split, checked in the source's order. */
  function Classify(s: Store): (r: Status)
    ensures r == Preparing <==> s.currentWave == 0
    ensures r.Fighting? <==> s.currentWave != 0 && s.waveInProgress
    ensures r.Fighting? ==> r.enemies == |s.enemies| && r.remaining == s.enemiesRemainingInWave
    ensures r == AllComplete <==> s.currentWave != 0 && !s.waveInProgress && s.currentWave >= s.totalWaves
    ensures r == WaveComplete <==> s.currentWave != 0 && !s.waveInProgress && s.currentWave < s.totalWaves
  {
    if s.currentWave == 0 then Preparing
    else if s.waveInProgress then Fighting(|s.enemies|, s.enemiesRemainingInWave)
    else if s.currentWave >= s.totalWaves then AllComplete
    else WaveComplete
  }

  predicate IsDigit(c: char) { '0' as int <= c as int <= '9' as int }

  function DigitChar(d: nat): (c: char)
    requires d < 10
    ensures IsDigit(c) && DigitValue(c) == d
  {
    ('0' as int + d) as char
  }

  /** Decimal digits of a natural number, without leading zeros. */
  function Digits(n: nat): (r: string)
    ensures |r| > 0 && forall i :: 0 <= i < |r| ==> IsDigit(r[i])
    ensures |r| > 1 ==> r[0] != '0'
  {
    if n < 10 then [DigitChar(n)] else Digits(n / 10) + [DigitChar(n % 10)]
  }

  /** A number as a template string shows it. */
  function Decimal(n: int): (r: string)
    ensures |r| > 0 && ' ' !in r
  {
    if n < 0 then "-" + Digits(-n) else Digits(n)
  }

  function DigitValue(c: char): (d: nat)
    requires IsDigit(c)
    ensures d < 10
  {
    c as int - '0' as int
  }

  /** The value of a string of decimal digits. */
  function ParseDigits(s: string): nat
    requires forall i :: 0 <= i < |s| ==> IsDigit(s[i])
  {
    if s == [] then 0 else 10 * ParseDigits(s[..|s| - 1]) + DigitValue(s[|s| - 1])
  }

  function ParseDecimal(s: string): int
    requires |s| > 0
    requires s[0] == '-' ==> forall i :: 1 <= i < |s| ==> IsDigit(s[i])
    requires s[0] != '-' ==> forall i :: 0 <= i < |s| ==> IsDigit(s[i])
  {
    if s[0] == '-' then -(ParseDigits(s[1..]) as int) else ParseDigits(s)
  }

  lemma {:induction false} DigitsRoundTrip(n: nat)
    ensures ParseDigits(Digits(n)) == n
  {
    if n >= 10 {
      DigitsRoundTrip(n / 10);
      var r := Digits(n);
      assert r[..|r| - 1] == Digits(n / 10);
    }
  }

  /** Reading a rendered number gives the number back. */
  lemma DecimalRoundTrip(n: int)
    ensures ParseDecimal(Decimal(n)) == n
  {
    if n < 0 {
      DigitsRoundTrip(-n);
      assert Decimal(n)[1..] == Digits(-n);
    } else {
      DigitsRoundTrip(n);
    }
  }

  /** Different numbers render differently. */
  lemma DecimalInjective(a: int, b: int)
    requires Decimal(a) == Decimal(b)
    ensures a == b
  {
    DecimalRoundTrip(a);
    DecimalRoundTrip(b);
  }

  function FightingText(enemies: nat, remaining: int): string
  {
    "Enemies: " + (Decimal(enemies) + " (" + (Decimal(remaining) + " remaining)"))
  }

  /** The status line. */
  function Text(st: Status): string
  {
    match st
    case Preparing => "Preparing..."
    case Fighting(enemies, remaining) => FightingText(enemies, remaining)
    case AllComplete => "All waves complete!"
    case WaveComplete => "Wave complete!"
  }

  /** `getStatusText`. */
  function StatusText(s: Store): string
  {
    Text(Classify(s))
  }

  /** Where the shorter word ends, the longer one carries the separator's first character. */
  lemma SeparatorAt(a: string, b: string, sep: string, x: string, y: string)
    requires |sep| > 0 && |a| < |b| && a + sep + x == b + sep + y
    ensures b[|a|] == sep[0]
  {
    assert (a + sep + x)[|a|] == sep[0];
    assert (b + sep + y)[|a|] == b[|a|];
  }

  /** Two words joined by a separator that starts with a space split back apart when neither word has a space. */
  lemma SplitAtSpace(a: string, b: string, sep: string, x: string, y: string)
    requires |sep| > 0 && sep[0] == ' ' && ' ' !in a && ' ' !in b
    requires a + sep + x == b + sep + y
    ensures a == b && x == y
  {
    var u := a + sep + x;
    if |a| < |b| {
      SeparatorAt(a, b, sep, x, y);
      assert false;
    } else if |b| < |a| {
      SeparatorAt(b, a, sep, y, x);
      assert false;
    } else {
      assert a == u[..|a|] == b;
      assert x == u[|a| + |sep|..] == y;
    }
  }

  lemma PrefixCancels(p: string, x: string, y: string)
    requires p + x == p + y
    ensures x == y
  {
    assert x == (p + x)[|p|..];
  }

  lemma SuffixCancels(x: string, y: string, q: string)
    requires x + q == y + q
    ensures x == y
  {
    assert x == (x + q)[..|x|];
  }

  /** The line shown during a wave names both counts. */
  lemma FightingTextIsFaithful(n1: nat, m1: int, n2: nat, m2: int)
    requires FightingText(n1, m1) == FightingText(n2, m2)
    ensures n1 == n2 && m1 == m2
  {
    var tail := " remaining)";
    PrefixCancels("Enemies: ", Decimal(n1) + " (" + (Decimal(m1) + tail), Decimal(n2) + " (" + (Decimal(m2) + tail));
    SplitAtSpace(Decimal(n1), Decimal(n2), " (", Decimal(m1) + tail, Decimal(m2) + tail);
    SuffixCancels(Decimal(m1), Decimal(m2), tail);
    DecimalInjective(n1, n2);
    DecimalInjective(m1, m2);
  }

  /** The status line tells the status apart: different statuses never read the same. */
  lemma TextIsFaithful(s1: Status, s2: Status)
    requires Text(s1) == Text(s2)
    ensures s1 == s2
  {
    if s1.Fighting? && s2.Fighting? {
      FightingTextIsFaithful(s1.enemies, s1.remaining, s2.enemies, s2.remaining);
    } else {
      assert Text(s1)[0] == Text(s2)[0];
    }
  }
}

=== FILE: wrappers.dfy ===
/** Optional values: the model's stand-in for TypeScript's `null` / `undefined`. */
module Wrappers {

  datatype Option<+T> = None | Some(value: T) {

    /** Returns the value inside Some, or the default when None. */
    function GetOr(default: T): T
    {
      match this
      case Some(v) => v
      case None => default
    }
  }
}
